=== FILE: README.md ===
# GRIT coach app — a Dafny model of its core

GRIT-APP-COACH is a single-page coaching tool for a small functional-training
studio. A coach chooses a class type and asks a generative service for the
day's session. The session is kept in a newest-first history of at most sixty
entries. A training cycle (mesocycle) and an annual plan (macrocycle) travel
with each request, next to an equipment inventory and a list of benchmarks.
Everything is stored in the browser's local storage, and a backup file
exports and restores it. Around the session sit:

- an interval timer (stopwatch, countdown, EMOM);
- a month calendar of past sessions;
- a chat with the coach assistant;
- per-session notes that can be dictated;
- a share text for messaging apps.

This project models that core in Dafny, as immutable datatypes and pure
functions, one module per source file:

| module | source |
|---|---|
| `Types` | `types.ts` |
| `History` | the history rules of `App.tsx` |
| `App` | `App.tsx` |
| `Storage` | the local-storage slots |
| `Settings` | `components/SettingsModal.tsx` |
| `CycleManager` | `components/CycleManager.tsx` |
| `AnnualPlanner` | `components/AnnualPlanner.tsx` |
| `LabAnalytics` | `components/LabAnalytics.tsx` |
| `Timer` | `components/TimerWidget.tsx` |
| `Calendar` | `components/CalendarView.tsx` |
| `ClassSelector` | `components/ClassSelector.tsx` |
| `ChatAssistant` | `components/ChatAssistant.tsx` |
| `WorkoutDisplay` | `components/WorkoutDisplay.tsx` |
| `GeminiService` | `services/geminiService.ts` |

Three support modules hold what the program takes from JavaScript:

- `Wrappers`: `Option`, used for `undefined` and `null`.
- `JsText`: `trim` and `\s`, `toLowerCase`, `String(n)`, `padStart`, `join` and `split`.
- `Seqs`: filtering and replacing by id.

Everything outside the program is a parameter of the function that uses it:

- the generative service: a function from request to reply, or the reply itself;
- the clock (`Date.now()`, today's date);
- `crypto.randomUUID()` and `Math.random()` draws;
- the locale-formatted date labels;
- the conversion of a time value to a local calendar date.

Behaviour the model makes explicit (each is proved):

- Imported histories are taken as written. The sixty-entry bound holds after
  generation, but not after an import (`App.ImportCanExceedBound`).
- The service only sees the first five history entries
  (`App.GenerateSeesOnlyContext`). They are the five newest whenever the
  history is newest first (`History.ContextIsNewest`), which an imported
  history need not be. The prompt shows only the first three of them
  (`GeminiService.FatigueLines`).
- The generation handler records into the history of the render it was
  called from. A session deleted while the service works comes back when the
  service answers without rejecting, provided the captured history had
  fewer than sixty entries (`App.DeleteDuringGenerateUndone`).
- The timer's interval keeps the speaker setting it was created with.
  Muting while it runs does not silence it until it is re-created by a
  start or pause, a mode change, a new round or a change of the total rounds
  (`Timer.MutedCountdownStillBeeps`).
- The annual plan and the benchmarks go into every request, but the prompt
  never uses them (`GeminiService.PromptIgnoresAnnualAndBenchmarks`).
- Pressing "-" during the last EMOM round can leave the round counter above
  the total (`Timer.RoundAboveTotal`).
- The calendar builds dates with `new Date(year, month, 1)`. That
  constructor reads years 0–99 as 1900–1999, so going back from January of
  year 100 lands in November 1999 (`Calendar.PrevAcrossYear100`).
- In the share text, `\s+` also matches line breaks. A line holding only `#`
  therefore swallows the next line as its heading
  (`WorkoutDisplay.BareHashJoinsNextLine`).

## Model

| member | source | states |
|---|---|---|
| Types.ParseClassType | types.ts:2-7 | a parsed class name is one of the four enum values, and renders back to the same string |
| Types.ClassTypeRoundTrip | types.ts:2-7 | each class type's string value parses back to that class type |
| JsText.Trim | components/CycleManager.tsx:22-32 | `trim` yields the text between the leading and trailing white-space runs, empty exactly when the input is all white space |
| JsText.TrimIdempotent | components/CycleManager.tsx:31-32 | trimming a trimmed name or goal changes nothing |
| JsText.NatToDecimal | App.tsx:101 | `String(n)` of a natural number: digits only, no leading zero, one digit exactly below ten |
| JsText.IntToString | App.tsx:101 | `String(i)`: a minus sign before the magnitude's digits for negative time values |
| JsText.DecimalRoundTrip | App.tsx:101 | reading back the decimal rendering of n gives n |
| JsText.PadStart | components/TimerWidget.tsx:120 | `padStart(n, fill)`: length max(n, |s|), fill characters on the left, the text at the right end |
| JsText.Join | services/geminiService.ts:57-59 | `join` of non-empty parts is empty exactly when there are no parts |
| JsText.JoinAppend | services/geminiService.ts:64 | joining one more part appends the separator and that part |
| JsText.SplitJoin | services/geminiService.ts:57-60 | splitting a join on its separator gives the parts back when no part contains it |
| JsText.SplitAroundSeparator | components/WorkoutDisplay.tsx:75 | splitting `a + sep + b` is splitting `a` followed by splitting `b` |
| JsText.SplitFirst | components/CalendarView.tsx:117 | the first piece of `split` is the text before the first separator |
| Seqs.WithoutKey | App.tsx:181 | `filter(x => x.id !== id)`: exactly the elements with another id remain |
| Seqs.WithoutKeyLength | App.tsx:181 | the filter drops exactly as many elements as carry the id |
| Seqs.WithoutKeyAppend | App.tsx:181 | the filter keeps relative order: it distributes over concatenation |
| Seqs.WithoutAbsentKey | App.tsx:181 | filtering an id nobody has changes nothing |
| Seqs.WithoutKeyIdempotent | App.tsx:181 | deleting twice is deleting once |
| Seqs.ReplaceKey | App.tsx:194 | `map(w => w.id === id ? u : w)`: same length, matching positions replaced, others untouched |
| Seqs.ReplaceKeyKeepsKeys | App.tsx:194 | replacing by an element with the same id keeps the id sequence |
| Seqs.ReplaceKeyIdempotent | App.tsx:194 | replacing twice is replacing once |
| Seqs.ReplaceThenRemove | App.tsx:181-194 | deleting an id after updating it gives the same list as deleting it directly |
| History.InsertDesc | App.tsx:109 | inserting into the history adds exactly one element |
| History.StableSort | App.tsx:109 | the sort preserves length |
| History.InsertDescSorted | App.tsx:109 | insertion keeps a newest-first list newest first |
| History.InsertDescMultiset | App.tsx:109 | insertion adds exactly the new session to the multiset of entries |
| History.InsertDescStable | App.tsx:109 | insertion keeps the order among equal timestamps and puts the new session in front of its equals |
| History.InsertDescPosition | App.tsx:109 | the new session lands after exactly the entries strictly newer than it |
| History.CountNewerInsert | App.tsx:109 | insertion adds one to the newer-than-t count exactly when the new session is newer than t |
| History.CountNewerSort | App.tsx:109 | sorting does not change how many entries are newer than t |
| History.StableSortCorrect | App.tsx:109 | `sort((a,b) => b.timestamp - a.timestamp)`: newest first, a permutation, and the same order among equal timestamps |
| History.StableSortUnique | App.tsx:109 | a newest-first list with the same per-timestamp order as the input is unique, so the stable sort is determined |
| History.SortSortedIsIdentity | App.tsx:109 | sorting an already newest-first history changes nothing |
| History.Record | App.tsx:109 | the recorded history has at most sixty entries, is newest first, holds only the new session and old entries, and below sixty old entries is exactly the old ones plus the new |
| History.RecordUnfold | App.tsx:109 | recording is inserting the new session into the stably sorted history, then keeping the first sixty |
| History.NewWorkoutKeptIff | App.tsx:109 | the new session survives the cut exactly when fewer than sixty entries are strictly newer |
| History.RecordFullOfNewer | App.tsx:109 | with sixty or more strictly newer entries, the new session is dropped and the sixty newest old entries remain |
| History.RecordOnSorted | App.tsx:109 | on a newest-first history, recording is a single insertion followed by the cut |
| History.RecordStable | App.tsx:109 | among equal timestamps, the recorded order is a prefix of `[new, ...history]` in that order |
| History.NewestRecordedFirst | App.tsx:108-109 | a session no older than every entry is recorded at the head |
| History.Delete | App.tsx:181 | exactly the entries with another id remain, and the length drops by the number of matching entries |
| History.DeleteKeepsSorted | App.tsx:181 | deletion keeps a newest-first history newest first |
| History.DeleteKeepsOrder | App.tsx:181 | deletion distributes over concatenation, so the survivors keep their order |
| History.Replace | App.tsx:194 | the update maps entries with the id to the updated session and leaves the rest |
| History.ReplaceKeepsSorted | App.tsx:194 | an update that keeps timestamps keeps the history newest first |
| History.Context | App.tsx:88 | `history.slice(0, 5)`: a prefix of length min(5, |h|) |
| History.ContextIsNewest | App.tsx:88 | on a newest-first history every context entry is at least as new as every entry left out |
| App.DefaultEquipmentFacts | App.tsx:16-35 | the default inventory has eighteen items, 68 units in total, and passes the logistics check |
| App.Load | App.tsx:48-68 | each stored slot is read; missing history and benchmarks give empty lists, a missing inventory gives the default one; nothing shown, not loading |
| App.Persist | App.tsx:70-81 | lists are always written; cycle and plan are written when present and removed when absent |
| App.LoadPersist | App.tsx:48-81 | reloading what was persisted gives back history, cycle, plan, inventory and benchmarks |
| App.PersistLoad | App.tsx:48-81 | loading then persisting leaves the store as it was, except that missing list slots are filled with their defaults |
| App.FullRequest | App.tsx:86-93 | the request keeps the base's type, focus and date and adds the first five history entries (the five newest whenever the history is newest first), the cycle, the plan, the inventory and the benchmarks |
| App.HandleGenerate | App.tsx:83-116 | a rejected call only clears loading; otherwise the new session, with id `wod-<now>` and the requested date and time value, is shown and recorded into the history, and the other state is kept |
| App.StartGenerate | App.tsx:84 | the spinner turns on and nothing else changes |
| App.CompleteGenerate | App.tsx:85-115 | the request and the recorded-into history are those of the render the handler was called from; a rejected call only clears loading on the current state; otherwise the new session is shown and the history becomes the captured one with it recorded |
| App.DeleteDuringGenerateUndone | App.tsx:109-110 | a session deleted while a generation is pending is back in the history once the service answers without rejecting, when the captured history had fewer than sixty entries |
| App.GenerateKeepsHistoryOrdered | App.tsx:108-110 | after generation the history has at most sixty entries, is newest first, holds only the new and old sessions, and has a newest session at its head |
| App.GenerateSeesOnlyContext | App.tsx:86-93 | two histories with the same first five entries yield the same request |
| App.DeleteWorkout | App.tsx:178-182 | a confirmed delete removes exactly the entries with that id, keeps newest-first order, and changes nothing else |
| App.OnUpdate | App.tsx:191-195 | an edit replaces the shown session when the ids match, and every history entry with that id; nothing else changes |
| App.UpdateKeepsHistorySorted | App.tsx:191-195 | saving the shown session's edit keeps the history newest first |
| App.OnImport | App.tsx:207 | an import sets history and cycle as given and nothing else |
| App.ImportCanExceedBound | App.tsx:207 | an imported history longer than sixty entries is kept whole |
| Settings.Export | components/SettingsModal.tsx:68-75 | the backup holds history, cycle, export time, and the stored inventory and benchmarks (`[]` for an empty slot) |
| Settings.Import | components/SettingsModal.tsx:93-103 | a parse failure changes nothing; a present history replaces history and cycle; each list slot changes exactly when the file carries a different list for it |
| Settings.ExportImportRoundTrip | components/SettingsModal.tsx:68-103 | importing an export restores the exported history, cycle and lists over any state |
| Settings.ImportIdempotent | components/SettingsModal.tsx:93-103 | importing the same file twice equals importing it once |
| CycleManager.NewCycle | components/CycleManager.tsx:20-36 | no cycle when the name or the goal is blank; otherwise the trimmed name and goal, week 1, and the chosen duration (4 when unset) |
| CycleManager.HandleCreate | components/CycleManager.tsx:20-41 | a blank form changes nothing; otherwise the cycle becomes active, creation closes and the form resets |
| CycleManager.CreatedWeekInRange | components/CycleManager.tsx:33-108 | a created cycle starts in week 1 of its total (4 when unset, else one of the offered 2, 3, 4, 5, 6, 8 or 12 weeks), so its week is within 1..total |
| CycleManager.Advance | components/CycleManager.tsx:43-48 | the week rises by one exactly when it is below the total; all other fields are kept |
| CycleManager.Retreat | components/CycleManager.tsx:50-55 | the week drops by one exactly when it is above 1; all other fields are kept |
| CycleManager.AdvanceRetreatInverse | components/CycleManager.tsx:43-55 | within range, advancing then going back (and the reverse) returns the same cycle |
| CycleManager.Close | components/CycleManager.tsx:57-61 | a confirmed close clears the cycle, a cancelled one keeps it |
| CycleManager.ClosedIsInert | components/CycleManager.tsx:57-61 | after a confirmed close no sequence of week steps brings a cycle back; after a cancelled one they act as before |
| CycleManager.RunKeepsWeekInRange | components/CycleManager.tsx:43-55 | any sequence of week steps keeps the week within 1..total and the rest of the cycle unchanged |
| AnnualPlanner.IntensityHeightMonotone | components/AnnualPlanner.tsx:16-21 | bar heights lie in (0, 100] and grow strictly with intensity |
| AnnualPlanner.CreatePlan | components/AnnualPlanner.tsx:26-40 | twelve phases, one per month in calendar order, with the default goal, medium intensity and the default focus; named after the year |
| AnnualPlanner.UpdatePhase | components/AnnualPlanner.tsx:42-47 | only the phase at the index changes, merged with the given fields; the plan's other fields and phases stay |
| AnnualPlanner.UpdateNothing | components/AnnualPlanner.tsx:42-47 | an empty update changes nothing |
| AnnualPlanner.UpdateTwice | components/AnnualPlanner.tsx:42-47 | two updates of one phase equal one combined update, later fields winning |
| AnnualPlanner.UpdatesCommute | components/AnnualPlanner.tsx:42-47 | updates of different phases commute |
| AnnualPlanner.SelectGoal | components/AnnualPlanner.tsx:130-141 | choosing option k sets that phase's goal to the k-th of the six offered goals; the phase's other fields and every other phase stay |
| AnnualPlanner.DefaultGoalNotOffered | components/AnnualPlanner.tsx:33 | a new plan's goal is none of the offered options, and no choice in the select gives it back |
| LabAnalytics.AddEquipment | components/LabAnalytics.tsx:25-29 | an unnamed form changes nothing; otherwise exactly one item with the fresh id and the form's fields is appended and the form resets |
| LabAnalytics.AddBenchmark | components/LabAnalytics.tsx:31-41 | without name or description nothing changes; otherwise one benchmark is appended, the panel closes and the form resets |
| LabAnalytics.DeleteEquipment | components/LabAnalytics.tsx:114 | exactly the items with another id remain; the length drops by the number of matching items |
| LabAnalytics.DeleteBenchmark | components/LabAnalytics.tsx:172 | exactly the benchmarks with another id remain; the length drops by the number of matching ones |
| LabAnalytics.AddThenDeleteBenchmark | components/LabAnalytics.tsx:31-41 | deleting a benchmark just added under a fresh id gives the list back, also when the form was refused |
| LabAnalytics.TotalUnitsAppend | components/LabAnalytics.tsx:44 | the unit total of a concatenation is the sum of the totals |
| LabAnalytics.AddEquipmentTotal | components/LabAnalytics.tsx:25-44 | adding an item raises the total by its quantity, and leaves it unchanged for an unnamed form |
| LabAnalytics.DeleteEquipmentTotal | components/LabAnalytics.tsx:44-114 | after deleting by id, the displayed total, summed over the remaining items, is the old total minus the units carrying that id |
| LabAnalytics.IsLogisticsHealthy | components/LabAnalytics.tsx:44-45 | healthy exactly when some item has three or more units or the total exceeds fifteen |
| LabAnalytics.HealthyAfterLargeItem | components/LabAnalytics.tsx:25-45 | adding a named item with three or more units makes the inventory healthy |
| LabAnalytics.BumpFacts | components/LabAnalytics.tsx:48-51 | one reduce step raises the count of that type by one and keeps the table well formed |
| LabAnalytics.CountForPositive | components/LabAnalytics.tsx:48-51 | in a well-formed table a type has a positive count exactly when it has an entry |
| LabAnalytics.TypeDistributionCorrect | components/LabAnalytics.tsx:48-51 | the distribution counts each class type exactly as often as it occurs in the history, lists a type exactly when it occurs, and its counts add up to the history's length |
| Timer.Tick | components/TimerWidget.tsx:57-96 | the stopwatch counts up; the other modes count down, restart a round at 60 (EMOM) or 20 (Tabata) while rounds remain, and stop at 0; a paused timer does not move |
| Timer.Cues | components/TimerWidget.tsx:32-77 | a tick reaching 3, 2, 1 or 0 in a counting-down mode flashes, and only those do; it also beeps, 1320 Hz for 0.8 s on reaching 0 and 880 Hz for 0.15 s otherwise, exactly when the speaker was on in the render that created the running interval |
| Timer.Toggle | components/TimerWidget.tsx:104-107 | start/pause flips only the running flag |
| Timer.Reset | components/TimerWidget.tsx:109-115 | stops, goes back to round 1, and sets the time to 60, 20, the initial time or 0 by mode |
| Timer.SelectMode | components/TimerWidget.tsx:136-139 | a mode button stops the timer, sets round 1 and time 60 for EMOM or 0 otherwise |
| Timer.IncRounds | components/TimerWidget.tsx:168 | "+" adds one round to the total and nothing else |
| Timer.DecRounds | components/TimerWidget.tsx:166 | "-" removes one round from the total but never goes below one |
| Timer.ToggleSound | components/TimerWidget.tsx:130 | the speaker button flips only the sound flag |
| Timer.Rearm | components/TimerWidget.tsx:57-102 | the interval is re-created, taking the current speaker setting, exactly when the running flag, the mode, the round or the total changes; otherwise the captured setting stays |
| Timer.SoundButtonKeepsCues | components/TimerWidget.tsx:32-33 | the speaker button flips the setting but changes nothing a running interval plays |
| Timer.MutedCountdownStillBeeps | components/TimerWidget.tsx:32-33 | the speaker button flips the setting, yet during the last seconds of a countdown started with sound the tick still beeps |
| Timer.StartCapturesSound | components/TimerWidget.tsx:57-102 | starting the clock captures the speaker setting of that moment |
| Timer.NewRoundCapturesSound | components/TimerWidget.tsx:80-82 | a new round re-creates the interval with the speaker setting of that moment |
| Timer.StepValid | components/TimerWidget.tsx:57-168 | every button or tick keeps time non-negative, round and total at least one, and the mode among the rendered ones |
| Timer.RunValid | components/TimerWidget.tsx:57-168 | every sequence of events from a valid state keeps it valid |
| Timer.InitialValid | components/TimerWidget.tsx:8-14 | the initial state is valid |
| Timer.ResetForgetsTicks | components/TimerWidget.tsx:109-115 | reset after a tick, or twice, is the same as reset once |
| Timer.SelectModeIsReset | components/TimerWidget.tsx:109-139 | choosing a mode is resetting in that mode |
| Timer.TicksAdd | components/TimerWidget.tsx:57-97 | a + b ticks are a ticks followed by b ticks |
| Timer.StopwatchCounts | components/TimerWidget.tsx:63-64 | a running stopwatch shows n more seconds after n ticks |
| Timer.CountdownStops | components/TimerWidget.tsx:65-95 | a countdown from k reaches 0 after k ticks, and stops at 0 on the next one |
| Timer.RoundsFinish | components/TimerWidget.tsx:74-87 | an interval session runs its remaining rounds to zero, then stops on the last round |
| Timer.LastRoundStops | components/TimerWidget.tsx:79-86 | in the last round the session stops when the time reaches zero |
| Timer.RoundAboveTotal | components/TimerWidget.tsx:80-166 | lowering the total during the last round leaves round 5 of 4; no new round then starts and the session stops at zero |
| Timer.JsRem | components/TimerWidget.tsx:119 | JavaScript's `%`: the remainder has the dividend's sign and a smaller magnitude than the divisor |
| Timer.JsRemOdd | components/TimerWidget.tsx:119 | `%` is odd in the dividend and equals the mathematical remainder for non-negative values |
| Timer.FormatTime | components/TimerWidget.tsx:117-121 | `mm:ss` with a colon before the last two digits; exactly five characters below 6000 seconds |
| Timer.FormatTimeRoundTrip | components/TimerWidget.tsx:117-121 | reading minutes and seconds back from the display gives the number of seconds |
| Timer.ParseClockPieces | components/TimerWidget.tsx:117-121 | a digit run, a colon and two digits below 60 read back as 60 times the minutes plus the seconds |
| Calendar.MonthLength | components/CalendarView.tsx:13-15 | a month has 28 to 31 days |
| Calendar.WholeYear | components/CalendarView.tsx:13-15 | the month lengths of a year add up to 365 or 366 |
| Calendar.Weekday | components/CalendarView.tsx:19 | `getDay()`: a weekday number in 0..6, Sunday 0 |
| Calendar.WeekdayAnchors | components/CalendarView.tsx:19 | 1 January 1970 is a Thursday and 1 January 2000 a Saturday |
| Calendar.FullYear | components/CalendarView.tsx:14-28 | `new Date(y, m, d)` reads years 0..99 as 1900..1999 |
| Calendar.MakeCursor | components/CalendarView.tsx:23-29 | a month index of -1 or 12 carries into the previous or next year |
| Calendar.PrevNextInverse | components/CalendarView.tsx:23-29 | from year 101 on, previous and next month undo each other |
| Calendar.PrevAcrossYear100 | components/CalendarView.tsx:23-25 | going back from January of year 100 gives December 99, then November 1999 |
| Calendar.DaysInMonth | components/CalendarView.tsx:13-15 | day 0 of the next month is the last day: 28 to 31 days |
| Calendar.FirstDayOfMonth | components/CalendarView.tsx:17-21 | the first day's column with Monday as 0 |
| Calendar.NextMonthContinues | components/CalendarView.tsx:17-29 | the next month's first column follows this month's last day, except across year -1 to 0 |
| Calendar.NextMonthBreaks | components/CalendarView.tsx:27-28 | after December of year -1 comes January of year 0, whose day count and grid are computed for January 1900 (year -1 is never reached: going back from January of year 100 jumps to 1999, see `Calendar.PrevAcrossYear100`) |
| Calendar.Grid | components/CalendarView.tsx:35-94 | blank cells up to the month's first weekday (Monday first), then days 1..n, at most 37 cells |
| Calendar.GridColumnIsWeekday | components/CalendarView.tsx:81-94 | every day cell's column is that date's weekday, Monday first |
| Calendar.HeaderMatches | components/CalendarView.tsx:81 | the header letters name the weekdays of their columns |
| Calendar.WorkoutsForDay | components/CalendarView.tsx:42-51 | exactly the sessions whose local date is that day of the shown month |
| Calendar.FirstWorkoutOfDay | components/CalendarView.tsx:42-107 | the session a day opens is a history entry dated that day, and no earlier history entry has that date |
| Calendar.SelectDay | components/CalendarView.tsx:107 | clicking a day selects a session of that day, and nothing exactly when the day has none |
| Calendar.BadgeLabels | components/CalendarView.tsx:117 | the badges read "Functional", "Strongman", "Endurance" and "Pilates" |
| ClassSelector.HandleGenerate | components/ClassSelector.tsx:16-25 | a request is emitted exactly when a class is chosen, carrying its type, the focus and the date and no context |
| ClassSelector.EnabledEmits | components/ClassSelector.tsx:127-128 | when the button is enabled, pressing it emits a request |
| ClassSelector.EmptyFocusGetsDefault | components/ClassSelector.tsx:16-25 | an empty focus reaches the prompt as the default focus line |
| ClassSelector.CardsCoverClassTypes | components/ClassSelector.tsx:27-56 | four cards, one per class type, titled by the type's value except Pilates |
| ClassSelector.SelectCard | components/ClassSelector.tsx:65 | clicking a card chooses its type and keeps focus and date |
| ChatAssistant.Send | components/ChatAssistant.tsx:24-30 | blank input or a pending reply does nothing; otherwise the raw input is logged, the input cleared, loading set, and the earlier log sent |
| ChatAssistant.Complete | components/ChatAssistant.tsx:32-39 | one model message is appended, the reply or the connection error, and loading stops |
| ChatAssistant.PayloadMatchesLog | components/ChatAssistant.tsx:24-33 | the service receives exactly the log shown after pressing send |
| ChatAssistant.StepValid | components/ChatAssistant.tsx:9-40 | every event keeps the greeting first and loading exactly when the last message is the user's |
| ChatAssistant.RunValid | components/ChatAssistant.tsx:9-40 | every sequence of events keeps the log valid |
| ChatAssistant.InitialValid | components/ChatAssistant.tsx:9-13 | the initial log is valid |
| GeminiService.CycleInfo | services/geminiService.ts:49-51 | the maintenance line exactly when there is no cycle; otherwise a line starting with the label and ending with the goal |
| GeminiService.CycleInfoShowsWeek | services/geminiService.ts:49-51 | cycles differing only in week give different lines |
| GeminiService.FatigueLines | services/geminiService.ts:57-59 | one line for each of the first three history entries |
| GeminiService.FatigueLineText | services/geminiService.ts:58 | a line is `- <date> (<type>): ` followed by the fixed request not to repeat the previous muscle patterns |
| GeminiService.FatigueContext | services/geminiService.ts:54-61 | the no-data line when the history is missing or empty; otherwise the header and the entry lines joined by newlines |
| GeminiService.FatigueContextLines | services/geminiService.ts:54-61 | split back into lines, the context is the header followed by at most three entry lines |
| GeminiService.EquipStr | services/geminiService.ts:64 | the standard-material fallback exactly when the inventory is missing or empty; otherwise the items end with " uds)" |
| GeminiService.EquipmentItem | services/geminiService.ts:64 | an item ends with " uds)" |
| GeminiService.EquipmentItemParts | services/geminiService.ts:64 | an item is its name, " (", its quantity in decimal and " uds)": it starts with the name and ends with the quantity followed by " uds)" |
| GeminiService.EquipStrSingle | services/geminiService.ts:64 | a single item is listed alone, without a separator |
| GeminiService.EquipStrAppend | services/geminiService.ts:64 | one more item appends ", " and its text |
| GeminiService.FocusText | services/geminiService.ts:72 | a non-empty focus is used as written, a missing or empty one gives the default line |
| GeminiService.FocusTextIdempotent | services/geminiService.ts:72 | applying the focus fallback twice changes nothing |
| GeminiService.FindPhase | services/geminiService.ts:48 | no phase exactly when no month matches case-insensitively; otherwise the first matching phase |
| GeminiService.AnnualPhaseLookup | services/geminiService.ts:48 | no plan gives no phase; otherwise the lookup in the plan's phases |
| GeminiService.LookupInCreatedPlan | services/geminiService.ts:48 | in a freshly created plan every month name finds its own phase |
| GeminiService.PromptIgnoresAnnualAndBenchmarks | services/geminiService.ts:66-81 | requests differing only in annual plan, benchmarks and entries beyond the third produce the same prompt |
| GeminiService.GenerateWorkout | services/geminiService.ts:93 | a rejected call rejects; an empty or missing reply becomes exactly the fallback text "Error generando la programación. Inténtalo de nuevo."; a non-empty reply is returned as is |
| GeminiService.ChatContents | services/geminiService.ts:117-119 | the payload is the log plus the new message as a user turn |
| GeminiService.ChatContentsRoundTrip | services/geminiService.ts:117-119 | reading the payload back gives the log followed by the new user message |
| GeminiService.SendChatMessage | services/geminiService.ts:128 | the reply text, or "" when it is missing; rejection propagates |
| WorkoutDisplay.Transcripts | components/WorkoutDisplay.tsx:62-72 | the loop from `resultIndex` concatenates the final and the interim transcripts separately, in order |
| WorkoutDisplay.CollectAppend | components/WorkoutDisplay.tsx:66-72 | collecting transcripts distributes over concatenation of results |
| WorkoutDisplay.InterimIgnored | components/WorkoutDisplay.tsx:66-72 | an interim result never changes the final transcript |
| WorkoutDisplay.AppendNotes | components/WorkoutDisplay.tsx:74-76 | an empty final transcript changes nothing; otherwise it is appended, after a newline when notes exist |
| WorkoutDisplay.AppendNotesLines | components/WorkoutDisplay.tsx:75 | the notes' lines after dictation are the old lines followed by the dictated ones |
| WorkoutDisplay.OnResult | components/WorkoutDisplay.tsx:62-77 | a recognition event appends its final transcript to the notes |
| WorkoutDisplay.NotesKeysDistinct | components/WorkoutDisplay.tsx:29-41 | different sessions use different note slots, none of them an application slot |
| WorkoutDisplay.ReadNotes | components/WorkoutDisplay.tsx:28-36 | the stored notes of the session, or "" when none are stored |
| WorkoutDisplay.WriteNotes | components/WorkoutDisplay.tsx:40-42 | writing sets the session's slot and leaves every other slot |
| WorkoutDisplay.NotesReadWrite | components/WorkoutDisplay.tsx:28-42 | notes read back as written, and other sessions' notes are untouched |
| WorkoutDisplay.StripBoldCorrect | components/WorkoutDisplay.tsx:95 | after removing `**` no two adjacent stars remain, and only stars were removed |
| WorkoutDisplay.StripBoldIdempotent | components/WorkoutDisplay.tsx:95 | a text without `**` is left unchanged, so stripping twice is stripping once |
| WorkoutDisplay.MatchHeading | components/WorkoutDisplay.tsx:95 | a match of `#{h}\s+(.+)` ends at a line end, and its capture is a non-empty single-line piece ending there |
| WorkoutDisplay.HeadingMatch | components/WorkoutDisplay.tsx:95 | the pattern matches hashes, blanks and a title, capturing the title |
| WorkoutDisplay.HeadingLine | components/WorkoutDisplay.tsx:95 | a heading line becomes the prefix, the title and a closing star |
| WorkoutDisplay.NoHeadingMatch | components/WorkoutDisplay.tsx:95 | the pattern does not match a line that does not start like a heading |
| WorkoutDisplay.PlainLine | components/WorkoutDisplay.tsx:95 | a line that does not start like a heading is copied unchanged |
| WorkoutDisplay.NewLine | components/WorkoutDisplay.tsx:95 | a line break is copied and starts a new line for `^` |
| WorkoutDisplay.BareHashJoinsNextLine | components/WorkoutDisplay.tsx:95 | "#\nfoo" becomes the single heading "⚡ *foo*" |
| WorkoutDisplay.NotesSection | components/WorkoutDisplay.tsx:97 | the results section is empty exactly when there are no notes, and otherwise is the header followed by the notes |
| WorkoutDisplay.ShareText | components/WorkoutDisplay.tsx:94-98 | the share text is the title line and body, then the notes section, then the footer |
| WorkoutDisplay.SaveEdit | components/WorkoutDisplay.tsx:180 | saving leaves edit mode and hands the shown session's own id and the edited text to `onUpdate` |
| WorkoutDisplay.SaveEditUpdatesShownSession | components/WorkoutDisplay.tsx:180 | through `onUpdate`, the shown session and every history entry with its id get the edited text |

## Left out

- I/O: local storage is modelled as a record of optional slots, and JSON encoding and decoding as the identity. The notes slots are a string map.
- App.Load: `JSON.parse` of a corrupt slot throws and is not caught. The model only loads well-formed slots and claims nothing about corrupt ones.
- The generative service is a parameter: model choice, system instruction, temperature and thinking budget are not modelled.
- `generateSessionImage` and the poster button: image generation and the returned data URL are not modelled.
- Locale formatting (`toLocaleDateString`, `toLocaleString`, `toUpperCase` of the date) is not modelled. The labels are parameters.
- Time values are integers. NaN dates (an unparsable requested date) and the Date range limits are not modelled.
- Timer: the audio context, oscillator timing and the flash's 100 ms timeout are not modelled. `setInterval` is one tick step of a pure function. Each tick's beeps and flash are `Timer.Cues`.
- Timer.StepValid: its invariant excludes Tabata, because no button selects it and the initial time is never changed.
- Speech recognition: starting, stopping and errors of the recognizer are not modelled. The result handler is.
- Clipboard and `navigator.share` are not modelled. The text they receive is.
- The page reload after an import or a clear, and `localStorage.clear()`, are not modelled.
- Cycle progress percentage (a floating-point width) is not modelled.
- AnnualPlanner.UpdatePhase: requires an index within the plan, because the editor only passes indices of existing phases. The source does not check it.
- JsText.ToLower: lower-cases ASCII and Latin-1 letters only; JavaScript's full Unicode case mapping is not modelled.
- Strings are sequences of Unicode scalar values, not of UTF-16 code units.
- CycleManager.HandleCreate: ids are `cycle-<now>-<n>` with n in 0..999 supplied as a parameter, for the random draw.
- Header, WorkoutHistory, firebaseService, tabs, open/close toggles, scrolling and styling: presentation only, not part of this model.

=== FILE: annual_planner.dfy ===
/** The annual plan (macrocycle) editor (components/AnnualPlanner.tsx): a
    plan of twelve monthly phases created with defaults, and a merge update of
    one phase. */
module AnnualPlanner {
  import opened Wrappers
  import opened Types
  import opened JsText

  /** The month names, January first, as the plan stores them. */
  const Months: seq<string> := [
    "Enero", "Febrero", "Marzo", "Abril", "Mayo", "Junio",
    "Julio", "Agosto", "Septiembre", "Octubre", "Noviembre", "Diciembre"
  ]

  const DefaultGoal := "Mantenimiento General"
  const DefaultFocus := "Equilibrado"

  /** The goals the phase editor offers. */
  const GoalOptions: seq<string> := [
    "Hipertrofia", "Fuerza Máxima", "Potencia", "Capacidad Aeróbica", "Competición", "Descarga"
  ]

  /** `INTENSITY_LEVELS`: the bar height, in percent, drawn for an intensity. */
  function IntensityHeight(i: Intensity): int {
    match i
    case Low => 25
    case Medium => 50
    case High => 75
    case Peak => 100
  }

  /** Position of an intensity on the scale Low < Medium < High < Peak. */
  function IntensityRank(i: Intensity): nat {
    match i
    case Low => 0
    case Medium => 1
    case High => 2
    case Peak => 3
  }

  /** Bar heights are percentages that grow strictly with the intensity. */
  lemma IntensityHeightMonotone(a: Intensity, b: Intensity)
    ensures 0 < IntensityHeight(a) <= 100
    ensures IntensityRank(a) < IntensityRank(b) <==> IntensityHeight(a) < IntensityHeight(b)
  {
  }

  function DefaultPhase(month: string): AnnualPhase {
    AnnualPhase(month, DefaultGoal, Medium, DefaultFocus)
  }

  /** `createPlan`: twelve default phases in calendar order, named after the
      current year. */
  function CreatePlan(id: string, year: int): (p: AnnualPlan)
    ensures p.id == id && p.year == year && p.name == "Macrociclo GRIT " + IntToString(year)
    ensures |p.phases| == 12
    ensures forall i :: 0 <= i < 12 ==> p.phases[i].month == Months[i]
    ensures forall i :: 0 <= i < 12 ==>
      p.phases[i].goal == DefaultGoal && p.phases[i].intensity == Medium && p.phases[i].focus == DefaultFocus
  {
    AnnualPlan(id, year, "Macrociclo GRIT " + IntToString(year),
               seq(12, i requires 0 <= i < 12 => DefaultPhase(Months[i])))
  }

  /** A `Partial<AnnualPhase>`: a missing property is None. */
  datatype PhaseUpdate = PhaseUpdate(
    month: Option<string>,
    goal: Option<string>,
    intensity: Option<Intensity>,
    focus: Option<string>)

  const NoChange := PhaseUpdate(None, None, None, None)

  /** `{ ...phase, ...updates }`. */
  function Merge(p: AnnualPhase, u: PhaseUpdate): AnnualPhase {
    AnnualPhase(u.month.GetOr(p.month), u.goal.GetOr(p.goal), u.intensity.GetOr(p.intensity), u.focus.GetOr(p.focus))
  }

  /** `{ ...first, ...second }`: the later update wins where both speak. */
  function Then(first: PhaseUpdate, second: PhaseUpdate): PhaseUpdate {
    PhaseUpdate(
      if second.month.Some? then second.month else first.month,
      if second.goal.Some? then second.goal else first.goal,
      if second.intensity.Some? then second.intensity else first.intensity,
      if second.focus.Some? then second.focus else first.focus)
  }

  /** `updatePhase(index, updates)`. The editor only calls it with the index
      of a phase it is showing, which the precondition states. */
  function UpdatePhase(plan: Option<AnnualPlan>, index: int, u: PhaseUpdate): (r: Option<AnnualPlan>)
    requires plan.Some? ==> 0 <= index < |plan.value.phases|
    ensures plan.None? ==> r.None?
    ensures plan.Some? ==> r.Some? && r.value.(phases := plan.value.phases) == plan.value
    ensures plan.Some? ==> |r.value.phases| == |plan.value.phases|
    ensures plan.Some? ==> r.value.phases[index] == Merge(plan.value.phases[index], u)
    ensures plan.Some? ==> forall j :: 0 <= j < |plan.value.phases| && j != index ==>
      r.value.phases[j] == plan.value.phases[j]
  {
    match plan
    case None => None
    case Some(p) => Some(p.(phases := p.phases[index := Merge(p.phases[index], u)]))
  }

  /** The goal select of a phase card: choosing one of its options
      updates that phase's goal and nothing else. */
  function SelectGoal(plan: Option<AnnualPlan>, index: int, choice: nat): (r: Option<AnnualPlan>)
    requires plan.Some? ==> 0 <= index < |plan.value.phases|
    requires choice < |GoalOptions|
    ensures plan.Some? <==> r.Some?
    ensures plan.Some? ==> |r.value.phases| == |plan.value.phases|
    ensures plan.Some? ==> r.value.phases[index].goal == GoalOptions[choice] && r.value.phases[index].goal in GoalOptions
    ensures plan.Some? ==> forall j :: 0 <= j < |plan.value.phases| && j != index ==>
      r.value.phases[j] == plan.value.phases[j]
    ensures plan.Some? ==> r.value.phases[index].(goal := plan.value.phases[index].goal) == plan.value.phases[index]
  {
    UpdatePhase(plan, index, PhaseUpdate(None, Some(GoalOptions[choice]), None, None))
  }

  /** A new plan's goal is not one the select offers, and picking one cannot
      bring it back: after any goal choice the phase's goal is an offered one
      and differs from the default. */
  lemma DefaultGoalNotOffered(id: string, year: int, index: nat, choice: nat)
    requires index < 12 && choice < |GoalOptions|
    ensures DefaultGoal !in GoalOptions
    ensures CreatePlan(id, year).phases[index].goal !in GoalOptions
    ensures SelectGoal(Some(CreatePlan(id, year)), index, choice).value.phases[index].goal != DefaultGoal
  {
    assert forall k :: 0 <= k < |GoalOptions| ==> |GoalOptions[k]| < |DefaultGoal|;
  }

  /** An empty update changes nothing. */
  lemma UpdateNothing(plan: Option<AnnualPlan>, index: int)
    requires plan.Some? ==> 0 <= index < |plan.value.phases|
    ensures UpdatePhase(plan, index, NoChange) == plan
  {
    if plan.Some? {
      var p := plan.value;
      assert p.phases[index := Merge(p.phases[index], NoChange)] == p.phases;
    }
  }

  /** Two updates of one phase amount to their merge. */
  lemma UpdateTwice(plan: Option<AnnualPlan>, index: int, u1: PhaseUpdate, u2: PhaseUpdate)
    requires plan.Some? ==> 0 <= index < |plan.value.phases|
    ensures UpdatePhase(UpdatePhase(plan, index, u1), index, u2) == UpdatePhase(plan, index, Then(u1, u2))
  {
    if plan.Some? {
      var ph := plan.value.phases;
      var once := ph[index := Merge(ph[index], u1)];
      assert Merge(once[index], u2) == Merge(ph[index], Then(u1, u2));
      assert once[index := Merge(once[index], u2)] == ph[index := Merge(ph[index], Then(u1, u2))];
    }
  }

  /** Updates of different phases commute. */
  lemma UpdatesCommute(plan: Option<AnnualPlan>, i: int, j: int, u: PhaseUpdate, v: PhaseUpdate)
    requires plan.Some? ==> 0 <= i < |plan.value.phases| && 0 <= j < |plan.value.phases|
    requires i != j
    ensures UpdatePhase(UpdatePhase(plan, i, u), j, v) == UpdatePhase(UpdatePhase(plan, j, v), i, u)
  {
    if plan.Some? {
      var ph := plan.value.phases;
      var a := ph[i := Merge(ph[i], u)];
      var b := ph[j := Merge(ph[j], v)];
      assert a[j := Merge(a[j], v)] == b[i := Merge(b[i], u)];
    }
  }
}

=== FILE: app.dfy ===
/** The application shell (App.tsx): loading and persisting the stored
    slots, the default inventory, generating and recording a workout, and
    the history edits the other screens trigger. */
module App {
  import opened Wrappers
  import opened Types
  import opened Storage
  import History
  import GeminiService
  import LabAnalytics
  import JsText

  datatype AppState = AppState(
    loading: bool,
    workout: Option<GeneratedWorkout>,
    history: seq<GeneratedWorkout>,
    activeCycle: Option<TrainingCycle>,
    annualPlan: Option<AnnualPlan>,
    equipment: seq<Equipment>,
    benchmarks: seq<Benchmark>)

  const InitialState := AppState(false, None, [], None, None, [], [])

  /** `BORMUJOS_DEFAULT_EQUIPMENT`: the studio's inventory, used when no
      inventory is stored. It is written as three groups of six items so
      that its facts are cheap to prove. */
  const DefaultEquipment: seq<Equipment> := Cardio + Loads + Stations

  const Cardio: seq<Equipment> := [
    Equipment("e1", "Remo Concept2", 2),
    Equipment("e2", "Bicicleta Assault (AirBike)", 1),
    Equipment("e3", "Air Ski (SkiErg)", 1),
    Equipment("e4", "Combas de velocidad", 12),
    Equipment("e5", "Set Mancuernas Hex (5-20kg)", 9),
    Equipment("e6", "Kettlebells (8-24kg)", 5)
  ]

  const Loads: seq<Equipment> := [
    Equipment("e7", "Barras Olímpicas (20kg/15kg)", 4),
    Equipment("e8", "Discos Bumper (Pack 300kg)", 1),
    Equipment("e9", "Trineo de empuje + Cuerda", 1),
    Equipment("e10", "Battle Rope (15m)", 1),
    Equipment("e11", "Slamballs (15-30kg)", 3),
    Equipment("e12", "Sacos lastrados (10-25kg)", 4)
  ]

  const Stations: seq<Equipment> := [
    Equipment("e13", "Cajones Pliométricos 3-en-1", 2),
    Equipment("e14", "Jaula de Pared (4 estaciones)", 1),
    Equipment("e15", "Bancos de musculación", 4),
    Equipment("e16", "TRX / Anillas", 4),
    Equipment("e17", "AbMats", 12),
    Equipment("e18", "Bandas Elásticas (Kit variado)", 1)
  ]

  lemma CardioUnits()
    ensures LabAnalytics.TotalUnits(Cardio) == 30
  {
    var d := Cardio;
    assert d[..1][..0] == d[..0];
    assert LabAnalytics.TotalUnits(d[..1]) == 2;
    assert d[..2][..1] == d[..1];
    assert LabAnalytics.TotalUnits(d[..2]) == 3;
    assert d[..3][..2] == d[..2];
    assert LabAnalytics.TotalUnits(d[..3]) == 4;
    assert d[..4][..3] == d[..3];
    assert LabAnalytics.TotalUnits(d[..4]) == 16;
    assert d[..5][..4] == d[..4];
    assert LabAnalytics.TotalUnits(d[..5]) == 25;
    assert d[..6][..5] == d[..5];
    assert LabAnalytics.TotalUnits(d[..6]) == 30;
    assert d[..6] == d;
  }

  lemma LoadsUnits()
    ensures LabAnalytics.TotalUnits(Loads) == 14
  {
    var d := Loads;
    assert d[..1][..0] == d[..0];
    assert LabAnalytics.TotalUnits(d[..1]) == 4;
    assert d[..2][..1] == d[..1];
    assert LabAnalytics.TotalUnits(d[..2]) == 5;
    assert d[..3][..2] == d[..2];
    assert LabAnalytics.TotalUnits(d[..3]) == 6;
    assert d[..4][..3] == d[..3];
    assert LabAnalytics.TotalUnits(d[..4]) == 7;
    assert d[..5][..4] == d[..4];
    assert LabAnalytics.TotalUnits(d[..5]) == 10;
    assert d[..6][..5] == d[..5];
    assert LabAnalytics.TotalUnits(d[..6]) == 14;
    assert d[..6] == d;
  }

  lemma StationsUnits()
    ensures LabAnalytics.TotalUnits(Stations) == 24
  {
    var d := Stations;
    assert d[..1][..0] == d[..0];
    assert LabAnalytics.TotalUnits(d[..1]) == 2;
    assert d[..2][..1] == d[..1];
    assert LabAnalytics.TotalUnits(d[..2]) == 3;
    assert d[..3][..2] == d[..2];
    assert LabAnalytics.TotalUnits(d[..3]) == 7;
    assert d[..4][..3] == d[..3];
    assert LabAnalytics.TotalUnits(d[..4]) == 11;
    assert d[..5][..4] == d[..4];
    assert LabAnalytics.TotalUnits(d[..5]) == 23;
    assert d[..6][..5] == d[..5];
    assert LabAnalytics.TotalUnits(d[..6]) == 24;
    assert d[..6] == d;
  }

  /** The default inventory has eighteen items, 68 units in all, and passes
      the logistics check. */
  lemma DefaultEquipmentFacts()
    ensures |DefaultEquipment| == 18
    ensures LabAnalytics.TotalUnits(DefaultEquipment) == 68
    ensures LabAnalytics.IsLogisticsHealthy(DefaultEquipment)
  {
    CardioUnits();
    LoadsUnits();
    StationsUnits();
    LabAnalytics.TotalUnitsAppend(Cardio, Loads);
    LabAnalytics.TotalUnitsAppend(Cardio + Loads, Stations);
    assert DefaultEquipment[3].quantity >= 3;
  }

  /** The mount effect: each stored slot is read when present; otherwise the
      initial value stays, except that a missing inventory becomes the
      default one. */
  function Load(store: Store): (st: AppState)
    ensures st.history == store.workouts.GetOr([]) && st.activeCycle == store.cycle && st.annualPlan == store.annual
    ensures store.equipment.None? ==> st.equipment == DefaultEquipment
    ensures store.equipment.Some? ==> st.equipment == store.equipment.value
    ensures st.benchmarks == store.benchmarks.GetOr([])
    ensures !st.loading && st.workout.None?
  {
    InitialState.(
      history := store.workouts.GetOr([]),
      activeCycle := store.cycle,
      annualPlan := store.annual,
      equipment := store.equipment.GetOr(DefaultEquipment),
      benchmarks := store.benchmarks.GetOr([]))
  }

  /** The persistence effects: lists are always written; the cycle and plan
      slots are written when set and removed when null. */
  function Persist(st: AppState): (s: Store)
    ensures s.workouts == Some(st.history) && s.equipment == Some(st.equipment) && s.benchmarks == Some(st.benchmarks)
    ensures s.cycle.None? <==> st.activeCycle.None?
    ensures s.annual.None? <==> st.annualPlan.None?
  {
    Store(Some(st.history), st.activeCycle, st.annualPlan, Some(st.equipment), Some(st.benchmarks))
  }

  /** Reloading what was persisted gives back every stored field. */
  lemma LoadPersist(st: AppState)
    ensures var l := Load(Persist(st));
      && l.history == st.history && l.activeCycle == st.activeCycle && l.annualPlan == st.annualPlan
      && l.equipment == st.equipment && l.benchmarks == st.benchmarks
  {
  }

  /** Loading and persisting again fills the list slots and leaves the rest
      of the store as it was. */
  lemma PersistLoad(store: Store)
    ensures Persist(Load(store)) == store.(
      workouts := Some(store.workouts.GetOr([])),
      equipment := Some(store.equipment.GetOr(DefaultEquipment)),
      benchmarks := Some(store.benchmarks.GetOr([])))
  {
  }

  /** The request `handleGenerate` sends: the base request with the first
      five history entries (the five newest whenever the history is newest
      first), the cycle, the plan, the inventory and the
      benchmarks filled in. */
  function FullRequest(st: AppState, base: WorkoutRequest): (r: WorkoutRequest)
    ensures r.kind == base.kind && r.focus == base.focus && r.date == base.date
    ensures r.recentHistory == Some(History.Context(st.history))
    ensures r.cycleContext == st.activeCycle && r.annualContext == st.annualPlan
    ensures r.equipmentContext == Some(st.equipment) && r.benchmarksContext == Some(st.benchmarks)
  {
    base.(
      recentHistory := Some(History.Context(st.history)),
      cycleContext := st.activeCycle,
      annualContext := st.annualPlan,
      equipmentContext := Some(st.equipment),
      benchmarksContext := Some(st.benchmarks))
  }

  /** `wod-${Date.now()}`. */
  function WorkoutId(nowMs: int): string {
    "wod-" + JsText.IntToString(nowMs)
  }

  /** The start of `handleGenerate`: the spinner turns on. */
  function StartGenerate(st: AppState): (r: AppState)
    ensures r.loading && r.(loading := st.loading) == st
  {
    st.(loading := true)
  }

  /** The end of `handleGenerate`, once the service has answered. The handler
      belongs to the render `started` it was called from: the request and the
      history the new session is recorded into are that render's, whatever
      happened to the state in the meantime (`now`). The service is a
      parameter, answering each request; `displayDate` and `timestamp` are the
      requested date's short locale label and time value, and `nowMs` the
      clock. When the call rejects, only loading changes (back to false).
      Otherwise the new session is shown, and the history becomes the
      captured one with the session recorded. */
  function CompleteGenerate(
    started: AppState, now: AppState, base: WorkoutRequest, service: WorkoutRequest -> GeminiService.SdkReply,
    nowMs: int, displayDate: string, timestamp: int): (r: AppState)
    ensures !r.loading
    ensures r.activeCycle == now.activeCycle && r.annualPlan == now.annualPlan
    ensures r.equipment == now.equipment && r.benchmarks == now.benchmarks
    ensures service(FullRequest(started, base)).Threw? ==> r == now.(loading := false)
    ensures !service(FullRequest(started, base)).Threw? ==>
      && r.workout.Some?
      && r.workout.value.id == WorkoutId(nowMs) && r.workout.value.kind == base.kind
      && r.workout.value.date == displayDate && r.workout.value.timestamp == timestamp
      && r.workout.value.markdown != "" && r.workout.value.updatedAt.None?
      && r.history == History.Record(started.history, r.workout.value)
  {
    match GeminiService.GenerateWorkout(service(FullRequest(started, base)))
    case None => now.(loading := false)
    case Some(markdown) =>
      var w := GeneratedWorkout(WorkoutId(nowMs), markdown, base.kind, displayDate, timestamp, None);
      now.(loading := false, workout := Some(w), history := History.Record(started.history, w))
  }

  /** `handleGenerate` with nothing else happening while the service works. */
  function HandleGenerate(
    st: AppState, base: WorkoutRequest, service: WorkoutRequest -> GeminiService.SdkReply,
    nowMs: int, displayDate: string, timestamp: int): (r: AppState)
    ensures !r.loading
    ensures r.activeCycle == st.activeCycle && r.annualPlan == st.annualPlan
    ensures r.equipment == st.equipment && r.benchmarks == st.benchmarks
    ensures service(FullRequest(st, base)).Threw? ==> r == st.(loading := false)
    ensures !service(FullRequest(st, base)).Threw? ==>
      && r.workout.Some?
      && r.workout.value.id == WorkoutId(nowMs) && r.workout.value.kind == base.kind
      && r.workout.value.date == displayDate && r.workout.value.timestamp == timestamp
      && r.workout.value.markdown != "" && r.workout.value.updatedAt.None?
      && r.history == History.Record(st.history, r.workout.value)
  {
    CompleteGenerate(st, StartGenerate(st), base, service, nowMs, displayDate, timestamp)
  }

  /** A session deleted while a generation is pending comes back when the
      generation succeeds (as long as the captured history had room). */
  lemma DeleteDuringGenerateUndone(
    st: AppState, x: GeneratedWorkout, base: WorkoutRequest, service: WorkoutRequest -> GeminiService.SdkReply,
    nowMs: int, displayDate: string, timestamp: int)
    requires x in st.history && |st.history| < History.MaxEntries
    requires !service(FullRequest(st, base)).Threw?
    ensures x !in DeleteWorkout(StartGenerate(st), x.id).history
    ensures x in CompleteGenerate(st, DeleteWorkout(StartGenerate(st), x.id), base, service, nowMs, displayDate, timestamp).history
  {
    var r := CompleteGenerate(st, DeleteWorkout(StartGenerate(st), x.id), base, service, nowMs, displayDate, timestamp);
    assert multiset(r.history) == multiset(st.history) + multiset{r.workout.value};
    assert x in multiset(st.history);
    assert x in multiset(r.history);
  }

  /** After a generation the history is at most sixty entries, newest first,
      and holds only the new session and earlier entries; a session stamped
      no older than every earlier one comes first. */
  lemma GenerateKeepsHistoryOrdered(
    st: AppState, base: WorkoutRequest, service: WorkoutRequest -> GeminiService.SdkReply,
    nowMs: int, displayDate: string, timestamp: int)
    requires !service(FullRequest(st, base)).Threw?
    ensures var r := HandleGenerate(st, base, service, nowMs, displayDate, timestamp);
      && |r.history| <= History.MaxEntries
      && History.SortedDesc(r.history)
      && (forall x :: x in r.history ==> x == r.workout.value || x in st.history)
      && ((forall i :: 0 <= i < |st.history| ==> st.history[i].timestamp <= timestamp) ==> r.history[0] == r.workout.value)
  {
    var r := HandleGenerate(st, base, service, nowMs, displayDate, timestamp);
    if forall i :: 0 <= i < |st.history| ==> st.history[i].timestamp <= timestamp {
      History.NewestRecordedFirst(st.history, r.workout.value);
    }
  }

  /** The service only ever sees the first five history entries (the five
      newest whenever the history is newest first): two histories that agree
      on them yield the same request. */
  lemma GenerateSeesOnlyContext(st: AppState, h: seq<GeneratedWorkout>, base: WorkoutRequest)
    requires History.Context(h) == History.Context(st.history)
    ensures FullRequest(st.(history := h), base) == FullRequest(st, base)
  {
  }

  /** The delete button of a history entry, once confirmed: every entry
      with that id leaves the history, the rest stay in order, and nothing
      else changes. */
  function DeleteWorkout(st: AppState, id: string): (r: AppState)
    ensures r.(history := st.history) == st
    ensures forall x :: x in r.history <==> x in st.history && x.id != id
    ensures History.SortedDesc(st.history) ==> History.SortedDesc(r.history)
  {
    if History.SortedDesc(st.history) then
      History.DeleteKeepsSorted(st.history, id);
      st.(history := History.Delete(st.history, id))
    else st.(history := History.Delete(st.history, id))
  }

  /** `onUpdate` from the workout view: the shown session with the new text
      and the given id replaces the shown session when ids match, and every
      history entry with that id. Without a shown session there is no view
      to call it from. */
  function OnUpdate(st: AppState, id: string, markdown: string): (r: AppState)
    requires st.workout.Some?
    ensures var u := st.workout.value.(markdown := markdown, id := id);
      && r.workout == (if st.workout.value.id == id then Some(u) else st.workout)
      && |r.history| == |st.history|
      && (forall i :: 0 <= i < |st.history| ==> r.history[i] == (if st.history[i].id == id then u else st.history[i]))
    ensures r.activeCycle == st.activeCycle && r.equipment == st.equipment && r.benchmarks == st.benchmarks
  {
    var u := st.workout.value.(markdown := markdown, id := id);
    st.(workout := if st.workout.value.id == id then Some(u) else st.workout,
        history := History.Replace(st.history, id, u))
  }

  /** Saving an edit of the shown session keeps its timestamp, so a
      newest-first history stays newest first. */
  lemma UpdateKeepsHistorySorted(st: AppState, markdown: string)
    requires st.workout.Some? && History.SortedDesc(st.history)
    requires forall i :: 0 <= i < |st.history| && st.history[i].id == st.workout.value.id ==>
      st.history[i].timestamp == st.workout.value.timestamp
    ensures History.SortedDesc(OnUpdate(st, st.workout.value.id, markdown).history)
  {
    History.ReplaceKeepsSorted(st.history, st.workout.value.id, st.workout.value.(markdown := markdown));
  }

  /** `onImport`: the imported history and cycle replace the current ones
      as they are: neither sorted nor cut to sixty. */
  function OnImport(st: AppState, h: seq<GeneratedWorkout>, c: Option<TrainingCycle>): (r: AppState)
    ensures r.history == h && r.activeCycle == c
    ensures r.(history := st.history, activeCycle := st.activeCycle) == st
  {
    st.(history := h, activeCycle := c)
  }

  /** A backup restores the history as written in the file, so the sixty-entry
      bound is not an invariant of the application. */
  lemma ImportCanExceedBound(st: AppState, h: seq<GeneratedWorkout>)
    requires |h| > History.MaxEntries
    ensures |OnImport(st, h, None).history| > History.MaxEntries
  {
  }
}

=== FILE: calendar.dfy ===
/** The month calendar (components/CalendarView.tsx): month navigation through
    JavaScript's `Date(year, month, day)` constructor, the Monday-first grid
    and the lookup of the sessions done on a day. */
module Calendar {
  import opened Wrappers
  import opened Types
  import JsText

  // ---- the proleptic Gregorian calendar the Date object follows ----

  predicate IsLeapYear(y: int) {
    y % 4 == 0 && (y % 100 != 0 || y % 400 == 0)
  }

  /** Days of month `m` (0 = January). */
  function MonthLength(y: int, m: int): (n: int)
    requires 0 <= m < 12
    ensures 28 <= n <= 31
  {
    if m == 1 then (if IsLeapYear(y) then 29 else 28)
    else if m == 3 || m == 5 || m == 8 || m == 10 then 30
    else 31
  }

  function YearLength(y: int): int {
    if IsLeapYear(y) then 366 else 365
  }

  /** Leap days from 1 January of year 0 to 1 January of year `y` (counted
      negatively before year 0): the multiples of 4, less those of 100, plus
      those of 400. */
  function LeapDaysBefore(y: int): int {
    (y + 3) / 4 - (y + 99) / 100 + (y + 399) / 400
  }

  /** Days from 1 January of year 0 to 1 January of year `y`. */
  function DaysBeforeYear(y: int): int {
    365 * y + LeapDaysBefore(y)
  }

  /** Days from 1 January to the first of month `m` of year `y`. */
  function DaysBeforeMonth(y: int, m: int): int
    requires 0 <= m <= 12
  {
    if m == 0 then 0 else DaysBeforeMonth(y, m - 1) + MonthLength(y, m - 1)
  }

  /** The closed form agrees with adding up year lengths. */
  lemma DaysBeforeNextYear(y: int)
    ensures DaysBeforeYear(y + 1) == DaysBeforeYear(y) + YearLength(y)
  {
    LeapDayStep(y);
  }

  /** The leap-day count grows by one exactly across a leap year. */
  lemma LeapDayStep(y: int)
    ensures LeapDaysBefore(y + 1) == LeapDaysBefore(y) + (if IsLeapYear(y) then 1 else 0)
  {
    CeilStep4(y);
    CeilStep100(y);
    CeilStep400(y);
    Divides400(y);
    Divides100(y);
  }

  lemma Divides400(y: int)
    ensures y % 400 == 0 ==> y % 100 == 0
  {
    if y % 400 == 0 {
      var k := y / 400;
      assert y == 100 * (4 * k);
    }
  }

  lemma Divides100(y: int)
    ensures y % 100 == 0 ==> y % 4 == 0
  {
    if y % 100 == 0 {
      var k := y / 100;
      assert y == 4 * (25 * k);
    }
  }

  /** Each of the rounded-up quotients in `DaysBeforeYear` grows by one
      exactly when the year is a multiple of the divisor. */
  lemma CeilStep4(y: int)
    ensures (y + 1 + 3) / 4 - (y + 3) / 4 == (if y % 4 == 0 then 1 else 0)
  {
    var q, r := y / 4, y % 4;
    assert y == 4 * q + r;
    assert (y + 4) / 4 == q + 1;
    if r == 0 {
      assert (y + 3) / 4 == q;
    } else {
      assert (y + 3) / 4 == q + 1;
    }
  }

  lemma CeilStep100(y: int)
    ensures (y + 1 + 99) / 100 - (y + 99) / 100 == (if y % 100 == 0 then 1 else 0)
  {
    var q, r := y / 100, y % 100;
    assert y == 100 * q + r;
    assert (y + 100) / 100 == q + 1;
    if r == 0 {
      assert (y + 99) / 100 == q;
    } else {
      assert (y + 99) / 100 == q + 1;
    }
  }

  lemma CeilStep400(y: int)
    ensures (y + 1 + 399) / 400 - (y + 399) / 400 == (if y % 400 == 0 then 1 else 0)
  {
    var q, r := y / 400, y % 400;
    assert y == 400 * q + r;
    assert (y + 400) / 400 == q + 1;
    if r == 0 {
      assert (y + 399) / 400 == q;
    } else {
      assert (y + 399) / 400 == q + 1;
    }
  }

  lemma WholeYear(y: int)
    ensures DaysBeforeMonth(y, 12) == YearLength(y)
  {
    var f := MonthLength(y, 1);
    assert DaysBeforeMonth(y, 1) == 31;
    assert DaysBeforeMonth(y, 2) == 31 + f;
    assert DaysBeforeMonth(y, 3) == 62 + f;
    assert DaysBeforeMonth(y, 4) == 92 + f;
    assert DaysBeforeMonth(y, 5) == 123 + f;
    assert DaysBeforeMonth(y, 6) == 153 + f;
    assert DaysBeforeMonth(y, 7) == 184 + f;
    assert DaysBeforeMonth(y, 8) == 215 + f;
    assert DaysBeforeMonth(y, 9) == 245 + f;
    assert DaysBeforeMonth(y, 10) == 276 + f;
    assert DaysBeforeMonth(y, 11) == 306 + f;
  }

  /** Day number of `d` `m` `y`, counted from 1 January of year 0. */
  function DayNumber(y: int, m: int, d: int): int
    requires 0 <= m < 12
  {
    DaysBeforeYear(y) + DaysBeforeMonth(y, m) + d - 1
  }

  /** `getDay()`: 0 = Sunday … 6 = Saturday. 1 January of year 0 was a
      Saturday. */
  function Weekday(y: int, m: int, d: int): (w: int)
    requires 0 <= m < 12
    ensures 0 <= w < 7
  {
    (6 + DayNumber(y, m, d)) % 7
  }

  /** Anchors of the day count: 1 January 1970 was a Thursday, 1 January
      2000 a Saturday. */
  lemma WeekdayAnchors()
    ensures Weekday(1970, 0, 1) == 4
    ensures Weekday(2000, 0, 1) == 6
  {
  }

  // ---- the Date constructor's year and month handling ----

  /** `new Date(y, ...)` reads years 0 to 99 as 1900 to 1999. */
  function FullYear(y: int): (r: int)
    ensures 0 <= y <= 99 ==> r == 1900 + y
    ensures !(0 <= y <= 99) ==> r == y
  {
    if 0 <= y <= 99 then 1900 + y else y
  }

  /** The month a Date points at, with its full year as `getFullYear()`
      reports it. The day of the month is never read by the calendar. */
  datatype Cursor = Cursor(year: int, month: int)

  predicate ValidCursor(c: Cursor) {
    0 <= c.month < 12
  }

  /** `new Date(y, m, 1)` as a cursor: the year read through `FullYear`,
      then the month carried into it (`m` may be -1 or 12). */
  function MakeCursor(y: int, m: int): (r: Cursor)
    ensures ValidCursor(r)
    ensures 0 <= m < 12 ==> r == Cursor(FullYear(y), m)
    ensures m == -1 ==> r == Cursor(FullYear(y) - 1, 11)
    ensures m == 12 ==> r == Cursor(FullYear(y) + 1, 0)
  {
    Cursor(FullYear(y) + m / 12, m % 12)
  }

  /** The "previous month" button. */
  function Prev(c: Cursor): Cursor {
    MakeCursor(c.year, c.month - 1)
  }

  /** The "next month" button. */
  function Next(c: Cursor): Cursor {
    MakeCursor(c.year, c.month + 1)
  }

  /** From year 100 on, the buttons undo each other. */
  lemma PrevNextInverse(c: Cursor)
    requires ValidCursor(c) && c.year >= 101
    ensures Prev(Next(c)) == c
    ensures Next(Prev(c)) == c
  {
  }

  /** Going back from January 100 lands on December 99, which the next
      click reads as 1999: the cursor jumps nineteen centuries. */
  lemma PrevAcrossYear100()
    ensures Prev(Cursor(100, 0)) == Cursor(99, 11)
    ensures Prev(Prev(Cursor(100, 0))) == Cursor(1999, 10)
  {
  }

  /** `getDaysInMonth`: day 0 of the following month, i.e. the length of
      the cursor's month, in the year the constructor reads. */
  function DaysInMonth(c: Cursor): (n: int)
    requires ValidCursor(c)
    ensures 28 <= n <= 31
  {
    MonthLength(FullYear(c.year), c.month)
  }

  /** `getFirstDayOfMonth`: the weekday of the 1st, renumbered so that
      Monday is 0 and Sunday 6. */
  function FirstDayOfMonth(c: Cursor): (r: int)
    requires ValidCursor(c)
    ensures 0 <= r < 7
  {
    var d := Weekday(FullYear(c.year), c.month, 1);
    if d == 0 then 6 else d - 1
  }

  /** Monday-based weekday of a date. */
  function MondayIndex(y: int, m: int, d: int): (r: int)
    requires 0 <= m < 12
    ensures 0 <= r < 7
  {
    (Weekday(y, m, d) + 6) % 7
  }

  /** `(a + b) % 7` only depends on `a % 7`. */
  lemma ModAdd(a: int, b: int)
    ensures (a + b) % 7 == (a % 7 + b) % 7
  {
    var q := a / 7;
    assert a == 7 * q + a % 7;
    assert (a + b) - (a % 7 + b) == 7 * q;
  }

  /** The Monday-based weekday in terms of the day number. */
  lemma MondayIndexFormula(y: int, m: int, d: int)
    requires 0 <= m < 12
    ensures MondayIndex(y, m, d) == (DayNumber(y, m, d) + 5) % 7
  {
    ShiftBySix(DayNumber(y, m, d));
  }

  /** Shifting a Sunday-first weekday by six lands on the Monday-first one. */
  lemma ShiftBySix(x: int)
    ensures ((6 + x) % 7 + 6) % 7 == (x + 5) % 7
  {
    var q, r := x / 7, x % 7;
    assert x == 7 * q + r;
    if r == 0 {
      assert (6 + x) % 7 == 6;
      assert (x + 5) % 7 == 5;
    } else {
      assert (6 + x) % 7 == r - 1;
      assert (x + 5) % 7 == (if r <= 1 then r + 5 else r - 2);
    }
  }

  lemma FirstDayFormula(c: Cursor)
    requires ValidCursor(c)
    ensures FirstDayOfMonth(c) == MondayIndex(FullYear(c.year), c.month, 1)
  {
    MondayFirst(Weekday(FullYear(c.year), c.month, 1));
  }

  /** Renumbering a weekday with Monday first. */
  lemma MondayFirst(w: int)
    requires 0 <= w < 7
    ensures (if w == 0 then 6 else w - 1) == (w + 6) % 7
  {
  }

  /** The next month's grid starts where this one's last week left off —
      except at December of year -1, whose successor year 0 the
      constructor reads as 1900. */
  lemma {:induction false} NextMonthContinues(c: Cursor)
    requires ValidCursor(c) && !(c.year == -1 && c.month == 11)
    ensures FirstDayOfMonth(Next(c)) == (FirstDayOfMonth(c) + DaysInMonth(c)) % 7
  {
    var n := Next(c);
    NextMonthStart(c);
    FirstDayIs(c);
    FirstDayIs(n);
    WeekdayAfter(MonthStart(c), MonthStart(n), DaysInMonth(c));
  }

  /** Day number of the 1st of the cursor's month. */
  function MonthStart(c: Cursor): int
    requires ValidCursor(c)
  {
    DayNumber(FullYear(c.year), c.month, 1)
  }

  lemma FirstDayIs(c: Cursor)
    requires ValidCursor(c)
    ensures FirstDayOfMonth(c) == (MonthStart(c) + 5) % 7
  {
    FirstDayFormula(c);
    MondayIndexFormula(FullYear(c.year), c.month, 1);
  }

  /** The next month starts a month's length later. */
  lemma NextMonthStart(c: Cursor)
    requires ValidCursor(c) && !(c.year == -1 && c.month == 11)
    ensures MonthStart(Next(c)) == MonthStart(c) + DaysInMonth(c)
  {
    var y := FullYear(c.year);
    NextCursor(c);
    if c.month < 11 {
      NextMonthInYear(y, c.month);
    } else {
      DecemberToJanuary(y);
    }
  }

  /** The month after `c`, whose year the constructor reads as it is. */
  lemma NextCursor(c: Cursor)
    requires ValidCursor(c) && !(c.year == -1 && c.month == 11)
    ensures var y := FullYear(c.year);
      && FullYear(Next(c).year) == Next(c).year
      && Next(c) == (if c.month < 11 then Cursor(y, c.month + 1) else Cursor(y + 1, 0))
  {
  }

  /** A day `len` days after another is `len` places further round the week. */
  lemma WeekdayAfter(a: int, b: int, len: int)
    requires b == a + len
    ensures (b + 5) % 7 == ((a + 5) % 7 + len) % 7
  {
    ModAdd(a + 5, len);
  }

  /** Within a year, the 1st of the next month comes a month's length later. */
  lemma NextMonthInYear(y: int, m: int)
    requires 0 <= m < 11
    ensures DayNumber(y, m + 1, 1) == DayNumber(y, m, 1) + MonthLength(y, m)
  {
  }

  /** 1 January follows 31 days after 1 December of the year before. */
  lemma DecemberToJanuary(y: int)
    ensures DayNumber(y + 1, 0, 1) == DayNumber(y, 11, 1) + MonthLength(y, 11)
  {
    DaysBeforeNextYear(y);
    WholeYear(y);
  }

  /** The exception: the month after December of year -1 is January of year
      0, whose grid is computed for January 1900. No navigation from a month
      of year 1900 or later reaches year -1: going back from January of
      year 100 already jumps to 1999. */
  lemma NextMonthBreaks()
    ensures Next(Cursor(-1, 11)) == Cursor(0, 0)
    ensures DaysInMonth(Cursor(0, 0)) == 31 && FullYear(0) == 1900
  {
  }

  // ---- the grid ----

  datatype Cell = Blank | Day(n: int)

  /** Blank cells up to the weekday of the 1st, then days 1 to the month's
      length. */
  function Grid(c: Cursor): (g: seq<Cell>)
    requires ValidCursor(c)
    ensures |g| == FirstDayOfMonth(c) + DaysInMonth(c) <= 37
    ensures forall i :: 0 <= i < FirstDayOfMonth(c) ==> g[i] == Blank
    ensures forall i :: FirstDayOfMonth(c) <= i < |g| ==> g[i] == Day(i - FirstDayOfMonth(c) + 1)
  {
    seq(FirstDayOfMonth(c), _ => Blank) + seq(DaysInMonth(c), i => Day(i + 1))
  }

  /** The Monday-first column headers. */
  const WeekdayHeader: seq<string> := ["L", "M", "X", "J", "V", "S", "D"]

  /** The Spanish initial of a `getDay()` weekday (Sunday first). */
  function SpanishInitial(w: int): string
    requires 0 <= w < 7
  {
    ["D", "L", "M", "X", "J", "V", "S"][w]
  }

  /** Every day of the grid sits under the header of its own weekday, in the
      year the constructor reads. */
  lemma GridColumnIsWeekday(c: Cursor, i: int)
    requires ValidCursor(c) && 0 <= i < |Grid(c)| && Grid(c)[i].Day?
    ensures var y := FullYear(c.year);
      && i % 7 == MondayIndex(y, c.month, Grid(c)[i].n)
      && WeekdayHeader[i % 7] == SpanishInitial(Weekday(y, c.month, Grid(c)[i].n))
  {
    var y := FullYear(c.year);
    var d := Grid(c)[i].n;
    assert i == FirstDayOfMonth(c) + d - 1;
    DayColumn(c, d);
    HeaderMatches(Weekday(y, c.month, d));
  }

  /** Day `d` of the month falls in column `first + d - 1` of the week. */
  lemma DayColumn(c: Cursor, d: int)
    requires ValidCursor(c)
    ensures var y := FullYear(c.year);
      (FirstDayOfMonth(c) + d - 1) % 7 == MondayIndex(y, c.month, d)
  {
    var y := FullYear(c.year);
    var a := DayNumber(y, c.month, 1);
    assert DayNumber(y, c.month, d) == a + (d - 1);
    FirstDayFormula(c);
    MondayIndexFormula(y, c.month, 1);
    MondayIndexFormula(y, c.month, d);
    WeekdayAfter(a, DayNumber(y, c.month, d), d - 1);
  }

  lemma HeaderMatches(w: int)
    requires 0 <= w < 7
    ensures WeekdayHeader[(w + 6) % 7] == SpanishInitial(w)
  {
  }

  // ---- sessions of a day ----

  /** A local calendar date as the Date getters report it. */
  datatype CivilDate = CivilDate(year: int, month: int, day: int)

  /** `getWorkoutsForDay`: the sessions whose timestamp falls, in local time,
      on day `day` of the cursor's month and year as `getFullYear()` reports
      it. `localDate` stands for the browser's time-zone conversion. */
  function WorkoutsForDay(h: seq<GeneratedWorkout>, c: Cursor, day: int, localDate: int -> CivilDate): (r: seq<GeneratedWorkout>)
    ensures |r| <= |h|
    ensures forall w :: w in r <==> w in h && localDate(w.timestamp) == CivilDate(c.year, c.month, day)
    decreases |h|
  {
    if |h| == 0 then []
    else
      var rest := WorkoutsForDay(h[1..], c, day, localDate);
      assert forall w :: w in h <==> w == h[0] || w in h[1..];
      if localDate(h[0].timestamp) == CivilDate(c.year, c.month, day) then [h[0]] + rest else rest
  }

  /** The filter keeps history order: its first element is the earliest
      matching entry. */
  lemma {:induction false} FirstWorkoutOfDay(h: seq<GeneratedWorkout>, c: Cursor, day: int, localDate: int -> CivilDate)
    requires |WorkoutsForDay(h, c, day, localDate)| > 0
    ensures exists j ::
      && 0 <= j < |h| && h[j] == WorkoutsForDay(h, c, day, localDate)[0]
      && localDate(h[j].timestamp) == CivilDate(c.year, c.month, day)
      && forall k :: 0 <= k < j ==> localDate(h[k].timestamp) != CivilDate(c.year, c.month, day)
    decreases |h|
  {
    if localDate(h[0].timestamp) != CivilDate(c.year, c.month, day) {
      FirstWorkoutOfDay(h[1..], c, day, localDate);
      var j :| && 0 <= j < |h[1..]| && h[1..][j] == WorkoutsForDay(h[1..], c, day, localDate)[0]
               && localDate(h[1..][j].timestamp) == CivilDate(c.year, c.month, day)
               && forall k :: 0 <= k < j ==> localDate(h[1..][k].timestamp) != CivilDate(c.year, c.month, day);
      assert h[j + 1] == h[1..][j];
      forall k | 0 <= k < j + 1
        ensures localDate(h[k].timestamp) != CivilDate(c.year, c.month, day)
      {
        if k > 0 {
          assert h[k] == h[1..][k - 1];
        }
      }
    } else {
      assert h[0] == WorkoutsForDay(h, c, day, localDate)[0];
    }
  }

  /** Clicking a day cell: the first session of that day, if any. */
  function SelectDay(h: seq<GeneratedWorkout>, c: Cursor, day: int, localDate: int -> CivilDate): (r: Option<GeneratedWorkout>)
    ensures r.None? <==> forall w :: w in h ==> localDate(w.timestamp) != CivilDate(c.year, c.month, day)
    ensures r.Some? ==> r.value in h && localDate(r.value.timestamp) == CivilDate(c.year, c.month, day)
  {
    var ws := WorkoutsForDay(h, c, day, localDate);
    if |ws| > 0 then
      assert ws[0] in ws;
      Some(ws[0])
    else None
  }

  /** `isToday`: the day number matches today's and the cursor is on today's
      month and year. */
  predicate IsToday(c: Cursor, day: int, today: CivilDate) {
    day == today.day && c.month == today.month && c.year == today.year
  }

  /** The label under a marked day: the class type's first word. */
  function BadgeLabel(w: GeneratedWorkout): string {
    JsText.SplitOn(ClassTypeValue(w.kind), ' ')[0]
  }

  /** The four labels are the first words of the class types, all distinct. */
  lemma BadgeLabels(t: ClassType)
    ensures var l := BadgeLabel(GeneratedWorkout("", "", t, "", 0, None));
      && l == (match t case Hybrid => "Functional" case Strongman => "Strongman"
                       case Endurance => "Endurance" case Pilates => "Pilates")
      && ' ' !in l
  {
    match t
    case Hybrid => FirstWord(Hybrid, "Functional", " Hybrid");
    case Strongman => FirstWord(Strongman, "Strongman", " Focus");
    case Endurance => FirstWord(Endurance, "Endurance", "");
    case Pilates => FirstWord(Pilates, "Pilates", " Mat / Yoga");
  }

  /** A class type's badge is the word before its first space. */
  lemma FirstWord(t: ClassType, word: string, rest: string)
    requires ClassTypeValue(t) == word + rest
    requires ' ' !in word && (rest == "" || rest[0] == ' ')
    ensures BadgeLabel(GeneratedWorkout("", "", t, "", 0, None)) == word
  {
    JsText.SplitFirst(word, rest, ' ');
  }

}

=== FILE: chat_assistant.dfy ===
/** The coach chat panel (components/ChatAssistant.tsx): a message log that
    starts with a greeting, a guarded send that logs the user's message and
    asks the service, and the completion that logs the reply. */
module ChatAssistant {
  import opened Wrappers
  import opened JsText
  import opened GeminiService

  const Greeting := "¡Hola Coach! Soy tu asistente GRIT. ¿Dudas con la programación de hoy, adaptaciones o fisiología?"
  const ConnectionError := "Error de conexión. Inténtalo de nuevo."

  datatype ChatState = ChatState(messages: seq<ChatMessage>, input: string, loading: bool)

  /** The log starts with the model's greeting alone. */
  const Initial := ChatState([ChatMessage(Model, Greeting)], "", false)

  /** What `handleSend` passes to the service: the log before the new
      message, and the raw input. */
  datatype ChatRequest = ChatRequest(history: seq<ChatMessage>, text: string)

  /** `handleSend`: nothing happens on blank input or while a reply is
      pending. Otherwise the raw input is logged as a user message, the
      input is cleared, loading starts, and the request carries the previous
      log. */
  function Send(st: ChatState): (r: (ChatState, Option<ChatRequest>))
    ensures AllSpace(st.input) || st.loading ==> r == (st, None)
    ensures !AllSpace(st.input) && !st.loading ==>
      && r.0 == ChatState(st.messages + [ChatMessage(User, st.input)], "", true)
      && r.1 == Some(ChatRequest(st.messages, st.input))
  {
    if Trim(st.input) == "" || st.loading then (st, None)
    else (ChatState(st.messages + [ChatMessage(User, st.input)], "", true), Some(ChatRequest(st.messages, st.input)))
  }

  /** The end of `handleSend`: one model message — the reply, or the
      connection error when the call rejected — and loading stops. */
  function Complete(st: ChatState, reply: SdkReply): (r: ChatState)
    ensures |r.messages| == |st.messages| + 1 && r.messages[..|st.messages|] == st.messages
    ensures r.messages[|st.messages|].role == Model && !r.loading && r.input == st.input
    ensures reply.Threw? ==> r.messages[|st.messages|].text == ConnectionError
    ensures reply.Replied? ==> r.messages[|st.messages|].text == reply.text.GetOr("")
  {
    var text := match SendChatMessage(reply) case Some(t) => t case None => ConnectionError;
    st.(messages := st.messages + [ChatMessage(Model, text)], loading := false)
  }

  /** The payload the service receives is exactly the log the user sees
      right after pressing send. */
  lemma PayloadMatchesLog(st: ChatState)
    requires !AllSpace(st.input) && !st.loading
    ensures var (s, req) := Send(st);
      && req.Some?
      && FromContents(ChatContents(req.value.history, req.value.text)) == s.messages
  {
    var (s, req) := Send(st);
    ChatContentsRoundTrip(req.value.history, req.value.text);
  }

  /** The panel's events. A reply can only arrive while one is pending. */
  datatype Event = Typed(text: string) | SendPressed | ReplyArrived(reply: SdkReply)

  function Step(st: ChatState, e: Event): ChatState {
    match e
    case Typed(t) => st.(input := t)
    case SendPressed => Send(st).0
    case ReplyArrived(reply) => if st.loading then Complete(st, reply) else st
  }

  function Run(st: ChatState, es: seq<Event>): ChatState
    decreases |es|
  {
    if |es| == 0 then st else Run(Step(st, es[0]), es[1..])
  }

  /** The log always opens with the greeting, and a reply is pending exactly
      when the last message is the user's. */
  predicate Valid(st: ChatState) {
    && |st.messages| >= 1
    && st.messages[0] == ChatMessage(Model, Greeting)
    && (st.loading <==> st.messages[|st.messages| - 1].role == User)
  }

  lemma StepValid(st: ChatState, e: Event)
    requires Valid(st)
    ensures Valid(Step(st, e))
    ensures |Step(st, e).messages| <= |st.messages| + 1
  {
    var r := Step(st, e);
    if e.SendPressed? || e.ReplyArrived? {
      assert r.messages[..|st.messages|] == st.messages || r.messages == st.messages;
    }
  }

  /** Every sequence of events keeps the log valid. */
  lemma {:induction false} RunValid(st: ChatState, es: seq<Event>)
    requires Valid(st)
    ensures Valid(Run(st, es))
    decreases |es|
  {
    if |es| > 0 {
      StepValid(st, es[0]);
      RunValid(Step(st, es[0]), es[1..]);
    }
  }

  lemma InitialValid()
    ensures Valid(Initial)
  {
  }
}

=== FILE: class_selector.dfy ===
/** The class picker (components/ClassSelector.tsx): four class cards, a
    focus field, a date, and the Generate button that emits a request only
    once a class is chosen. */
module ClassSelector {
  import opened Wrappers
  import opened Types
  import GeminiService

  /** `selectedDate` is today's ISO date at mount, supplied by the caller. */
  datatype SelectorState = SelectorState(selected: Option<ClassType>, focus: string, date: string)

  function InitialState(todayIso: string): SelectorState {
    SelectorState(None, "", todayIso)
  }

  /** `handleGenerate`: no request without a chosen class; otherwise the
      class, the focus text verbatim (even when empty) and the chosen date,
      with every context left for the caller to fill. */
  function HandleGenerate(st: SelectorState): (r: Option<WorkoutRequest>)
    ensures r.None? <==> st.selected.None?
    ensures r.Some? ==> r.value.kind == st.selected.value && r.value.focus == Some(st.focus) && r.value.date == Some(st.date)
    ensures r.Some? ==>
      && r.value.cycleContext.None? && r.value.annualContext.None? && r.value.equipmentContext.None?
      && r.value.benchmarksContext.None? && r.value.recentHistory.None?
  {
    match st.selected
    case None => None
    case Some(t) => Some(WorkoutRequest(t, Some(st.focus), None, None, None, None, None, Some(st.date)))
  }

  /** The Generate button is disabled while loading or before a class is
      chosen. */
  predicate GenerateDisabled(st: SelectorState, loading: bool) {
    st.selected.None? || loading
  }

  /** An enabled button always emits a request. */
  lemma EnabledEmits(st: SelectorState, loading: bool)
    requires !GenerateDisabled(st, loading)
    ensures HandleGenerate(st).Some?
  {
  }

  /** An empty focus field reaches the prompt as the default sentence. */
  lemma EmptyFocusGetsDefault(st: SelectorState)
    requires st.selected.Some? && st.focus == ""
    ensures GeminiService.FocusText(HandleGenerate(st).value.focus) == GeminiService.DefaultFocusLine
  {
  }

  datatype Card = Card(kind: ClassType, title: string, desc: string)

  const Cards: seq<Card> := [
    Card(Hybrid, "Functional Hybrid", "Fuerza + Metabólico. Estructura clásica."),
    Card(Strongman, "Strongman Focus", "Objetos pesados, terraza, fuerza bruta."),
    Card(Endurance, "Endurance", "Larga duración, cardio y resistencia."),
    Card(Pilates, "Pilates / Yoga", "Control, mat, core y movilidad.")
  ]

  predicate HasCard(t: ClassType) {
    exists i :: 0 <= i < |Cards| && Cards[i].kind == t
  }

  /** Exactly one card per class type; the titles are the class names except
      the shortened Pilates one. */
  lemma CardsCoverClassTypes()
    ensures |Cards| == 4
    ensures forall t: ClassType :: HasCard(t)
    ensures forall i, j :: 0 <= i < j < |Cards| ==> Cards[i].kind != Cards[j].kind
    ensures forall i :: 0 <= i < |Cards| && Cards[i].kind != Pilates ==> Cards[i].title == ClassTypeValue(Cards[i].kind)
  {
    forall t: ClassType
      ensures HasCard(t)
    {
      match t
      case Hybrid => assert Cards[0].kind == t;
      case Strongman => assert Cards[1].kind == t;
      case Endurance => assert Cards[2].kind == t;
      case Pilates => assert Cards[3].kind == t;
    }
  }

  /** Clicking a card selects its class. */
  function SelectCard(st: SelectorState, i: nat): (r: SelectorState)
    requires i < |Cards|
    ensures r.selected == Some(Cards[i].kind) && r.focus == st.focus && r.date == st.date
  {
    st.(selected := Some(Cards[i].kind))
  }
}

=== FILE: cycle_manager.dfy ===
/** The training-cycle (mesocycle) manager (components/CycleManager.tsx):
    validated creation, a week counter moved by one within
    `[1, totalWeeks]`, and closing the cycle. */
module CycleManager {
  import opened Wrappers
  import opened Types
  import opened JsText

  /** The durations, in weeks, the creation form offers. */
  const OfferedDurations: seq<int> := [2, 3, 4, 5, 6, 8, 12]

  /** What the creation form holds. */
  datatype CycleForm = CycleForm(name: string, goal: string, totalWeeks: int)

  /** The form as it starts and as it is reset after a creation. */
  const EmptyForm := CycleForm("", "", 4)

  /** The component's own state: the active cycle it shows (owned by the
      application shell), whether the form is open, and the form. */
  datatype CycleUi = CycleUi(active: Option<TrainingCycle>, creating: bool, form: CycleForm)

  /** The week counter lies within the cycle. */
  predicate WeekInRange(c: TrainingCycle) {
    1 <= c.currentWeek <= c.totalWeeks
  }

  /** `cycle-<Date.now()>-<n>` with `n = Math.floor(Math.random() * 1000)`. */
  function CycleId(nowMs: int, n: int): string {
    "cycle-" + IntToString(nowMs) + "-" + IntToString(n)
  }

  /** The cycle `handleCreate` builds, or None when the trimmed name or the
      trimmed goal is empty. A duration of 0 falls back to 4 weeks. */
  function NewCycle(form: CycleForm, id: string, startDate: string): (r: Option<TrainingCycle>)
    ensures r.None? <==> AllSpace(form.name) || AllSpace(form.goal)
    ensures r.Some? ==> r.value.currentWeek == 1 && r.value.id == id && r.value.startDate == startDate
    ensures r.Some? ==> r.value.name == Trim(form.name) && r.value.name != "" && Trim(r.value.name) == r.value.name
    ensures r.Some? ==> r.value.goal == Trim(form.goal) && r.value.goal != "" && Trim(r.value.goal) == r.value.goal
    ensures r.Some? ==> r.value.totalWeeks == (if form.totalWeeks == 0 then 4 else form.totalWeeks)
  {
    var name, goal := Trim(form.name), Trim(form.goal);
    if name == "" || goal == "" then None
    else
      TrimIdempotent(form.name);
      TrimIdempotent(form.goal);
      Some(TrainingCycle(id, name, goal, if form.totalWeeks == 0 then 4 else form.totalWeeks, 1, startDate, None))
  }

  /** `handleCreate`: a no-op when validation fails; otherwise the new cycle
      replaces the active one, the form closes and is reset. */
  function HandleCreate(ui: CycleUi, nowMs: int, n: int, startDate: string): (r: CycleUi)
    requires 0 <= n < 1000
    ensures AllSpace(ui.form.name) || AllSpace(ui.form.goal) ==> r == ui
    ensures !(AllSpace(ui.form.name) || AllSpace(ui.form.goal)) ==>
      r.active == NewCycle(ui.form, CycleId(nowMs, n), startDate) && r.active.Some? && !r.creating && r.form == EmptyForm
  {
    match NewCycle(ui.form, CycleId(nowMs, n), startDate)
    case None => ui
    case Some(c) => CycleUi(Some(c), false, EmptyForm)
  }

  /** A cycle created with an offered duration (or the fallback) starts with
      its week counter in range. */
  lemma CreatedWeekInRange(form: CycleForm, id: string, startDate: string)
    requires form.totalWeeks == 0 || form.totalWeeks in OfferedDurations
    requires NewCycle(form, id, startDate).Some?
    ensures WeekInRange(NewCycle(form, id, startDate).value)
  {
    OfferedAtLeastTwo(form.totalWeeks);
  }

  lemma OfferedAtLeastTwo(weeks: int)
    requires weeks == 0 || weeks in OfferedDurations
    ensures (if weeks == 0 then 4 else weeks) >= 2
  {
  }

  /** `advanceWeek`. */
  function Advance(active: Option<TrainingCycle>): (r: Option<TrainingCycle>)
    ensures active.None? ==> r.None?
    ensures active.Some? ==> r.Some? && r.value.(currentWeek := active.value.currentWeek) == active.value
    ensures active.Some? ==>
      r.value.currentWeek == active.value.currentWeek + (if active.value.currentWeek < active.value.totalWeeks then 1 else 0)
  {
    match active
    case None => None
    case Some(c) =>
      if c.currentWeek < c.totalWeeks then Some(c.(currentWeek := c.currentWeek + 1)) else active
  }

  /** `previousWeek`. */
  function Retreat(active: Option<TrainingCycle>): (r: Option<TrainingCycle>)
    ensures active.None? ==> r.None?
    ensures active.Some? ==> r.Some? && r.value.(currentWeek := active.value.currentWeek) == active.value
    ensures active.Some? ==>
      r.value.currentWeek == active.value.currentWeek - (if active.value.currentWeek > 1 then 1 else 0)
  {
    match active
    case None => None
    case Some(c) =>
      if c.currentWeek > 1 then Some(c.(currentWeek := c.currentWeek - 1)) else active
  }

  /** Retreating undoes an advance that moved, and advancing undoes a retreat
      that moved. */
  lemma AdvanceRetreatInverse(c: TrainingCycle)
    requires WeekInRange(c)
    ensures c.currentWeek < c.totalWeeks ==> Retreat(Advance(Some(c))) == Some(c)
    ensures c.currentWeek > 1 ==> Advance(Retreat(Some(c))) == Some(c)
  {
  }

  /** `deleteCycle`: the active cycle is cleared only once confirmed. */
  function Close(active: Option<TrainingCycle>, confirmed: bool): (r: Option<TrainingCycle>)
    ensures confirmed ==> r.None?
    ensures !confirmed ==> r == active
  {
    if confirmed then None else active
  }

  datatype WeekStep = AdvanceStep | RetreatStep

  function Step(active: Option<TrainingCycle>, s: WeekStep): Option<TrainingCycle> {
    match s
    case AdvanceStep => Advance(active)
    case RetreatStep => Retreat(active)
  }

  function Run(active: Option<TrainingCycle>, steps: seq<WeekStep>): Option<TrainingCycle>
    decreases |steps|
  {
    if |steps| == 0 then active else Run(Step(active, steps[0]), steps[1..])
  }

  /** Any sequence of advances and retreats keeps the counter within
      `[1, totalWeeks]` and changes nothing but the counter; with no active
      cycle it does nothing. */
  lemma {:induction false} RunKeepsWeekInRange(active: Option<TrainingCycle>, steps: seq<WeekStep>)
    ensures active.None? ==> Run(active, steps).None?
    ensures active.Some? && WeekInRange(active.value) ==>
      && Run(active, steps).Some?
      && WeekInRange(Run(active, steps).value)
      && Run(active, steps).value.(currentWeek := active.value.currentWeek) == active.value
    decreases |steps|
  {
    if |steps| > 0 {
      RunKeepsWeekInRange(Step(active, steps[0]), steps[1..]);
    }
  }

  /** A confirmed close leaves nothing for the week buttons: every sequence
      of advances and retreats after it keeps the cycle closed, while a
      cancelled close lets them act on the cycle as before. */
  lemma ClosedIsInert(active: Option<TrainingCycle>, steps: seq<WeekStep>)
    ensures Run(Close(active, true), steps) == None
    ensures Run(Close(active, false), steps) == Run(active, steps)
  {
    RunKeepsWeekInRange(None, steps);
  }
}

=== FILE: gemini_service.dfy ===
/** The request side of the text-generation service (services/geminiService.ts):
    the context strings of the workout prompt, the prompt itself, the chat
    payload, and the fallbacks applied to the service's reply. The service is
    not modelled: its reply is an input. */
module GeminiService {
  import opened Wrappers
  import opened Types
  import opened JsText
  import AnnualPlanner

  // ---- cycle line ----

  const NoCycleLine := "Fase: Mantenimiento General"
  const CycleLabel := "CICLO ACTUAL: "

  /** `cycleInfo`: the active cycle's name, "current/total" weeks and goal,
      or the maintenance line without a cycle. */
  function CycleInfo(c: Option<TrainingCycle>): (r: string)
    ensures c.None? <==> r == NoCycleLine
    ensures c.Some? ==> |r| >= |CycleLabel| + |c.value.goal| && r[..|CycleLabel|] == CycleLabel
    ensures c.Some? ==> r[|r| - |c.value.goal|..] == c.value.goal
  {
    match c
    case None => NoCycleLine
    case Some(cy) =>
      var middle := cy.name + " (Semana " + WeeksText(cy) + "). Objetivo: ";
      var r := CycleLabel + middle + cy.goal;
      assert r[..|CycleLabel|] == CycleLabel;
      assert r[0] == 'C' != NoCycleLine[0];
      r
  }

  /** "current/total". */
  function WeeksText(cy: TrainingCycle): string {
    IntToString(cy.currentWeek) + ("/" + IntToString(cy.totalWeeks))
  }

  /** Replacing a middle piece by a different one changes the string. */
  lemma MiddleDiffers(p: string, d1: string, d2: string, s: string)
    requires d1 != d2
    ensures p + d1 + s != p + d2 + s
  {
    if |d1| == |d2| {
      var k :| 0 <= k < |d1| && d1[k] != d2[k];
      assert (p + d1 + s)[|p| + k] == d1[k];
      assert (p + d2 + s)[|p| + k] == d2[k];
    }
  }

  /** The week text pins down the current week. */
  lemma WeeksTextShowsWeek(c: TrainingCycle, w: nat)
    requires c.currentWeek >= 0 && w != c.currentWeek
    ensures WeeksText(c) != WeeksText(c.(currentWeek := w))
  {
    var d1, d2 := IntToString(c.currentWeek), IntToString(w);
    DecimalRoundTrip(c.currentWeek);
    DecimalRoundTrip(w);
    assert d1 != d2;
    HeadDiffers(d1, d2, "/" + IntToString(c.totalWeeks));
  }

  /** Replacing a leading piece by a different one changes the string. */
  lemma HeadDiffers(d1: string, d2: string, s: string)
    requires d1 != d2
    ensures d1 + s != d2 + s
  {
    MiddleDiffers("", d1, d2, s);
    assert "" + d1 == d1 && "" + d2 == d2;
  }

  /** The cycle line around its week text. */
  lemma CycleInfoAroundWeeks(c: TrainingCycle)
    ensures CycleInfo(Some(c)) == (CycleLabel + c.name + " (Semana ") + WeeksText(c) + ("). Objetivo: " + c.goal)
  {
    Regroup(CycleLabel, c.name, " (Semana ", WeeksText(c), "). Objetivo: ", c.goal);
  }

  lemma Regroup(l: string, n: string, s: string, w: string, o: string, g: string)
    ensures l + (n + s + w + o) + g == (l + n + s) + w + (o + g)
  {
  }

  /** The cycle line pins down the current week: two cycles that differ only
      in their (non-negative) week give different lines. */
  lemma CycleInfoShowsWeek(c: TrainingCycle, w: nat)
    requires c.currentWeek >= 0 && w != c.currentWeek
    ensures CycleInfo(Some(c)) != CycleInfo(Some(c.(currentWeek := w)))
  {
    var c2 := c.(currentWeek := w);
    WeeksTextShowsWeek(c, w);
    CycleInfoAroundWeeks(c);
    CycleInfoAroundWeeks(c2);
    MiddleDiffers(CycleLabel + c.name + " (Semana ", WeeksText(c), WeeksText(c2), "). Objetivo: " + c.goal);
  }

  // ---- fatigue context ----

  const NoHistoryLine := "No hay datos recientes."
  // The fixed texts below are written in short pieces so that facts about
  // their characters stay cheap to prove.
  const HistoryHeader := "HISTORIAL RECIENTE" + " (IMPORTANTE - " + "EVITAR REPETICIÓN" + " MUSCULAR):"
  const AnalysisNote := "): Analiza este " + "entreno anterior" + " para NO repetir" + " patrones muscul" + "ares hoy."

  /** How many recent sessions the prompt lists. */
  const FatigueEntries: nat := 3

  function FatigueLine(w: GeneratedWorkout): string {
    "- " + w.date + " (" + ClassTypeValue(w.kind) + AnalysisNote
  }

  /** A session's line is the date, the class type in parentheses and the
      fixed request not to repeat the previous muscle patterns. */
  lemma FatigueLineText(w: GeneratedWorkout)
    ensures FatigueLine(w)
         == "- " + w.date + " (" + ClassTypeValue(w.kind)
          + "): Analiza este entreno anterior para NO repetir patrones musculares hoy."
  {
    AnalysisNoteText();
  }

  lemma AnalysisNoteText()
    ensures AnalysisNote == "): Analiza este entreno anterior para NO repetir patrones musculares hoy."
  {
    NoteHead();
    NoteTail();
    NoteJoin();
  }

  lemma NoteHead()
    ensures "): Analiza este " + "entreno anterior" + " para NO repetir"
         == "): Analiza este entreno anterior para NO repetir"
  {
  }

  lemma NoteTail()
    ensures " patrones muscul" + "ares hoy." == " patrones musculares hoy."
  {
  }

  lemma NoteJoin()
    ensures "): Analiza este entreno anterior para NO repetir" + " patrones musculares hoy."
         == "): Analiza este entreno anterior para NO repetir patrones musculares hoy."
  {
  }

  /** One line for each of the first three recent sessions, in order. */
  function FatigueLines(h: seq<GeneratedWorkout>): (r: seq<string>)
    ensures |r| == Min(FatigueEntries, |h|)
    ensures forall i :: 0 <= i < |r| ==> r[i] == FatigueLine(h[i])
  {
    seq(Min(FatigueEntries, |h|), i requires 0 <= i < Min(FatigueEntries, |h|) => FatigueLine(h[i]))
  }

  /** `fatigueContext`: the fixed sentence without recent sessions, else the
      header and one line per listed session, separated by newlines. */
  function FatigueContext(recent: Option<seq<GeneratedWorkout>>): (r: string)
    ensures recent.None? || |recent.value| == 0 ==> r == NoHistoryLine
    ensures recent.Some? && |recent.value| > 0 ==> r == Join([HistoryHeader] + FatigueLines(recent.value), "\n")
  {
    if recent.None? || |recent.value| == 0 then NoHistoryLine
    else
      var lines := FatigueLines(recent.value);
      assert Join([HistoryHeader] + lines, "\n") == HistoryHeader + "\n" + Join(lines, "\n") by {
        assert ([HistoryHeader] + lines)[1..] == lines;
      }
      HistoryHeader + "\n" + Join(lines, "\n")
  }

  /** Read back line by line, the context is the header followed by one line
      per listed session — at most three — provided no date contains a
      newline. */
  lemma FatigueContextLines(recent: seq<GeneratedWorkout>)
    requires |recent| > 0
    requires forall i :: 0 <= i < |recent| ==> '\n' !in recent[i].date
    ensures SplitOn(FatigueContext(Some(recent)), '\n') == [HistoryHeader] + FatigueLines(recent)
    ensures |SplitOn(FatigueContext(Some(recent)), '\n')| <= 1 + FatigueEntries
  {
    var parts := [HistoryHeader] + FatigueLines(recent);
    forall i | 0 <= i < |parts|
      ensures '\n' !in parts[i]
    {
      if i > 0 {
        var w := recent[i - 1];
        assert parts[i] == FatigueLine(w);
        NoNewlineIn(w);
      }
    }
    SplitJoin(parts, '\n');
  }

  lemma NoNewlineIn(w: GeneratedWorkout)
    requires '\n' !in w.date
    ensures '\n' !in FatigueLine(w)
  {
    ClassNameSingleLine(w.kind);
    AnalysisNoteSingleLine();
    var p := "- " + w.date + " (";
    assert '\n' !in p;
  }

  lemma ClassNameSingleLine(t: ClassType)
    ensures '\n' !in ClassTypeValue(t)
  {
    match t
    case Hybrid => assert ClassTypeValue(t) == "Functional" + " Hybrid";
    case Strongman => assert ClassTypeValue(t) == "Strongman" + " Focus";
    case Endurance =>
    case Pilates => assert ClassTypeValue(t) == "Pilates" + " Mat / Yoga";
  }

  lemma AnalysisNoteSingleLine()
    ensures '\n' !in AnalysisNote
  {
  }

  // ---- equipment ----

  const StandardEquipment := "Material Estándar"

  function EquipmentItem(e: Equipment): (r: string)
    ensures |r| >= 5 && r[|r| - 5..] == " uds)"
  {
    e.name + " (" + IntToString(e.quantity) + " uds)"
  }

  /** "name (q uds)": the item's name first, its quantity in decimal last
      before " uds)". */
  lemma EquipmentItemParts(e: Equipment)
    ensures var r, q := EquipmentItem(e), IntToString(e.quantity);
      && |r| == |e.name| + 2 + |q| + 5
      && r[..|e.name|] == e.name
      && r[|r| - 5 - |q|..] == q + " uds)"
  {
    var q := IntToString(e.quantity);
    var r := EquipmentItem(e);
    assert r == e.name + (" (" + q + " uds)");
    assert r == e.name + " (" + (q + " uds)");
  }

  function EquipmentItems(items: seq<Equipment>): (r: seq<string>)
    ensures |r| == |items|
    ensures forall i :: 0 <= i < |items| ==> r[i] == EquipmentItem(items[i])
  {
    seq(|items|, i requires 0 <= i < |items| => EquipmentItem(items[i]))
  }

  lemma {:induction false} JoinEndsWithLast(parts: seq<string>, sep: string)
    requires |parts| > 0
    ensures |Join(parts, sep)| >= |parts[|parts| - 1]|
    ensures Join(parts, sep)[|Join(parts, sep)| - |parts[|parts| - 1]|..] == parts[|parts| - 1]
    decreases |parts|
  {
    if |parts| > 1 {
      JoinEndsWithLast(parts[1..], sep);
      assert parts[1..][|parts| - 2] == parts[|parts| - 1];
    }
  }

  /** `equipStr`: "name (q uds)" items joined with ", ", falling back to the
      standard-material text exactly when the inventory is absent or empty
      (the joined text then ends in " uds)" and cannot be the fallback). */
  function EquipStr(items: Option<seq<Equipment>>): (r: string)
    ensures r == StandardEquipment <==> items.None? || |items.value| == 0
    ensures items.Some? && |items.value| > 0 ==> |r| >= 5 && r[|r| - 5..] == " uds)"
  {
    var joined := if items.None? then "" else Join(EquipmentItems(items.value), ", ");
    if joined == "" then StandardEquipment
    else
      var parts := EquipmentItems(items.value);
      JoinEndsWithLast(parts, ", ");
      assert parts[|parts| - 1][|parts[|parts| - 1]| - 5..] == " uds)";
      assert joined[|joined| - 5..] == parts[|parts| - 1][|parts[|parts| - 1]| - 5..];
      assert StandardEquipment[|StandardEquipment| - 5..] != " uds)";
      joined
  }

  /** A single item is listed on its own, without a separator. */
  lemma EquipStrSingle(e: Equipment)
    ensures EquipStr(Some([e])) == EquipmentItem(e)
  {
  }

  /** One more item adds ", " and that item's text to the list. */
  lemma EquipStrAppend(items: seq<Equipment>, e: Equipment)
    requires |items| > 0
    ensures EquipStr(Some(items + [e])) == EquipStr(Some(items)) + ", " + EquipmentItem(e)
  {
    assert EquipmentItems(items + [e]) == EquipmentItems(items) + [EquipmentItem(e)];
    JoinAppend(EquipmentItems(items), EquipmentItem(e), ", ");
  }

  // ---- focus ----

  const DefaultFocusLine := "Diseña una sesión equilibrada y divertida."

  /** `request.focus || default`: absent and empty focus both get the
      default sentence; anything else is used verbatim. */
  function FocusText(focus: Option<string>): (r: string)
    ensures r != ""
    ensures focus.Some? && focus.value != "" ==> r == focus.value
    ensures focus.None? || focus.value == "" ==> r == DefaultFocusLine
  {
    if focus.None? || focus.value == "" then DefaultFocusLine else focus.value
  }

  /** Feeding the result back in changes nothing. */
  lemma FocusTextIdempotent(focus: Option<string>)
    ensures FocusText(Some(FocusText(focus))) == FocusText(focus)
  {
  }

  // ---- annual phase ----

  /** `phases.find(p => p.month.toLowerCase() === month.toLowerCase())`. */
  function FindPhase(phases: seq<AnnualPhase>, month: string): (r: Option<AnnualPhase>)
    ensures r.None? <==> forall i :: 0 <= i < |phases| ==> ToLower(phases[i].month) != ToLower(month)
    ensures r.Some? ==> exists i ::
      && 0 <= i < |phases| && phases[i] == r.value
      && ToLower(phases[i].month) == ToLower(month)
      && forall k :: 0 <= k < i ==> ToLower(phases[k].month) != ToLower(month)
  {
    if |phases| == 0 then None
    else if ToLower(phases[0].month) == ToLower(month) then Some(phases[0])
    else
      var r := FindPhase(phases[1..], month);
      if r.Some? then
        var i :|
          && 0 <= i < |phases[1..]| && phases[1..][i] == r.value
          && ToLower(phases[1..][i].month) == ToLower(month)
          && forall k :: 0 <= k < i ==> ToLower(phases[1..][k].month) != ToLower(month);
        assert phases[i + 1] == phases[1..][i];
        assert forall k :: 1 <= k < i + 1 ==> phases[k] == phases[1..][k - 1];
        r
      else
        assert forall k :: 1 <= k < |phases| ==> phases[k] == phases[1..][k - 1];
        r
  }

  /** `annualPhase`: the phase of the plan named like the target month,
      ignoring case; no plan, no phase. */
  function AnnualPhaseLookup(plan: Option<AnnualPlan>, month: string): (r: Option<AnnualPhase>)
    ensures plan.None? ==> r.None?
    ensures plan.Some? ==> r == FindPhase(plan.value.phases, month)
  {
    if plan.None? then None else FindPhase(plan.value.phases, month)
  }

  /** Distinguishing features of a month name that survive lower-casing. */
  function MonthKey(s: string): (int, char, char)
    requires |s| >= 3
  {
    (|s|, ToLowerChar(s[0]), ToLowerChar(s[2]))
  }

  lemma MonthKeysDistinct(i: nat, j: nat)
    requires i < 12 && j < 12 && i != j
    ensures MonthKey(AnnualPlanner.Months[i]) != MonthKey(AnnualPlanner.Months[j])
  {
    var m := AnnualPlanner.Months;
    var keys := [(5, 'e', 'e'), (7, 'f', 'b'), (5, 'm', 'r'), (5, 'a', 'r'), (4, 'm', 'y'), (5, 'j', 'n'),
                 (5, 'j', 'l'), (6, 'a', 'o'), (10, 's', 'p'), (7, 'o', 't'), (9, 'n', 'v'), (9, 'd', 'c')];
    assert MonthKey(m[0]) == keys[0];
    assert MonthKey(m[1]) == keys[1];
    assert MonthKey(m[2]) == keys[2];
    assert MonthKey(m[3]) == keys[3];
    assert MonthKey(m[4]) == keys[4];
    assert MonthKey(m[5]) == keys[5];
    assert MonthKey(m[6]) == keys[6];
    assert MonthKey(m[7]) == keys[7];
    assert MonthKey(m[8]) == keys[8];
    assert MonthKey(m[9]) == keys[9];
    assert MonthKey(m[10]) == keys[10];
    assert MonthKey(m[11]) == keys[11];
  }

  /** Texts with different keys differ after lower-casing. */
  lemma KeysSeparateLowered(a: string, b: string)
    requires |a| >= 3 && |b| >= 3 && MonthKey(a) != MonthKey(b)
    ensures ToLower(a) != ToLower(b)
  {
    if |a| == |b| {
      if ToLowerChar(a[0]) != ToLowerChar(b[0]) {
        assert ToLower(a)[0] != ToLower(b)[0];
      } else {
        assert ToLower(a)[2] != ToLower(b)[2];
      }
    }
  }

  /** When exactly one phase matches, the lookup finds it. */
  lemma {:induction false} FindOnlyMatch(phases: seq<AnnualPhase>, month: string, i: nat)
    requires i < |phases| && ToLower(phases[i].month) == ToLower(month)
    requires forall k :: 0 <= k < |phases| && k != i ==> ToLower(phases[k].month) != ToLower(month)
    ensures FindPhase(phases, month) == Some(phases[i])
  {
    if i > 0 {
      assert forall k :: 0 <= k < |phases[1..]| && k != i - 1 ==> phases[1..][k] == phases[k + 1];
      FindOnlyMatch(phases[1..], month, i - 1);
    }
  }

  /** On a freshly created plan, any capitalisation of a month name finds
      that month's phase. */
  lemma LookupInCreatedPlan(id: string, year: int, i: nat, month: string)
    requires i < 12 && ToLower(month) == ToLower(AnnualPlanner.Months[i])
    ensures AnnualPhaseLookup(Some(AnnualPlanner.CreatePlan(id, year)), month)
         == Some(AnnualPlanner.CreatePlan(id, year).phases[i])
  {
    var ps := AnnualPlanner.CreatePlan(id, year).phases;
    forall k | 0 <= k < |ps| && k != i
      ensures ToLower(ps[k].month) != ToLower(month)
    {
      MonthKeysDistinct(k, i);
      KeysSeparateLowered(AnnualPlanner.Months[k], AnnualPlanner.Months[i]);
    }
    FindOnlyMatch(ps, month, i);
  }

  // ---- the prompt ----

  const InventoryHint := "Usa el inventario disponible de forma inteligente (Circuitos/Rotaciones)."
  const ClosingLine := "RECUERDA: Nada de Crossfit complejo. Prioriza Salud, Estética y Diversión. Si usas barra, que sea básico (Squat/Deadlift/Press)."

  /** The prompt sent for a workout. `dateLabel` is the upper-cased long
      Spanish date of the target day, produced by the browser's locale
      formatting. The annual plan, the benchmarks and all but three recent
      sessions do not reach it. */
  function Prompt(req: WorkoutRequest, dateLabel: string): string {
    "\n    PROGRAMA EL ENTRENAMIENTO PARA: " + dateLabel
    + "\n    TIPO DE CLASE: " + ClassTypeValue(req.kind)
    + "\n    \n    INSTRUCCIONES CLAVE DE HOY:"
    + "\n    1. " + CycleInfo(req.cycleContext)
    + "\n    2. FOCO/OBJETIVO DEL DÍA: " + FocusText(req.focus)
    + "\n    3. LOGÍSTICA: Tienes 12 personas. " + (if req.equipmentContext.Some? then InventoryHint else "")
    + "\n    \n    " + FatigueContext(req.recentHistory)
    + "\n    \n    INVENTARIO REAL DISPONIBLE:"
    + "\n    " + EquipStr(req.equipmentContext)
    + "\n\n    " + ClosingLine
    + "\n  "
  }

  /** Two requests that agree on class type, cycle, focus, inventory and
      their first three recent sessions give the same prompt, whatever their
      annual plans, benchmarks and older sessions. */
  lemma PromptIgnoresAnnualAndBenchmarks(a: WorkoutRequest, b: WorkoutRequest, dateLabel: string)
    requires a.kind == b.kind && a.cycleContext == b.cycleContext && a.focus == b.focus
    requires a.equipmentContext == b.equipmentContext
    requires a.recentHistory.Some? <==> b.recentHistory.Some?
    requires a.recentHistory.Some? ==>
      && (|a.recentHistory.value| == 0 <==> |b.recentHistory.value| == 0)
      && a.recentHistory.value[..Min(FatigueEntries, |a.recentHistory.value|)]
         == b.recentHistory.value[..Min(FatigueEntries, |b.recentHistory.value|)]
    ensures Prompt(a, dateLabel) == Prompt(b, dateLabel)
  {
    if a.recentHistory.Some? && |a.recentHistory.value| > 0 {
      var ha, hb := a.recentHistory.value, b.recentHistory.value;
      assert Min(FatigueEntries, |ha|) == Min(FatigueEntries, |hb|) by {
        assert |ha[..Min(FatigueEntries, |ha|)]| == |hb[..Min(FatigueEntries, |hb|)]|;
      }
      assert FatigueLines(ha) == FatigueLines(hb) by {
        forall i | 0 <= i < Min(FatigueEntries, |ha|)
          ensures ha[i] == hb[i]
        {
          assert ha[i] == ha[..Min(FatigueEntries, |ha|)][i];
        }
      }
    }
  }

  // ---- the reply ----

  /** What the service call produced: a rejected promise, or a response
      whose `text` may be missing. */
  datatype SdkReply = Threw | Replied(text: Option<string>)

  const GenerationFallback := "Error generando la programación. Inténtalo de nuevo."

  /** `generateWorkout`'s result: `None` when the call rejects (the error
      propagates), otherwise the text, or the fallback message in place of a
      missing or empty text. */
  function GenerateWorkout(reply: SdkReply): (r: Option<string>)
    ensures r.None? <==> reply.Threw?
    ensures r.Some? ==> r.value != ""
    ensures reply.Replied? && reply.text.Some? && reply.text.value != "" ==> r == reply.text
    ensures reply.Replied? && (reply.text.None? || reply.text.value == "") ==> r == Some(GenerationFallback)
  {
    match reply
    case Threw => None
    case Replied(t) => if t.None? || t.value == "" then Some(GenerationFallback) else t
  }

  // ---- chat ----

  datatype Role = User | Model

  datatype ChatMessage = ChatMessage(role: Role, text: string)

  /** One `{ role, parts: [{ text }] }` entry of the chat payload. */
  datatype Content = Content(role: Role, parts: seq<string>)

  function ToContent(m: ChatMessage): Content {
    Content(m.role, [m.text])
  }

  /** The chat payload: every logged message, then the new user message. */
  function ChatContents(history: seq<ChatMessage>, newMessage: string): (r: seq<Content>)
    ensures |r| == |history| + 1
    ensures r[|history|] == Content(User, [newMessage])
  {
    seq(|history|, i requires 0 <= i < |history| => ToContent(history[i])) + [Content(User, [newMessage])]
  }

  /** Reading a payload back as messages. */
  function FromContents(cs: seq<Content>): (r: seq<ChatMessage>)
    requires forall i :: 0 <= i < |cs| ==> |cs[i].parts| == 1
    ensures |r| == |cs|
  {
    seq(|cs|, i requires 0 <= i < |cs| => ChatMessage(cs[i].role, cs[i].parts[0]))
  }

  /** The payload is exactly the log plus the new message as a user turn. */
  lemma ChatContentsRoundTrip(history: seq<ChatMessage>, newMessage: string)
    ensures forall i :: 0 <= i < |ChatContents(history, newMessage)| ==> |ChatContents(history, newMessage)[i].parts| == 1
    ensures FromContents(ChatContents(history, newMessage)) == history + [ChatMessage(User, newMessage)]
  {
    var cs := ChatContents(history, newMessage);
    assert forall i :: 0 <= i < |history| ==> cs[i] == ToContent(history[i]);
  }

  /** `sendChatMessage`'s result: `None` when the call rejects, otherwise the
      text or "" when it is missing. */
  function SendChatMessage(reply: SdkReply): (r: Option<string>)
    ensures r.None? <==> reply.Threw?
    ensures reply.Replied? && reply.text.Some? ==> r == reply.text
    ensures reply.Replied? && reply.text.None? ==> r == Some("")
  {
    match reply
    case Threw => None
    case Replied(t) => Some(t.GetOr(""))
  }
}

=== FILE: history.dfy ===
/** The workout history kept by the application shell (App.tsx): recording a
    newly generated workout, deleting and editing entries by id, and the slice
    of recent entries handed to the generator as context. */
module History {
  import opened Wrappers
  import opened Types
  import Seqs

  /** The history is cut to this many entries after every recording. */
  const MaxEntries: nat := 60

  /** How many of the newest entries the generator sees. */
  const ContextEntries: nat := 5

  /** Newest first: timestamps never increase along the sequence. */
  predicate SortedDesc(s: seq<GeneratedWorkout>) {
    forall i, j :: 0 <= i < j < |s| ==> s[i].timestamp >= s[j].timestamp
  }

  /** The entries of `s` stamped `t`, in their order in `s`. A sort is stable
      exactly when it keeps each of these subsequences. */
  function WithTimestamp(s: seq<GeneratedWorkout>, t: int): seq<GeneratedWorkout> {
    if |s| == 0 then []
    else (if s[0].timestamp == t then [s[0]] else []) + WithTimestamp(s[1..], t)
  }

  /** How many entries of `s` are strictly newer than `t`. */
  function CountNewer(s: seq<GeneratedWorkout>, t: int): nat {
    if |s| == 0 then 0
    else (if s[0].timestamp > t then 1 else 0) + CountNewer(s[1..], t)
  }

  predicate IsPrefix<T(==)>(a: seq<T>, b: seq<T>) {
    |a| <= |b| && a == b[..|a|]
  }

  /** Places `w` before the first entry that is not newer than it. */
  function InsertDesc(w: GeneratedWorkout, s: seq<GeneratedWorkout>): (r: seq<GeneratedWorkout>)
    ensures |r| == |s| + 1
  {
    if |s| == 0 || s[0].timestamp <= w.timestamp then [w] + s
    else [s[0]] + InsertDesc(w, s[1..])
  }

  /** `Array.prototype.sort` with comparator `(a, b) => b.timestamp - a.timestamp`.
      The language requires this sort to be stable; insertion sort is one
      stable sort, and `StableSortUnique` shows there is no other result. */
  function StableSort(s: seq<GeneratedWorkout>): (r: seq<GeneratedWorkout>)
    ensures |r| == |s|
  {
    if |s| == 0 then [] else InsertDesc(s[0], StableSort(s[1..]))
  }

  lemma {:induction false} WithTimestampAppend(a: seq<GeneratedWorkout>, b: seq<GeneratedWorkout>, t: int)
    ensures WithTimestamp(a + b, t) == WithTimestamp(a, t) + WithTimestamp(b, t)
  {
    if |a| == 0 {
      assert a + b == b;
    } else {
      var head := if a[0].timestamp == t then [a[0]] else [];
      assert (a + b)[0] == a[0] && (a + b)[1..] == a[1..] + b;
      WithTimestampAppend(a[1..], b, t);
      assert WithTimestamp(a + b, t) == head + (WithTimestamp(a[1..], t) + WithTimestamp(b, t));
      assert WithTimestamp(a, t) == head + WithTimestamp(a[1..], t);
    }
  }

  lemma {:induction false} InsertDescSorted(w: GeneratedWorkout, s: seq<GeneratedWorkout>)
    requires SortedDesc(s)
    ensures SortedDesc(InsertDesc(w, s))
  {
    if |s| > 0 && s[0].timestamp > w.timestamp {
      InsertDescSorted(w, s[1..]);
      var r := InsertDesc(w, s);
      assert r == [s[0]] + InsertDesc(w, s[1..]);
      assert forall k :: 1 <= k < |r| ==> r[k] in InsertDesc(w, s[1..]);
      InsertDescMultiset(w, s[1..]);
      forall k | 1 <= k < |r|
        ensures r[0].timestamp >= r[k].timestamp
      {
        assert r[k] in multiset(s[1..]) + multiset{w};
        if r[k] != w {
          assert r[k] in s[1..];
        }
      }
    }
  }

  lemma {:induction false} InsertDescMultiset(w: GeneratedWorkout, s: seq<GeneratedWorkout>)
    ensures multiset(InsertDesc(w, s)) == multiset(s) + multiset{w}
  {
    if |s| > 0 && s[0].timestamp > w.timestamp {
      InsertDescMultiset(w, s[1..]);
      assert s == [s[0]] + s[1..];
    }
  }

  /** Inserting keeps every same-timestamp subsequence and puts `w` at the
      front of its own. */
  lemma {:induction false} InsertDescStable(w: GeneratedWorkout, s: seq<GeneratedWorkout>, t: int)
    ensures WithTimestamp(InsertDesc(w, s), t)
         == (if w.timestamp == t then [w] else []) + WithTimestamp(s, t)
  {
    if |s| == 0 || s[0].timestamp <= w.timestamp {
      WithTimestampCons(w, s, t);
    } else {
      var rest := InsertDesc(w, s[1..]);
      assert InsertDesc(w, s) == [s[0]] + rest;
      assert s == [s[0]] + s[1..];
      WithTimestampCons(s[0], rest, t);
      WithTimestampCons(s[0], s[1..], t);
      InsertDescStable(w, s[1..], t);
      var head := if s[0].timestamp == t then [s[0]] else [];
      var mine := if w.timestamp == t then [w] else [];
      var tail := WithTimestamp(s[1..], t);
      if w.timestamp == t {
        assert head == [];
        assert head + (mine + tail) == mine + (head + tail);
      } else {
        assert mine == [];
        assert head + (mine + tail) == mine + (head + tail);
      }
    }
  }

  lemma WithTimestampCons(x: GeneratedWorkout, s: seq<GeneratedWorkout>, t: int)
    ensures WithTimestamp([x] + s, t) == (if x.timestamp == t then [x] else []) + WithTimestamp(s, t)
  {
    assert ([x] + s)[0] == x && ([x] + s)[1..] == s;
  }

  /** For a sorted list, `w` lands right after the entries newer than it. */
  lemma {:induction false} InsertDescPosition(w: GeneratedWorkout, s: seq<GeneratedWorkout>)
    requires SortedDesc(s)
    ensures var p := CountNewer(s, w.timestamp);
      && p <= |s|
      && InsertDesc(w, s) == s[..p] + [w] + s[p..]
      && (forall i :: 0 <= i < p ==> s[i].timestamp > w.timestamp)
      && (forall i :: p <= i < |s| ==> s[i].timestamp <= w.timestamp)
  {
    NewerSplit(s, w.timestamp);
    InsertAtCount(w, s);
  }

  /** In a sorted list the entries newer than `t` come first. */
  lemma {:induction false} NewerSplit(s: seq<GeneratedWorkout>, t: int)
    requires SortedDesc(s)
    ensures var p := CountNewer(s, t);
      && p <= |s|
      && (forall i :: 0 <= i < p ==> s[i].timestamp > t)
      && (forall i :: p <= i < |s| ==> s[i].timestamp <= t)
  {
    if |s| > 0 {
      var rest := s[1..];
      if s[0].timestamp > t {
        SortedTail(s);
        NewerSplit(rest, t);
        var q := CountNewer(rest, t);
        assert CountNewer(s, t) == q + 1;
        forall i | 0 < i < |s|
          ensures s[i] == rest[i - 1]
        {
        }
      } else {
        ZeroNewer(s, t);
        forall i | 0 <= i < |s|
          ensures s[i].timestamp <= t
        {
          assert s[0].timestamp >= s[i].timestamp || i == 0;
        }
      }
    }
  }

  /** In a sorted list, `w` is inserted right after the newer entries. */
  lemma {:induction false} InsertAtCount(w: GeneratedWorkout, s: seq<GeneratedWorkout>)
    requires SortedDesc(s)
    ensures var p := CountNewer(s, w.timestamp);
      p <= |s| && InsertDesc(w, s) == s[..p] + [w] + s[p..]
  {
    if |s| > 0 && s[0].timestamp > w.timestamp {
      var rest := s[1..];
      SortedTail(s);
      InsertAtCount(w, rest);
      var q := CountNewer(rest, w.timestamp);
      assert CountNewer(s, w.timestamp) == q + 1;
      assert InsertDesc(w, s) == [s[0]] + (rest[..q] + [w] + rest[q..]);
      assert s[..q + 1] == [s[0]] + rest[..q];
      assert s[q + 1..] == rest[q..];
    } else if |s| > 0 {
      ZeroNewer(s, w.timestamp);
      assert s[..0] + [w] + s[0..] == [w] + s;
    }
  }

  lemma SortedTail(s: seq<GeneratedWorkout>)
    requires SortedDesc(s) && |s| > 0
    ensures SortedDesc(s[1..])
  {
    forall i, j | 0 <= i < j < |s| - 1
      ensures s[1..][i].timestamp >= s[1..][j].timestamp
    {
      assert s[1..][i] == s[i + 1] && s[1..][j] == s[j + 1];
    }
  }

  lemma {:induction false} ZeroNewer(s: seq<GeneratedWorkout>, t: int)
    requires SortedDesc(s)
    requires |s| > 0 ==> s[0].timestamp <= t
    ensures CountNewer(s, t) == 0
  {
    if |s| > 0 {
      ZeroNewer(s[1..], t);
    }
  }

  lemma {:induction false} CountNewerInsert(w: GeneratedWorkout, s: seq<GeneratedWorkout>, t: int)
    ensures CountNewer(InsertDesc(w, s), t) == CountNewer(s, t) + (if w.timestamp > t then 1 else 0)
  {
    if |s| == 0 || s[0].timestamp <= w.timestamp {
      assert ([w] + s)[1..] == s;
    } else {
      CountNewerInsert(w, s[1..], t);
      assert InsertDesc(w, s)[1..] == InsertDesc(w, s[1..]);
    }
  }

  lemma {:induction false} CountNewerSort(s: seq<GeneratedWorkout>, t: int)
    ensures CountNewer(StableSort(s), t) == CountNewer(s, t)
  {
    if |s| > 0 {
      CountNewerSort(s[1..], t);
      CountNewerInsert(s[0], StableSort(s[1..]), t);
    }
  }

  /** The result of `StableSort` is sorted newest first, is a permutation of
      the input, and keeps the input order among entries with equal
      timestamps. */
  lemma {:induction false} StableSortCorrect(s: seq<GeneratedWorkout>)
    ensures SortedDesc(StableSort(s))
    ensures multiset(StableSort(s)) == multiset(s)
    ensures forall t :: WithTimestamp(StableSort(s), t) == WithTimestamp(s, t)
  {
    if |s| > 0 {
      StableSortCorrect(s[1..]);
      InsertDescSorted(s[0], StableSort(s[1..]));
      InsertDescMultiset(s[0], StableSort(s[1..]));
      assert s == [s[0]] + s[1..];
      forall t
        ensures WithTimestamp(StableSort(s), t) == WithTimestamp(s, t)
      {
        InsertDescStable(s[0], StableSort(s[1..]), t);
      }
    }
  }

  lemma {:induction false} WithTimestampHead(s: seq<GeneratedWorkout>)
    requires |s| > 0
    ensures WithTimestamp(s, s[0].timestamp) != []
    ensures WithTimestamp(s, s[0].timestamp)[0] == s[0]
  {
  }

  lemma {:induction false} WithTimestampMember(s: seq<GeneratedWorkout>, t: int, x: GeneratedWorkout)
    requires x in WithTimestamp(s, t)
    ensures x in s && x.timestamp == t
  {
    if |s| > 0 && x !in (if s[0].timestamp == t then [s[0]] else []) {
      WithTimestampMember(s[1..], t, x);
    }
  }

  /** A stable sort is determined by its input: two newest-first sequences
      with the same same-timestamp subsequences are equal. */
  lemma {:induction false} StableSortUnique(a: seq<GeneratedWorkout>, b: seq<GeneratedWorkout>)
    requires SortedDesc(a) && SortedDesc(b)
    requires forall t :: WithTimestamp(a, t) == WithTimestamp(b, t)
    ensures a == b
    decreases |a| + |b|
  {
    if |a| == 0 && |b| == 0 {
    } else if |a| == 0 {
      WithTimestampHead(b);
      assert false;
    } else if |b| == 0 {
      WithTimestampHead(a);
      assert false;
    } else {
      var ta, tb := a[0].timestamp, b[0].timestamp;
      WithTimestampHead(a);
      WithTimestampHead(b);
      if ta > tb {
        var x := WithTimestamp(b, ta)[0];
        assert x in WithTimestamp(b, ta);
        WithTimestampMember(b, ta, x);
        assert false;
      } else if tb > ta {
        var x := WithTimestamp(a, tb)[0];
        assert x in WithTimestamp(a, tb);
        WithTimestampMember(a, tb, x);
        assert false;
      } else {
        assert a[0] == b[0];
        forall t
          ensures WithTimestamp(a[1..], t) == WithTimestamp(b[1..], t)
        {
          var wa, wb := WithTimestamp(a, t), WithTimestamp(b, t);
          assert wa == (if ta == t then [a[0]] else []) + WithTimestamp(a[1..], t);
          assert wb == (if tb == t then [b[0]] else []) + WithTimestamp(b[1..], t);
          assert wa == wb;
          if ta == t {
            assert WithTimestamp(a[1..], t) == wa[1..];
            assert WithTimestamp(b[1..], t) == wb[1..];
          } else {
            assert [] + WithTimestamp(a[1..], t) == WithTimestamp(a[1..], t);
            assert [] + WithTimestamp(b[1..], t) == WithTimestamp(b[1..], t);
          }
        }
        StableSortUnique(a[1..], b[1..]);
        assert a == [a[0]] + a[1..] && b == [b[0]] + b[1..];
      }
    }
  }

  /** Sorting an already newest-first history changes nothing. */
  lemma SortSortedIsIdentity(s: seq<GeneratedWorkout>)
    requires SortedDesc(s)
    ensures StableSort(s) == s
  {
    StableSortCorrect(s);
    StableSortUnique(StableSort(s), s);
  }

  /** `[newWorkout, ...history].sort(newest first).slice(0, 60)`. */
  function Record(h: seq<GeneratedWorkout>, w: GeneratedWorkout): (r: seq<GeneratedWorkout>)
    ensures |r| <= MaxEntries
    ensures SortedDesc(r)
    ensures |h| < MaxEntries ==> multiset(r) == multiset(h) + multiset{w}
    ensures forall x :: x in r ==> x == w || x in h
  {
    var sorted := StableSort([w] + h);
    StableSortCorrect([w] + h);
    var r := sorted[..Min(MaxEntries, |sorted|)];
    assert forall x :: x in r ==> x in multiset([w] + h);
    assert |h| < MaxEntries ==> r == sorted;
    r
  }

  lemma RecordUnfold(h: seq<GeneratedWorkout>, w: GeneratedWorkout)
    ensures Record(h, w) == InsertDesc(w, StableSort(h))[..Min(MaxEntries, |h| + 1)]
  {
    assert ([w] + h)[0] == w && ([w] + h)[1..] == h;
  }

  /** The new workout survives the cut exactly when fewer than 60 existing
      entries are strictly newer than it. In particular, a workout stamped
      older than 60 existing entries is dropped the moment it is recorded. */
  lemma NewWorkoutKeptIff(h: seq<GeneratedWorkout>, w: GeneratedWorkout)
    ensures w in Record(h, w) <==> CountNewer(h, w.timestamp) < MaxEntries
  {
    var s := StableSort(h);
    StableSortCorrect(h);
    CountNewerSort(h, w.timestamp);
    RecordUnfold(h, w);
    CountNewerBound(s, w.timestamp);
    InsertCutKeeps(w, s, Min(MaxEntries, |h| + 1));
  }

  lemma {:induction false} CountNewerBound(s: seq<GeneratedWorkout>, t: int)
    ensures CountNewer(s, t) <= |s|
  {
    if |s| > 0 {
      CountNewerBound(s[1..], t);
    }
  }

  /** Cutting a sorted insertion to its first `n` entries keeps `w` exactly
      when fewer than `n` entries are strictly newer. */
  lemma InsertCutKeeps(w: GeneratedWorkout, s: seq<GeneratedWorkout>, n: nat)
    requires SortedDesc(s) && n <= |s| + 1
    ensures w in InsertDesc(w, s)[..n] <==> CountNewer(s, w.timestamp) < n
  {
    InsertDescPosition(w, s);
    var p := CountNewer(s, w.timestamp);
    var cut := InsertDesc(w, s)[..n];
    if p < n {
      assert cut[p] == w;
    } else {
      forall i | 0 <= i < n
        ensures cut[i] != w
      {
        assert cut[i] == s[i];
        assert s[i].timestamp > w.timestamp;
      }
    }
  }

  /** When 60 or more existing entries are all strictly newer, recording
      leaves exactly the 60 newest existing entries. */
  lemma RecordFullOfNewer(h: seq<GeneratedWorkout>, w: GeneratedWorkout)
    requires |h| >= MaxEntries
    requires forall i :: 0 <= i < |h| ==> h[i].timestamp > w.timestamp
    ensures Record(h, w) == StableSort(h)[..MaxEntries]
    ensures w !in Record(h, w)
  {
    var s := StableSort(h);
    StableSortCorrect(h);
    AllNewerPermutation(h, s, w.timestamp);
    InsertAfterAll(w, s);
    RecordUnfold(h, w);
    assert (s + [w])[..MaxEntries] == s[..MaxEntries];
    forall i | 0 <= i < MaxEntries
      ensures s[..MaxEntries][i] != w
    {
      assert s[..MaxEntries][i].timestamp > w.timestamp;
    }
  }

  /** Inserting behind entries that are all newer appends at the end. */
  lemma {:induction false} InsertAfterAll(w: GeneratedWorkout, s: seq<GeneratedWorkout>)
    requires forall i :: 0 <= i < |s| ==> s[i].timestamp > w.timestamp
    ensures InsertDesc(w, s) == s + [w]
  {
    if |s| > 0 {
      assert forall i :: 0 <= i < |s[1..]| ==> s[1..][i] == s[i + 1];
      InsertAfterAll(w, s[1..]);
      assert s == [s[0]] + s[1..];
    }
  }

  lemma AllNewerPermutation(h: seq<GeneratedWorkout>, s: seq<GeneratedWorkout>, t: int)
    requires multiset(s) == multiset(h)
    requires forall i :: 0 <= i < |h| ==> h[i].timestamp > t
    ensures forall i :: 0 <= i < |s| ==> s[i].timestamp > t
  {
    forall i | 0 <= i < |s|
      ensures s[i].timestamp > t
    {
      assert s[i] in multiset(h);
      var j :| 0 <= j < |h| && h[j] == s[i];
    }
  }

  /** On a history that is already newest first, recording is an ordered
      insertion followed by the cut. */
  lemma RecordOnSorted(h: seq<GeneratedWorkout>, w: GeneratedWorkout)
    requires SortedDesc(h)
    ensures Record(h, w) == InsertDesc(w, h)[..Min(MaxEntries, |h| + 1)]
  {
    SortSortedIsIdentity(h);
    RecordUnfold(h, w);
  }

  lemma {:induction false} WithTimestampOfPrefix(s: seq<GeneratedWorkout>, n: nat, t: int)
    requires n <= |s|
    ensures IsPrefix(WithTimestamp(s[..n], t), WithTimestamp(s, t))
  {
    assert s == s[..n] + s[n..];
    WithTimestampAppend(s[..n], s[n..], t);
  }

  /** Recording is stable, with the new workout first: for every timestamp,
      the kept entries carrying it are a prefix of the new workout followed by
      the existing entries carrying it, in their old order. */
  lemma RecordStable(h: seq<GeneratedWorkout>, w: GeneratedWorkout, t: int)
    ensures IsPrefix(WithTimestamp(Record(h, w), t), WithTimestamp([w] + h, t))
  {
    var sorted := StableSort([w] + h);
    StableSortCorrect([w] + h);
    WithTimestampOfPrefix(sorted, Min(MaxEntries, |sorted|), t);
  }

  /** `history.filter(w => w.id !== id)`. */
  function Delete(h: seq<GeneratedWorkout>, id: string): (r: seq<GeneratedWorkout>)
    ensures forall x :: x in r <==> x in h && x.id != id
    ensures |r| == |h| - Seqs.CountKey(h, WorkoutId, id)
  {
    Seqs.WithoutKeyLength(h, WorkoutId, id);
    Seqs.WithoutKey(h, WorkoutId, id)
  }

  /** Deleting keeps the history newest first. */
  lemma {:induction false} DeleteKeepsSorted(h: seq<GeneratedWorkout>, id: string)
    requires SortedDesc(h)
    ensures SortedDesc(Delete(h, id))
  {
    if |h| > 0 {
      DeleteKeepsSorted(h[1..], id);
      var rest := Delete(h[1..], id);
      assert Delete(h, id) == (if h[0].id != id then [h[0]] else []) + rest;
      assert forall x :: x in rest ==> x in h[1..];
    }
  }

  /** The survivors of a deletion keep their relative order: deleting from a
      concatenation deletes from each part. */
  lemma DeleteKeepsOrder(a: seq<GeneratedWorkout>, b: seq<GeneratedWorkout>, id: string)
    ensures Delete(a + b, id) == Delete(a, id) + Delete(b, id)
  {
    Seqs.WithoutKeyAppend(a, b, WorkoutId, id);
  }

  /** `history.map(w => w.id === id ? updated : w)`. */
  function Replace(h: seq<GeneratedWorkout>, id: string, u: GeneratedWorkout): (r: seq<GeneratedWorkout>)
    ensures |r| == |h|
    ensures forall i :: 0 <= i < |h| && h[i].id != id ==> r[i] == h[i]
    ensures forall i :: 0 <= i < |h| && h[i].id == id ==> r[i] == u
  {
    Seqs.ReplaceKey(h, WorkoutId, id, u)
  }

  /** An edit that keeps the timestamp of the entries it replaces keeps the
      history newest first. */
  lemma ReplaceKeepsSorted(h: seq<GeneratedWorkout>, id: string, u: GeneratedWorkout)
    requires SortedDesc(h)
    requires forall i :: 0 <= i < |h| && h[i].id == id ==> h[i].timestamp == u.timestamp
    ensures SortedDesc(Replace(h, id, u))
  {
  }

  lemma {:induction false} NoneNewer(s: seq<GeneratedWorkout>, t: int)
    requires forall i :: 0 <= i < |s| ==> s[i].timestamp <= t
    ensures CountNewer(s, t) == 0
  {
    if |s| > 0 {
      NoneNewer(s[1..], t);
    }
  }

  /** A workout stamped no older than anything recorded so far heads the
      history. */
  lemma NewestRecordedFirst(h: seq<GeneratedWorkout>, w: GeneratedWorkout)
    requires forall i :: 0 <= i < |h| ==> h[i].timestamp <= w.timestamp
    ensures |Record(h, w)| > 0 && Record(h, w)[0] == w
  {
    var s := StableSort(h);
    StableSortCorrect(h);
    NoneNewer(h, w.timestamp);
    CountNewerSort(h, w.timestamp);
    InsertDescPosition(w, s);
    RecordUnfold(h, w);
    assert InsertDesc(w, s)[0] == w;
  }

  /** `history.slice(0, 5)`: the entries handed to the generator. */
  function Context(h: seq<GeneratedWorkout>): (r: seq<GeneratedWorkout>)
    ensures |r| == Min(ContextEntries, |h|)
    ensures IsPrefix(r, h)
  {
    h[..Min(ContextEntries, |h|)]
  }

  /** On a newest-first history the context holds the newest entries: none
      left out is newer than one taken. */
  lemma ContextIsNewest(h: seq<GeneratedWorkout>)
    requires SortedDesc(h)
    ensures var c := Context(h);
      forall i, j :: 0 <= i < |c| <= j < |h| ==> c[i].timestamp >= h[j].timestamp
  {
  }
}

=== FILE: js_text.dfy ===
/** The parts of JavaScript's string semantics the application relies on:
    white space as `String.prototype.trim` and the regular-expression class
    `\s` see it, ASCII/Latin-1 lower-casing, decimal rendering of integers
    (`Number.prototype.toString`), `padStart`, `Array.prototype.join`, and
    splitting a text into lines. */
module JsText {
  import opened Wrappers

  /** LineTerminator of ECMAScript: LF, CR, LINE SEPARATOR, PARAGRAPH SEPARATOR.
      These are the characters `.` does not match and after which `^` matches
      in a multiline regular expression. */
  predicate IsLineTerminator(c: char) {
    c == '\n' || c == '\r' || c == '\U{2028}' || c == '\U{2029}'
  }

  /** WhiteSpace or LineTerminator of ECMAScript: what `\s` matches and what
      `trim` removes. */
  predicate IsSpace(c: char) {
    || IsLineTerminator(c)
    || c == '\t' || c == '\U{000B}' || c == '\U{000C}' || c == ' '
    || c == '\U{00A0}' || c == '\U{1680}' || ('\U{2000}' <= c <= '\U{200A}')
    || c == '\U{202F}' || c == '\U{205F}' || c == '\U{3000}' || c == '\U{FEFF}'
  }

  predicate AllSpace(s: string) {
    forall k :: 0 <= k < |s| ==> IsSpace(s[k])
  }

  /** Number of white-space characters at the start of `s`. */
  function LeadingSpaces(s: string): (n: nat)
    ensures n <= |s|
    ensures AllSpace(s[..n])
    ensures n < |s| ==> !IsSpace(s[n])
  {
    if |s| == 0 || !IsSpace(s[0]) then 0
    else
      var n := 1 + LeadingSpaces(s[1..]);
      assert s[..n] == [s[0]] + s[1..][..n - 1];
      n
  }

  /** Number of white-space characters at the end of `s`. */
  function TrailingSpaces(s: string): (n: nat)
    ensures n <= |s|
    ensures AllSpace(s[|s| - n..])
    ensures n < |s| ==> !IsSpace(s[|s| - n - 1])
  {
    if |s| == 0 || !IsSpace(s[|s| - 1]) then 0
    else
      var n := 1 + TrailingSpaces(s[..|s| - 1]);
      assert s[|s| - n..] == s[..|s| - 1][|s| - n..] + [s[|s| - 1]];
      n
  }

  /** `String.prototype.trim`: the text between the leading and the trailing
      run of white space. */
  function Trim(s: string): (r: string)
    ensures r == "" <==> AllSpace(s)
    ensures r != "" ==> !IsSpace(r[0]) && !IsSpace(r[|r| - 1])
    ensures exists i :: 0 <= i <= |s| - |r| && r == s[i..i + |r|]
                        && AllSpace(s[..i]) && AllSpace(s[i + |r|..])
  {
    var a := LeadingSpaces(s);
    if a == |s| then
      assert s[..a] == s;
      assert s[0..0] == "" && s[0..] == s;
      ""
    else
      var b := TrailingSpaces(s);
      assert b < |s| - a;
      var r := s[a..|s| - b];
      assert r[0] == s[a] && r[|r| - 1] == s[|s| - b - 1];
      assert r == s[a..a + |r|];
      r
  }

  lemma TrimIdempotent(s: string)
    ensures Trim(Trim(s)) == Trim(s)
  {
    var r := Trim(s);
    if r != "" {
      assert LeadingSpaces(r) == 0;
      assert TrailingSpaces(r) == 0;
      assert r[0..|r| - 0] == r;
    }
  }

  /** Lower-casing of `String.prototype.toLowerCase` for the ASCII and Latin-1
      capital letters (A–Z, À–Þ except ×); every other character is kept. */
  function ToLowerChar(c: char): char {
    if 'A' <= c <= 'Z' || ('\U{00C0}' <= c <= '\U{00DE}' && c != '\U{00D7}') then
      (c as int + 32) as char
    else c
  }

  function ToLower(s: string): (r: string)
    ensures |r| == |s|
    ensures forall i :: 0 <= i < |s| ==> r[i] == ToLowerChar(s[i])
  {
    seq(|s|, i requires 0 <= i < |s| => ToLowerChar(s[i]))
  }

  function DigitChar(d: nat): char
    requires d < 10
  {
    "0123456789"[d]
  }

  predicate IsDigit(c: char) {
    '0' <= c <= '9'
  }

  predicate AllDigits(s: string) {
    forall k :: 0 <= k < |s| ==> IsDigit(s[k])
  }

  function DigitValue(c: char): nat
    requires IsDigit(c)
  {
    c as int - '0' as int
  }

  /** Decimal rendering of a non-negative integer, without leading zeros. */
  function NatToDecimal(n: nat): (r: string)
    ensures |r| >= 1 && AllDigits(r)
    ensures n >= 10 ==> r[0] != '0'
    ensures |r| == 1 <==> n < 10
  {
    if n < 10 then [DigitChar(n)]
    else NatToDecimal(n / 10) + [DigitChar(n % 10)]
  }

  /** `String(i)` for an integer: a minus sign before the decimal magnitude. */
  function IntToString(i: int): (r: string)
    ensures |r| >= 1
    ensures i >= 0 ==> r == NatToDecimal(i)
    ensures i < 0 ==> r == "-" + NatToDecimal(-i)
  {
    if i >= 0 then NatToDecimal(i) else "-" + NatToDecimal(-i)
  }

  /** The value of a string of decimal digits (leading zeros allowed). */
  function DecimalValue(s: string): nat
    requires AllDigits(s)
  {
    if |s| == 0 then 0
    else DecimalValue(s[..|s| - 1]) * 10 + DigitValue(s[|s| - 1])
  }

  lemma {:induction false} DecimalRoundTrip(n: nat)
    ensures DecimalValue(NatToDecimal(n)) == n
  {
    var r := NatToDecimal(n);
    if n >= 10 {
      DecimalRoundTrip(n / 10);
      assert r[..|r| - 1] == NatToDecimal(n / 10);
      assert DigitValue(r[|r| - 1]) == n % 10;
    }
  }

  lemma {:induction false} DecimalLeadingZeros(z: string, s: string)
    requires forall k :: 0 <= k < |z| ==> z[k] == '0'
    requires AllDigits(s)
    ensures AllDigits(z + s)
    ensures DecimalValue(z + s) == DecimalValue(s)
    decreases |s|
  {
    if |s| == 0 {
      assert z + s == z;
      ZerosValue(z);
    } else {
      var t := z + s;
      assert t[..|t| - 1] == z + s[..|s| - 1];
      DecimalLeadingZeros(z, s[..|s| - 1]);
    }
  }

  lemma {:induction false} ZerosValue(z: string)
    requires forall k :: 0 <= k < |z| ==> z[k] == '0'
    ensures AllDigits(z) && DecimalValue(z) == 0
  {
    if |z| > 0 {
      ZerosValue(z[..|z| - 1]);
    }
  }

  /** `s.padStart(n, fill)`: `fill` repeated on the left up to length `n`. */
  function PadStart(s: string, n: nat, fill: char): (r: string)
    ensures |r| == Max(n, |s|)
    ensures r[|r| - |s|..] == s
    ensures forall k :: 0 <= k < |r| - |s| ==> r[k] == fill
  {
    if |s| >= n then s else seq(n - |s|, _ => fill) + s
  }

  /** `parts.join(sep)`. */
  function Join(parts: seq<string>, sep: string): (r: string)
    ensures (forall i :: 0 <= i < |parts| ==> parts[i] != "") ==> (r == "" <==> |parts| == 0)
  {
    if |parts| == 0 then ""
    else if |parts| == 1 then parts[0]
    else parts[0] + sep + Join(parts[1..], sep)
  }

  /** `s.split(c)` for a one-character separator: always at least one piece. */
  function SplitOn(s: string, c: char): (r: seq<string>)
    ensures |r| >= 1
  {
    if |s| == 0 then [""]
    else
      var rest := SplitOn(s[1..], c);
      if s[0] == c then [""] + rest
      else [[s[0]] + rest[0]] + rest[1..]
  }

  lemma {:induction false} SplitPrefix(p: string, t: string, c: char)
    requires c !in p
    ensures SplitOn(p + t, c) == [p + SplitOn(t, c)[0]] + SplitOn(t, c)[1..]
  {
    if |p| > 0 {
      assert (p + t)[1..] == p[1..] + t;
      SplitPrefix(p[1..], t, c);
      assert [p[0]] + (p[1..] + SplitOn(t, c)[0]) == p + SplitOn(t, c)[0];
    } else {
      assert p + t == t;
      assert p + SplitOn(t, c)[0] == SplitOn(t, c)[0];
    }
  }

  /** The first piece of a split is everything before the first separator. */
  lemma SplitFirst(p: string, t: string, c: char)
    requires c !in p
    requires t == "" || t[0] == c
    ensures SplitOn(p + t, c)[0] == p
  {
    SplitPrefix(p, t, c);
    if t != "" {
      assert SplitOn(t, c)[0] == "";
    }
    assert p + "" == p;
  }

  /** Splitting around one separator splits each side independently. */
  lemma {:induction false} SplitAroundSeparator(a: string, b: string, c: char)
    ensures SplitOn(a + [c] + b, c) == SplitOn(a, c) + SplitOn(b, c)
  {
    if |a| == 0 {
      assert a + [c] + b == [c] + b;
      assert ([c] + b)[1..] == b;
    } else {
      assert (a + [c] + b)[1..] == a[1..] + [c] + b;
      SplitAroundSeparator(a[1..], b, c);
    }
  }

  /** Joining one more part appends the separator and that part. */
  lemma {:induction false} JoinAppend(parts: seq<string>, last: string, sep: string)
    requires |parts| > 0
    ensures Join(parts + [last], sep) == Join(parts, sep) + sep + last
    decreases |parts|
  {
    if |parts| == 1 {
      assert (parts + [last])[1..] == [last];
    } else {
      assert (parts + [last])[1..] == parts[1..] + [last];
      JoinAppend(parts[1..], last, sep);
    }
  }

  /** Splitting a join on its one-character separator gives the parts back,
      provided no part contains the separator. */
  lemma {:induction false} SplitJoin(parts: seq<string>, c: char)
    requires |parts| >= 1
    requires forall i :: 0 <= i < |parts| ==> c !in parts[i]
    ensures SplitOn(Join(parts, [c]), c) == parts
  {
    if |parts| == 1 {
      SplitPrefix(parts[0], "", c);
      assert parts[0] + "" == parts[0];
    } else {
      var rest := Join(parts[1..], [c]);
      SplitJoin(parts[1..], c);
      assert Join(parts, [c]) == parts[0] + ([c] + rest);
      SplitPrefix(parts[0], [c] + rest, c);
      assert ([c] + rest)[1..] == rest;
      assert SplitOn([c] + rest, c) == [""] + parts[1..];
      assert parts[0] + "" == parts[0];
      assert parts == [parts[0]] + parts[1..];
    }
  }
}

=== FILE: lab_analytics.dfy ===
/** The inventory and benchmark screen (components/LabAnalytics.tsx): guarded
    appends, deletion by id, the unit total, the "logistics healthy" check and
    the per-class-type counts of the history. */
module LabAnalytics {
  import opened Wrappers
  import opened Types
  import Seqs

  /** The equipment form: a name and a quantity (`parseInt(...) || 0`). */
  datatype EquipForm = EquipForm(name: string, quantity: int)

  const EmptyEquipForm := EquipForm("", 1)

  /** `addEquipment`: a no-op on an empty name; otherwise exactly one item is
      appended, with a fresh id, and the form is reset. */
  function AddEquipment(items: seq<Equipment>, form: EquipForm, newId: string): (r: (seq<Equipment>, EquipForm))
    ensures form.name == "" ==> r == (items, form)
    ensures form.name != "" ==> |r.0| == |items| + 1 && r.0[..|items|] == items
    ensures form.name != "" ==> r.0[|items|] == Equipment(newId, form.name, form.quantity)
    ensures form.name != "" ==> r.1 == EmptyEquipForm
  {
    if form.name == "" then (items, form)
    else (items + [Equipment(newId, form.name, form.quantity)], EmptyEquipForm)
  }

  /** The benchmark form; `adding` is whether the form is open. */
  datatype BenchForm = BenchForm(name: string, category: Category, description: string)

  const EmptyBenchForm := BenchForm("", Lift, "")

  datatype BenchUi = BenchUi(items: seq<Benchmark>, adding: bool, form: BenchForm)

  /** `addBenchmark`: a no-op unless both name and description are non-empty
      (they are not trimmed); otherwise one benchmark is appended, the form
      closes and is reset. */
  function AddBenchmark(ui: BenchUi, newId: string): (r: BenchUi)
    ensures ui.form.name == "" || ui.form.description == "" ==> r == ui
    ensures ui.form.name != "" && ui.form.description != "" ==>
      && |r.items| == |ui.items| + 1 && r.items[..|ui.items|] == ui.items
      && r.items[|ui.items|] == Benchmark(newId, ui.form.name, ui.form.category, ui.form.description)
      && !r.adding && r.form == EmptyBenchForm
  {
    if ui.form.name == "" || ui.form.description == "" then ui
    else BenchUi(ui.items + [Benchmark(newId, ui.form.name, ui.form.category, ui.form.description)], false, EmptyBenchForm)
  }

  /** `equipment.filter(e => e.id !== id)`. */
  function DeleteEquipment(items: seq<Equipment>, id: string): (r: seq<Equipment>)
    ensures forall x :: x in r <==> x in items && x.id != id
    ensures |r| == |items| - Seqs.CountKey(items, EquipmentId, id)
  {
    Seqs.WithoutKeyLength(items, EquipmentId, id);
    Seqs.WithoutKey(items, EquipmentId, id)
  }

  /** `benchmarks.filter(b => b.id !== id)`. */
  function DeleteBenchmark(items: seq<Benchmark>, id: string): (r: seq<Benchmark>)
    ensures forall x :: x in r <==> x in items && x.id != id
    ensures |r| == |items| - Seqs.CountKey(items, BenchmarkId, id)
  {
    Seqs.WithoutKeyLength(items, BenchmarkId, id);
    Seqs.WithoutKey(items, BenchmarkId, id)
  }

  /** Deleting a benchmark just added, under an id no benchmark had, gives
      the list back as it was (also when the form was refused). */
  lemma AddThenDeleteBenchmark(ui: BenchUi, newId: string)
    requires forall i :: 0 <= i < |ui.items| ==> ui.items[i].id != newId
    ensures DeleteBenchmark(AddBenchmark(ui, newId).items, newId) == ui.items
  {
    Seqs.WithoutAbsentKey(ui.items, BenchmarkId, newId);
    if ui.form.name != "" && ui.form.description != "" {
      var b := Benchmark(newId, ui.form.name, ui.form.category, ui.form.description);
      Seqs.WithoutKeyAppend(ui.items, [b], BenchmarkId, newId);
      assert Seqs.WithoutKey([b], BenchmarkId, newId) == [];
      assert ui.items + [] == ui.items;
    }
  }

  /** `equipment.reduce((sum, item) => sum + item.quantity, 0)`, folded from
      the left as `reduce` does. */
  function TotalUnits(items: seq<Equipment>): int {
    if |items| == 0 then 0 else TotalUnits(items[..|items| - 1]) + items[|items| - 1].quantity
  }

  /** The total is additive over concatenation. */
  lemma {:induction false} TotalUnitsAppend(a: seq<Equipment>, b: seq<Equipment>)
    ensures TotalUnits(a + b) == TotalUnits(a) + TotalUnits(b)
    decreases |b|
  {
    if |b| == 0 {
      assert a + b == a;
    } else {
      assert (a + b)[..|a + b| - 1] == a + b[..|b| - 1];
      TotalUnitsAppend(a, b[..|b| - 1]);
    }
  }

  /** Adding equipment raises the total by exactly the new quantity. */
  lemma AddEquipmentTotal(items: seq<Equipment>, form: EquipForm, newId: string)
    ensures TotalUnits(AddEquipment(items, form, newId).0)
         == TotalUnits(items) + (if form.name == "" then 0 else form.quantity)
  {
    if form.name != "" {
      TotalUnitsAppend(items, [Equipment(newId, form.name, form.quantity)]);
      assert [Equipment(newId, form.name, form.quantity)][..0] == [];
    }
  }

  /** Total quantity of the items carrying `id`. */
  function UnitsWithId(items: seq<Equipment>, id: string): int {
    if |items| == 0 then 0
    else UnitsWithId(items[..|items| - 1], id) + (if items[|items| - 1].id == id then items[|items| - 1].quantity else 0)
  }

  /** Deleting by id lowers the total by exactly the units carrying that id. */
  lemma {:induction false} DeleteEquipmentTotal(items: seq<Equipment>, id: string)
    ensures TotalUnits(DeleteEquipment(items, id)) == TotalUnits(items) - UnitsWithId(items, id)
    decreases |items|
  {
    if |items| > 0 {
      var init, last := items[..|items| - 1], items[|items| - 1];
      assert items == init + [last];
      Seqs.WithoutKeyAppend(init, [last], EquipmentId, id);
      DeleteEquipmentTotal(init, id);
      var tail := Seqs.WithoutKey([last], EquipmentId, id);
      assert [last][1..] == [];
      TotalUnitsAppend(Seqs.WithoutKey(init, EquipmentId, id), tail);
      assert tail == [] || tail == [last];
      if tail == [last] {
        assert [last][..0] == [];
      }
    }
  }

  /** `equipment.some(e => e.quantity >= 3)`. */
  function SomeQuantityAtLeast3(items: seq<Equipment>): (r: bool)
    ensures r <==> exists i :: 0 <= i < |items| && items[i].quantity >= 3
  {
    if |items| == 0 then false
    else items[0].quantity >= 3 || SomeQuantityAtLeast3(items[1..])
  }

  /** Whether the inventory can serve a class of twelve: some item with at
      least three units, or more than fifteen units in all. */
  function IsLogisticsHealthy(items: seq<Equipment>): (r: bool)
    ensures r <==> (exists i :: 0 <= i < |items| && items[i].quantity >= 3) || TotalUnits(items) > 15
  {
    SomeQuantityAtLeast3(items) || TotalUnits(items) > 15
  }

  /** An inventory of items with fewer than three units each and few in
      total is not healthy; appending a large enough item always makes it so. */
  lemma HealthyAfterLargeItem(items: seq<Equipment>, form: EquipForm, newId: string)
    requires form.name != "" && form.quantity >= 3
    ensures IsLogisticsHealthy(AddEquipment(items, form, newId).0)
  {
    var r := AddEquipment(items, form, newId).0;
    assert r[|items|].quantity >= 3;
  }

  // ---- class-type distribution ----

  /** Number of history entries of class type `t`. */
  function CountKind(h: seq<GeneratedWorkout>, t: ClassType): nat {
    if |h| == 0 then 0
    else CountKind(h[..|h| - 1], t) + (if h[|h| - 1].kind == t then 1 else 0)
  }

  /** The count stored for `t`, or 0 when `t` has no entry. */
  function CountFor(dist: seq<(ClassType, nat)>, t: ClassType): nat {
    if |dist| == 0 then 0
    else if dist[0].0 == t then dist[0].1
    else CountFor(dist[1..], t)
  }

  function SumCounts(dist: seq<(ClassType, nat)>): nat {
    if |dist| == 0 then 0 else dist[0].1 + SumCounts(dist[1..])
  }

  /** Whether `t` has an entry. */
  predicate HasKind(dist: seq<(ClassType, nat)>, t: ClassType) {
    |dist| > 0 && (dist[0].0 == t || HasKind(dist[1..], t))
  }

  /** Every class type has at most one entry and every count is positive. */
  predicate WellFormed(dist: seq<(ClassType, nat)>) {
    |dist| == 0 || (dist[0].1 >= 1 && !HasKind(dist[1..], dist[0].0) && WellFormed(dist[1..]))
  }

  /** `acc[t] = (acc[t] || 0) + 1` on an object whose keys keep insertion
      order. */
  function Bump(acc: seq<(ClassType, nat)>, t: ClassType): seq<(ClassType, nat)> {
    if |acc| == 0 then [(t, 1)]
    else if acc[0].0 == t then [(t, acc[0].1 + 1)] + acc[1..]
    else [acc[0]] + Bump(acc[1..], t)
  }

  /** `history.reduce(...)` into type → count, then `Object.entries`: one pair
      per class type present, in order of first appearance. */
  function TypeDistribution(h: seq<GeneratedWorkout>): seq<(ClassType, nat)> {
    if |h| == 0 then [] else Bump(TypeDistribution(h[..|h| - 1]), h[|h| - 1].kind)
  }

  lemma {:induction false} BumpFacts(acc: seq<(ClassType, nat)>, t: ClassType)
    requires WellFormed(acc)
    ensures WellFormed(Bump(acc, t))
    ensures forall k :: CountFor(Bump(acc, t), k) == CountFor(acc, k) + (if k == t then 1 else 0)
    ensures forall k :: HasKind(Bump(acc, t), k) <==> k == t || HasKind(acc, k)
    ensures SumCounts(Bump(acc, t)) == SumCounts(acc) + 1
  {
    if |acc| > 0 {
      var b := Bump(acc, t);
      if acc[0].0 == t {
        assert b[1..] == acc[1..];
      } else {
        BumpFacts(acc[1..], t);
        assert b[1..] == Bump(acc[1..], t);
      }
    }
  }

  lemma {:induction false} CountForPositive(dist: seq<(ClassType, nat)>, t: ClassType)
    requires WellFormed(dist)
    ensures CountFor(dist, t) > 0 <==> HasKind(dist, t)
  {
    if |dist| > 0 {
      CountForPositive(dist[1..], t);
    }
  }

  /** The distribution has one entry per class type present, each type once,
      each count equal to the number of entries of that type, and the counts
      add up to the history length. */
  lemma {:induction false} TypeDistributionCorrect(h: seq<GeneratedWorkout>)
    ensures WellFormed(TypeDistribution(h))
    ensures forall t :: CountFor(TypeDistribution(h), t) == CountKind(h, t)
    ensures forall t :: HasKind(TypeDistribution(h), t) <==> CountKind(h, t) > 0
    ensures SumCounts(TypeDistribution(h)) == |h|
  {
    if |h| > 0 {
      var init := h[..|h| - 1];
      TypeDistributionCorrect(init);
      BumpFacts(TypeDistribution(init), h[|h| - 1].kind);
    }
    forall t
      ensures HasKind(TypeDistribution(h), t) <==> CountKind(h, t) > 0
    {
      CountForPositive(TypeDistribution(h), t);
    }
  }
}

=== FILE: seqs.dfy ===
/** The two list edits the application performs on every collection of
    records that carry an `id`: `filter(x => x.id !== id)` and
    `map(x => x.id === id ? u : x)`. They are written once here, over any
    element type and any key projection. */
module Seqs {

  /** `s.filter(x => key(x) !== k)`. */
  function WithoutKey<T(==,!new)>(s: seq<T>, key: T -> string, k: string): (r: seq<T>)
    ensures |r| <= |s|
    ensures forall x :: x in r <==> x in s && key(x) != k
  {
    if |s| == 0 then []
    else (if key(s[0]) != k then [s[0]] else []) + WithoutKey(s[1..], key, k)
  }

  /** How many elements of `s` have key `k`. */
  function CountKey<T>(s: seq<T>, key: T -> string, k: string): nat {
    if |s| == 0 then 0
    else (if key(s[0]) == k then 1 else 0) + CountKey(s[1..], key, k)
  }

  /** Exactly the elements with key `k` are dropped, so the length falls by
      their number. */
  lemma {:induction false} WithoutKeyLength<T(!new)>(s: seq<T>, key: T -> string, k: string)
    ensures |WithoutKey(s, key, k)| == |s| - CountKey(s, key, k)
  {
    if |s| > 0 {
      WithoutKeyLength(s[1..], key, k);
    }
  }

  /** Filtering distributes over concatenation: the survivors keep the order
      they had in the input. */
  lemma {:induction false} WithoutKeyAppend<T(!new)>(a: seq<T>, b: seq<T>, key: T -> string, k: string)
    ensures WithoutKey(a + b, key, k) == WithoutKey(a, key, k) + WithoutKey(b, key, k)
  {
    if |a| == 0 {
      assert a + b == b;
    } else {
      assert (a + b)[1..] == a[1..] + b;
      WithoutKeyAppend(a[1..], b, key, k);
    }
  }

  /** Nothing changes when no element has the key. */
  lemma {:induction false} WithoutAbsentKey<T(!new)>(s: seq<T>, key: T -> string, k: string)
    requires forall i :: 0 <= i < |s| ==> key(s[i]) != k
    ensures WithoutKey(s, key, k) == s
  {
    if |s| > 0 {
      WithoutAbsentKey(s[1..], key, k);
      assert s == [s[0]] + s[1..];
    }
  }

  /** Deleting twice is deleting once. */
  lemma WithoutKeyIdempotent<T(!new)>(s: seq<T>, key: T -> string, k: string)
    ensures WithoutKey(WithoutKey(s, key, k), key, k) == WithoutKey(s, key, k)
  {
    var r := WithoutKey(s, key, k);
    forall i | 0 <= i < |r|
      ensures key(r[i]) != k
    {
      assert r[i] in r;
    }
    WithoutAbsentKey(r, key, k);
  }

  /** `s.map(x => key(x) === k ? u : x)`. */
  function ReplaceKey<T>(s: seq<T>, key: T -> string, k: string, u: T): (r: seq<T>)
    ensures |r| == |s|
    ensures forall i :: 0 <= i < |s| ==> r[i] == (if key(s[i]) == k then u else s[i])
  {
    seq(|s|, i requires 0 <= i < |s| => if key(s[i]) == k then u else s[i])
  }

  /** The keys of `s`, in order. */
  function Keys<T>(s: seq<T>, key: T -> string): (r: seq<string>)
    ensures |r| == |s|
    ensures forall i :: 0 <= i < |s| ==> r[i] == key(s[i])
  {
    seq(|s|, i requires 0 <= i < |s| => key(s[i]))
  }

  /** A replacement that carries the key it replaces keeps the key sequence:
      no element is added, dropped or moved. */
  lemma ReplaceKeyKeepsKeys<T>(s: seq<T>, key: T -> string, k: string, u: T)
    requires key(u) == k
    ensures Keys(ReplaceKey(s, key, k, u), key) == Keys(s, key)
  {
  }

  /** Replacing twice with the same value is replacing once. */
  lemma ReplaceKeyIdempotent<T>(s: seq<T>, key: T -> string, k: string, u: T)
    requires key(u) == k
    ensures ReplaceKey(ReplaceKey(s, key, k, u), key, k, u) == ReplaceKey(s, key, k, u)
  {
  }

  /** Deleting a key after replacing its entries is the same as deleting it
      directly. */
  lemma {:induction false} ReplaceThenRemove<T(!new)>(s: seq<T>, key: T -> string, k: string, u: T)
    requires key(u) == k
    ensures WithoutKey(ReplaceKey(s, key, k, u), key, k) == WithoutKey(s, key, k)
  {
    if |s| > 0 {
      var r := ReplaceKey(s, key, k, u);
      assert r[1..] == ReplaceKey(s[1..], key, k, u);
      ReplaceThenRemove(s[1..], key, k, u);
    }
  }
}

=== FILE: settings.dfy ===
/** The backup panel (components/SettingsModal.tsx): the exported snapshot
    and the slots an imported file overwrites. */
module Settings {
  import opened Wrappers
  import opened Types
  import opened Storage

  /** A backup file's object; every property may be missing (or null). */
  datatype Backup = Backup(
    history: Option<seq<GeneratedWorkout>>,
    activeCycle: Option<TrainingCycle>,
    exportDate: Option<string>,
    equipment: Option<seq<Equipment>>,
    benchmarks: Option<seq<Benchmark>>)

  /** The chosen file's text, once `JSON.parse` has run on it. */
  datatype ImportFile = Unparsable | Parsed(data: Backup)

  /** What import and export touch: the application's history and cycle,
      and the stored equipment and benchmark slots. */
  datatype Snapshot = Snapshot(
    history: seq<GeneratedWorkout>,
    cycle: Option<TrainingCycle>,
    equipmentSlot: Option<seq<Equipment>>,
    benchmarksSlot: Option<seq<Benchmark>>)

  /** The export button: history and cycle from the application, the export
      time, and the stored inventory and benchmarks, `[]` for an empty
      slot. */
  function Export(s: Snapshot, nowIso: string): (b: Backup)
    ensures b.history == Some(s.history) && b.activeCycle == s.cycle && b.exportDate == Some(nowIso)
    ensures b.equipment == Some(s.equipmentSlot.GetOr([]))
    ensures b.benchmarks == Some(s.benchmarksSlot.GetOr([]))
  {
    Backup(Some(s.history), s.cycle, Some(nowIso), Some(s.equipmentSlot.GetOr([])), Some(s.benchmarksSlot.GetOr([])))
  }

  /** The file input's handler: nothing on a parse failure. Otherwise a
      present history replaces the application's history and cycle (a
      missing cycle clearing it), and each present list overwrites its
      slot. */
  function Import(s: Snapshot, f: ImportFile): (r: Snapshot)
    ensures f.Unparsable? ==> r == s
    ensures f.Parsed? && f.data.history.Some? ==> r.history == f.data.history.value && r.cycle == f.data.activeCycle
    ensures f.Parsed? && f.data.history.None? ==> r.history == s.history && r.cycle == s.cycle
    ensures f.Parsed? ==> (r.equipmentSlot == s.equipmentSlot <==> f.data.equipment.None? || f.data.equipment == s.equipmentSlot)
    ensures f.Parsed? && f.data.equipment.Some? ==> r.equipmentSlot == f.data.equipment
    ensures f.Parsed? ==> (r.benchmarksSlot == s.benchmarksSlot <==> f.data.benchmarks.None? || f.data.benchmarks == s.benchmarksSlot)
    ensures f.Parsed? && f.data.benchmarks.Some? ==> r.benchmarksSlot == f.data.benchmarks
  {
    match f
    case Unparsable => s
    case Parsed(d) =>
      var s1 := if d.history.Some? then s.(history := d.history.value, cycle := d.activeCycle) else s;
      var s2 := if d.equipment.Some? then s1.(equipmentSlot := d.equipment) else s1;
      if d.benchmarks.Some? then s2.(benchmarksSlot := d.benchmarks) else s2
  }

  /** Importing an exported backup, into any state, restores the exported
      data; an empty slot comes back as an empty list. */
  lemma ExportImportRoundTrip(s: Snapshot, t: Snapshot, nowIso: string)
    ensures Import(t, Parsed(Export(s, nowIso))) == s.(equipmentSlot := Some(s.equipmentSlot.GetOr([])), benchmarksSlot := Some(s.benchmarksSlot.GetOr([])))
  {
  }

  /** Importing the same file twice is the same as importing it once. */
  lemma ImportIdempotent(s: Snapshot, f: ImportFile)
    ensures Import(Import(s, f), f) == Import(s, f)
  {
  }
}

=== FILE: storage.dfy ===
/** The browser's local storage as the application uses it: one slot per
    key, each holding a JSON-encoded value or nothing. Values are kept
    decoded; encoding and decoding are taken to be inverse. */
module Storage {
  import opened Wrappers
  import opened Types

  const WorkoutsKey := "grit_workouts"
  const CycleKey := "grit_cycle"
  const AnnualKey := "grit_annual"
  const EquipmentKey := "grit_equip"
  const BenchmarksKey := "grit_bench"

  datatype Store = Store(
    workouts: Option<seq<GeneratedWorkout>>,
    cycle: Option<TrainingCycle>,
    annual: Option<AnnualPlan>,
    equipment: Option<seq<Equipment>>,
    benchmarks: Option<seq<Benchmark>>)

  const EmptyStore := Store(None, None, None, None, None)
}

=== FILE: timer.dfy ===
/** The workout clock (components/TimerWidget.tsx): a one-second tick over a
    stopwatch, a countdown and the round-based EMOM and Tabata modes, the
    buttons around it, and the `mm:ss` display. */
module Timer {
  import opened Wrappers
  import opened JsText

  datatype Mode = Stopwatch | Countdown | Emom | Tabata

  /** The widget's state. `initialTime` has no setter in the widget, so it
      keeps its initial value 0; `sound` is the speaker toggle. The interval
      is re-created only when the running flag, the mode, the round or the
      number of rounds changes, and its callback keeps the speaker setting
      of the render that created it: `armedSound` is that setting. */
  datatype TimerState = TimerState(
    mode: Mode,
    time: int,
    active: bool,
    initialTime: int,
    round: int,
    totalRounds: int,
    sound: bool,
    armedSound: bool)

  const Initial := TimerState(Stopwatch, 0, false, 0, 1, 10, true, true)

  /** Seconds a round starts with: 60 for EMOM, 20 of work for Tabata. */
  function RoundLength(m: Mode): int {
    if m == Emom then 60 else 20
  }

  /** The interval callback. Inactive clocks do not tick. A stopwatch counts
      up. Other modes count down; reaching 0 in EMOM/Tabata starts the next
      round while `round < totalRounds` and otherwise stops the clock; going
      below 0 stops it at 0. A countdown that reaches 0 stays active for one
      more tick. */
  function Tick(t: TimerState): (r: TimerState)
    ensures r.mode == t.mode && r.initialTime == t.initialTime && r.totalRounds == t.totalRounds && r.sound == t.sound
    ensures !t.active ==> r == t
    ensures t.active && t.mode == Stopwatch ==> r.time == t.time + 1 && r.active && r.round == t.round
    ensures r.round == t.round || (r.round == t.round + 1 && t.round < t.totalRounds)
    ensures t.active && t.mode != Stopwatch && t.time >= 0 ==> r.time >= 0
    ensures t.active && r.active && t.mode != Stopwatch ==> r.time == t.time - 1 || r.time == RoundLength(t.mode)
    ensures t.active && !r.active ==> r.time == 0 && t.mode != Stopwatch
  {
    if !t.active then t
    else if t.mode == Stopwatch then t.(time := t.time + 1)
    else
      var next := t.time - 1;
      if next == 0 && (t.mode == Emom || t.mode == Tabata) then
        if t.round < t.totalRounds then t.(round := t.round + 1, time := RoundLength(t.mode))
        else t.(active := false, time := 0)
      else if next < 0 then t.(active := false, time := 0)
      else t.(time := next)
  }

  /** Audible and visual cues a tick emits: a beep of a frequency and a
      duration, or the one (yellow) flash of the widget. */
  datatype Cue = Beep(freqHz: nat, durationMs: nat) | Flash

  /** Cues of the tick from `t`: a short 880 Hz beep and a flash on each of
      the last three seconds, a long 1320 Hz beep and a flash on reaching 0.
      The beep is played only when the speaker was on in the render that
      created the running interval. */
  function Cues(t: TimerState): (r: seq<Cue>)
    ensures r == [] <==> !(t.active && t.mode != Stopwatch && 1 <= t.time <= 4)
    ensures r != [] ==> r[|r| - 1] == Flash && (|r| == 2 <==> t.armedSound) && |r| <= 2
    ensures |r| == 2 ==> r[0] == (if t.time == 1 then Beep(1320, 800) else Beep(880, 150))
  {
    if !t.active || t.mode == Stopwatch then []
    else
      var next := t.time - 1;
      var beep := if !t.armedSound then [] else if next == 0 then [Beep(1320, 800)] else [Beep(880, 150)];
      if 0 <= next <= 3 then beep + [Flash] else []
  }

  /** Start/Pause. */
  function Toggle(t: TimerState): (r: TimerState)
    ensures r.active != t.active
    ensures r.(active := t.active) == t
  {
    t.(active := !t.active)
  }

  /** The start value of a mode after Reset. */
  function StartTime(t: TimerState): int {
    match t.mode
    case Emom => 60
    case Tabata => 20
    case Countdown => t.initialTime
    case Stopwatch => 0
  }

  /** Reset: stop, back to round 1, time back to the mode's start value. */
  function Reset(t: TimerState): (r: TimerState)
    ensures !r.active && r.round == 1
    ensures r.mode == t.mode && r.initialTime == t.initialTime && r.totalRounds == t.totalRounds && r.sound == t.sound
    ensures r.mode == Emom ==> r.time == 60
    ensures r.mode == Tabata ==> r.time == 20
    ensures r.mode == Countdown ==> r.time == t.initialTime
    ensures r.mode == Stopwatch ==> r.time == 0
  {
    t.(active := false, round := 1, time := StartTime(t))
  }

  /** A mode button: switch mode, stop, time 60 for EMOM and 0 otherwise,
      round 1. */
  function SelectMode(t: TimerState, m: Mode): (r: TimerState)
    ensures r.mode == m && !r.active && r.round == 1
    ensures r.time == (if m == Emom then 60 else 0)
    ensures r.initialTime == t.initialTime && r.totalRounds == t.totalRounds && r.sound == t.sound
  {
    t.(mode := m, active := false, time := if m == Emom then 60 else 0, round := 1)
  }

  /** The "+" rounds button. */
  function IncRounds(t: TimerState): (r: TimerState)
    ensures r.totalRounds == t.totalRounds + 1 && r.(totalRounds := t.totalRounds) == t
  {
    t.(totalRounds := t.totalRounds + 1)
  }

  /** The "-" rounds button, which never goes below one round. */
  function DecRounds(t: TimerState): (r: TimerState)
    ensures r.totalRounds >= 1 && r.(totalRounds := t.totalRounds) == t
    ensures t.totalRounds > 1 ==> r.totalRounds == t.totalRounds - 1
    ensures t.totalRounds <= 1 ==> r.totalRounds == 1
  {
    t.(totalRounds := Max(1, t.totalRounds - 1))
  }

  function ToggleSound(t: TimerState): (r: TimerState)
    ensures r.sound != t.sound && r.(sound := t.sound) == t
  {
    t.(sound := !t.sound)
  }

  /** Everything the widget reacts to. Only the stopwatch, countdown and EMOM
      buttons are rendered, so Tabata can be selected by no event. */
  datatype Event = Second | StartPause | ResetPressed | ModeButton(m: Mode) | RoundsUp | RoundsDown | SoundButton

  predicate RenderedMode(m: Mode) {
    m == Stopwatch || m == Countdown || m == Emom
  }

  /** Whether two states run under the same interval: none of the values
      the interval is re-created for differ. */
  predicate SameInterval(a: TimerState, b: TimerState) {
    a.active == b.active && a.mode == b.mode && a.round == b.round && a.totalRounds == b.totalRounds
  }

  /** After an event: a re-created interval captures the current speaker
      setting; otherwise the old interval, and its setting, stays. */
  function Rearm(before: TimerState, after: TimerState): (r: TimerState)
    ensures r.(armedSound := after.armedSound) == after
    ensures SameInterval(before, after) ==> r.armedSound == before.armedSound
    ensures !SameInterval(before, after) ==> r.armedSound == after.sound
  {
    if SameInterval(before, after) then after.(armedSound := before.armedSound) else after.(armedSound := after.sound)
  }

  function Step(t: TimerState, e: Event): TimerState {
    Rearm(t, Handle(t, e))
  }

  /** The state change of each event, before the interval is considered. */
  function Handle(t: TimerState, e: Event): TimerState {
    match e
    case Second => Tick(t)
    case StartPause => Toggle(t)
    case ResetPressed => Reset(t)
    case ModeButton(m) => SelectMode(t, m)
    case RoundsUp => IncRounds(t)
    case RoundsDown => DecRounds(t)
    case SoundButton => ToggleSound(t)
  }

  function Run(t: TimerState, es: seq<Event>): TimerState
    decreases |es|
  {
    if |es| == 0 then t else Run(Step(t, es[0]), es[1..])
  }

  /** What every reachable state satisfies: time never negative, at least
      one round, the round counter positive, `initialTime` still 0, and
      Tabata never selected. */
  predicate Valid(t: TimerState) {
    t.time >= 0 && t.round >= 1 && t.totalRounds >= 1 && t.initialTime == 0 && t.mode != Tabata
  }

  lemma StepValid(t: TimerState, e: Event)
    requires Valid(t)
    requires e.ModeButton? ==> RenderedMode(e.m)
    ensures Valid(Step(t, e))
  {
  }

  /** Every sequence of rendered events keeps the clock valid. */
  lemma {:induction false} RunValid(t: TimerState, es: seq<Event>)
    requires Valid(t)
    requires forall i :: 0 <= i < |es| && es[i].ModeButton? ==> RenderedMode(es[i].m)
    ensures Valid(Run(t, es))
    decreases |es|
  {
    if |es| > 0 {
      StepValid(t, es[0]);
      RunValid(Step(t, es[0]), es[1..]);
    }
  }

  lemma InitialValid()
    ensures Valid(Initial)
  {
  }

  /** The speaker button does not reach a running interval: muting (or
      unmuting) changes nothing the next tick plays. */
  lemma SoundButtonKeepsCues(t: TimerState)
    ensures Step(t, SoundButton).sound != t.sound
    ensures Cues(Step(t, SoundButton)) == Cues(t)
  {
  }

  /** Muted while running, the last seconds still beep: the interval was
      created with the speaker on. */
  lemma MutedCountdownStillBeeps(t: TimerState)
    requires t.active && t.mode != Stopwatch && 1 <= t.time <= 4 && t.armedSound
    ensures var u := Step(t, SoundButton);
      u.sound == !t.sound && Cues(u)[0].Beep?
  {
  }

  /** Starting the clock creates an interval with the current speaker
      setting: the ticks then beep exactly when the speaker is on. */
  lemma StartCapturesSound(t: TimerState)
    requires !t.active
    ensures Step(t, StartPause).active && Step(t, StartPause).armedSound == t.sound
  {
  }

  /** A new round re-creates the interval, which picks up the speaker setting
      of that moment. */
  lemma NewRoundCapturesSound(t: TimerState)
    requires Step(t, Second).round != t.round
    ensures Step(t, Second).armedSound == t.sound
  {
  }

  /** A reset discards whatever ticking did: it returns to the same state. */
  lemma ResetForgetsTicks(t: TimerState)
    ensures Reset(Tick(t)) == Reset(t)
    ensures Reset(Reset(t)) == Reset(t)
  {
  }

  /** On the rendered modes, a mode button is a reset in the new mode. */
  lemma SelectModeIsReset(t: TimerState, m: Mode)
    requires RenderedMode(m) && t.initialTime == 0
    ensures SelectMode(t, m) == Reset(t.(mode := m))
  {
  }

  /** `n` ticks in a row. */
  function Ticks(t: TimerState, n: nat): TimerState
    decreases n
  {
    if n == 0 then t else Ticks(Tick(t), n - 1)
  }

  lemma {:induction false} TicksAdd(t: TimerState, a: nat, b: nat)
    ensures Ticks(t, a + b) == Ticks(Ticks(t, a), b)
    decreases a
  {
    if a > 0 {
      TicksAdd(Tick(t), a - 1, b);
    }
  }

  /** A running stopwatch shows elapsed seconds. */
  lemma {:induction false} StopwatchCounts(t: TimerState, n: nat)
    requires t.active && t.mode == Stopwatch
    ensures Ticks(t, n) == t.(time := t.time + n)
    decreases n
  {
    if n > 0 {
      StopwatchCounts(Tick(t), n - 1);
    }
  }

  /** A countdown from `k` seconds counts down to 0, shows 0 for one more
      second while still running, and then stops. */
  lemma {:induction false} CountdownStops(t: TimerState, k: nat)
    requires t.active && t.mode == Countdown && t.time == k
    ensures Ticks(t, k) == t.(time := 0)
    ensures Ticks(t, k + 1) == t.(time := 0, active := false)
    decreases k
  {
    if k > 0 {
      CountdownStops(Tick(t), k - 1);
      TicksAdd(t, 1, k - 1);
      TicksAdd(t, 1, k);
    }
  }

  /** The seconds a round-based clock still runs: what is left of this round
      plus a full round for each remaining one. */
  function Remaining(t: TimerState): int {
    t.time + RoundLength(t.mode) * (t.totalRounds - t.round)
  }

  /** A running EMOM or Tabata clock in round `r` of `n` with `s >= 1` seconds
      left finishes exactly after the remaining seconds, at round `n`,
      stopped at 0. */
  lemma {:induction false} RoundsFinish(t: TimerState)
    requires t.active && (t.mode == Emom || t.mode == Tabata)
    requires t.time >= 1 && 1 <= t.round <= t.totalRounds
    ensures Remaining(t) >= 1
    ensures Ticks(t, Remaining(t)) == t.(time := 0, active := false, round := t.totalRounds)
    decreases Remaining(t)
  {
    var n := Remaining(t);
    var u := Tick(t);
    if t.time > 1 {
      assert u == t.(time := t.time - 1);
      RoundsFinish(u);
      TicksAdd(t, 1, n - 1);
    } else if t.round < t.totalRounds {
      assert u == t.(time := RoundLength(t.mode), round := t.round + 1);
      assert Remaining(u) == n - 1;
      RoundsFinish(u);
      TicksAdd(t, 1, n - 1);
    } else {
      assert n == 1;
      assert Ticks(u, 0) == u;
    }
  }

  /** In the last round (or past it), a running EMOM or Tabata clock with
      `k >= 1` seconds left stops after exactly `k` ticks, without a new
      round. */
  lemma {:induction false} LastRoundStops(t: TimerState, k: nat)
    requires t.active && (t.mode == Emom || t.mode == Tabata)
    requires t.time == k >= 1 && t.round >= t.totalRounds
    ensures Ticks(t, k) == t.(time := 0, active := false)
    decreases k
  {
    if k > 1 {
      LastRoundStops(Tick(t), k - 1);
      TicksAdd(t, 1, k - 1);
    } else {
      assert Ticks(Tick(t), 0) == Tick(t);
    }
  }

  /** "-" during the last round can leave the counter above the total
      (shown as "R: 5/4"); the next zero then ends the session. */
  lemma RoundAboveTotal()
    ensures var t := DecRounds(TimerState(Emom, 30, true, 0, 5, 5, true, true));
      && t.round > t.totalRounds
      && Ticks(t, 30) == t.(time := 0, active := false)
  {
    LastRoundStops(DecRounds(TimerState(Emom, 30, true, 0, 5, 5, true, true)), 30);
  }

  // ---- the mm:ss display ----

  /** JavaScript's `%`: the remainder takes the sign of the dividend. */
  function JsRem(a: int, b: int): (r: int)
    requires b > 0
    ensures a >= 0 ==> 0 <= r < b
    ensures a < 0 ==> -b < r <= 0
  {
    if a >= 0 then a % b else -((-a) % b)
  }

  /** The remainder is odd in the dividend, and agrees with the Euclidean
      one on non-negative dividends. */
  lemma JsRemOdd(a: int, b: int)
    requires b > 0
    ensures JsRem(-a, b) == -JsRem(a, b)
    ensures a >= 0 ==> JsRem(a, b) == a % b
  {
  }

  lemma ShortDecimal(n: nat)
    requires n < 100
    ensures |NatToDecimal(n)| <= 2
  {
    if n >= 10 {
      assert n / 10 < 10;
    }
  }

  /** `toString().padStart(2, '0')`. */
  function Pad2(i: int): (r: string)
    ensures |r| >= 2
    ensures 0 <= i < 100 ==> |r| == 2
  {
    if 0 <= i < 100 then
      ShortDecimal(i);
      PadStart(IntToString(i), 2, '0')
    else PadStart(IntToString(i), 2, '0')
  }

  /** `formatTime`: `Math.floor(s / 60)` and `s % 60`, each padded to two
      digits with '0'. */
  function FormatTime(s: int): (r: string)
    ensures s >= 0 ==> |r| >= 5 && r[|r| - 3] == ':'
    ensures 0 <= s < 6000 ==> |r| == 5
  {
    var m, sec := s / 60, JsRem(s, 60);
    assert 0 <= s < 6000 ==> 0 <= m < 100;
    Pad2(m) + ":" + Pad2(sec)
  }

  /** Reads a `mm:ss` display back: two digit runs around one colon, the
      seconds below 60. */
  function ParseClock(r: string): (o: Option<int>)
    ensures o.Some? ==> o.value >= 0
  {
    var parts := SplitOn(r, ':');
    if |parts| == 2 && |parts[0]| >= 1 && |parts[1]| == 2 && AllDigits(parts[0]) && AllDigits(parts[1]) && DecimalValue(parts[1]) < 60
    then Some(60 * DecimalValue(parts[0]) + DecimalValue(parts[1]))
    else None
  }

  lemma {:induction false} PaddedValue(n: nat)
    ensures AllDigits(PadStart(NatToDecimal(n), 2, '0'))
    ensures DecimalValue(PadStart(NatToDecimal(n), 2, '0')) == n
    ensures ':' !in PadStart(NatToDecimal(n), 2, '0')
  {
    var d := NatToDecimal(n);
    var p := PadStart(d, 2, '0');
    var z := p[..|p| - |d|];
    assert p == z + d;
    DecimalLeadingZeros(z, d);
    DecimalRoundTrip(n);
    assert forall k :: 0 <= k < |p| ==> IsDigit(p[k]);
  }

  /** The display of a non-negative number of seconds reads back as that
      number. */
  lemma FormatTimeRoundTrip(s: int)
    requires s >= 0
    ensures ParseClock(FormatTime(s)) == Some(s)
  {
    var q, r := s / 60, s % 60;
    assert s == 60 * q + r && q >= 0 && 0 <= r < 60;
    FormatTimeParts(s);
    ParseClockPadded(q, r);
  }

  /** For non-negative seconds the display is the padded minutes and the
      padded remainder. */
  lemma FormatTimeParts(s: int)
    requires s >= 0
    ensures FormatTime(s)
         == PadStart(NatToDecimal(s / 60), 2, '0') + ":" + PadStart(NatToDecimal(s % 60), 2, '0')
  {
    assert JsRem(s, 60) == s % 60;
  }

  /** A colon between two colon-free pieces splits back into them. */
  lemma ClockSplit(m: string, c: string)
    requires ':' !in m && ':' !in c
    ensures SplitOn(m + ":" + c, ':') == [m, c]
  {
    assert [m, c][1..] == [c];
    assert Join([m, c], ":") == m + ":" + c;
    SplitJoin([m, c], ':');
  }

  /** The seconds, padded, are two digits worth the seconds. */
  lemma PaddedSeconds(r: nat)
    requires r < 60
    ensures |PadStart(NatToDecimal(r), 2, '0')| == 2
    ensures AllDigits(PadStart(NatToDecimal(r), 2, '0'))
    ensures DecimalValue(PadStart(NatToDecimal(r), 2, '0')) == r
    ensures ':' !in PadStart(NatToDecimal(r), 2, '0')
  {
    PaddedValue(r);
    ShortDecimal(r);
  }

  /** A digit run, a colon and two digits below 60 read as minutes and
      seconds. */
  lemma ParseClockPieces(m: string, c: string, q: nat, r: nat)
    requires ':' !in m && ':' !in c
    requires |m| >= 1 && |c| == 2 && AllDigits(m) && AllDigits(c)
    requires DecimalValue(m) == q && DecimalValue(c) == r < 60
    ensures ParseClock(m + ":" + c) == Some(60 * q + r)
  {
    ClockSplit(m, c);
  }

  /** Two padded numbers around a colon read back as minutes and seconds. */
  lemma ParseClockPadded(q: nat, r: nat)
    requires r < 60
    ensures ParseClock(PadStart(NatToDecimal(q), 2, '0') + ":" + PadStart(NatToDecimal(r), 2, '0'))
         == Some(60 * q + r)
  {
    var m := PadStart(NatToDecimal(q), 2, '0');
    var c := PadStart(NatToDecimal(r), 2, '0');
    PaddedValue(q);
    PaddedSeconds(r);
    ParseClockPieces(m, c, q, r);
  }
}

=== FILE: types.dfy ===
/** The domain records of the application. Every entity is a plain value;
    optional properties (`x?: T` or `T | null`) are `Option`s. */
module Types {
  import opened Wrappers

  /** The four class formats a session can be generated for. */
  datatype ClassType = Hybrid | Strongman | Endurance | Pilates

  /** The string each enum member stands for at run time (and in storage). */
  function ClassTypeValue(t: ClassType): string {
    match t
    case Hybrid => "Functional Hybrid"
    case Strongman => "Strongman Focus"
    case Endurance => "Endurance"
    case Pilates => "Pilates Mat / Yoga"
  }

  /** Reading a stored class-type string back; anything else is rejected. */
  function ParseClassType(s: string): (r: Option<ClassType>)
    ensures r.Some? ==> ClassTypeValue(r.value) == s
  {
    if s == "Functional Hybrid" then Some(Hybrid)
    else if s == "Strongman Focus" then Some(Strongman)
    else if s == "Endurance" then Some(Endurance)
    else if s == "Pilates Mat / Yoga" then Some(Pilates)
    else None
  }

  /** The four enum strings are distinct: each parses back to its own member. */
  lemma ClassTypeRoundTrip(t: ClassType)
    ensures ParseClassType(ClassTypeValue(t)) == Some(t)
  {
  }

  datatype Equipment = Equipment(id: string, name: string, quantity: int)

  datatype Category = Girl | Hero | Lift | Custom

  datatype Benchmark = Benchmark(id: string, name: string, category: Category, description: string)

  datatype Intensity = Low | Medium | High | Peak

  function IntensityName(i: Intensity): string {
    match i
    case Low => "Low"
    case Medium => "Medium"
    case High => "High"
    case Peak => "Peak"
  }

  datatype AnnualPhase = AnnualPhase(month: string, goal: string, intensity: Intensity, focus: string)

  datatype AnnualPlan = AnnualPlan(id: string, year: int, name: string, phases: seq<AnnualPhase>)

  datatype TrainingCycle = TrainingCycle(
    id: string,
    name: string,
    goal: string,
    totalWeeks: int,
    currentWeek: int,
    startDate: string,
    macroPhaseLink: Option<string>)

  /** A generated session. `kind` is the `type` property of the source. */
  datatype GeneratedWorkout = GeneratedWorkout(
    id: string,
    markdown: string,
    kind: ClassType,
    date: string,
    timestamp: int,
    updatedAt: Option<int>)

  /** What the generator is asked for: only the class type is required. */
  datatype WorkoutRequest = WorkoutRequest(
    kind: ClassType,
    focus: Option<string>,
    cycleContext: Option<TrainingCycle>,
    annualContext: Option<AnnualPlan>,
    equipmentContext: Option<seq<Equipment>>,
    benchmarksContext: Option<seq<Benchmark>>,
    recentHistory: Option<seq<GeneratedWorkout>>,
    date: Option<string>)

  /** The smallest well-formed request: a class type and nothing else. */
  function BareRequest(t: ClassType): WorkoutRequest {
    WorkoutRequest(t, None, None, None, None, None, None, None)
  }

  /** Key projections used to delete and replace records by id. */
  function WorkoutId(w: GeneratedWorkout): string { w.id }
  function EquipmentId(e: Equipment): string { e.id }
  function BenchmarkId(b: Benchmark): string { b.id }
}

=== FILE: workout_display.dfy ===
/** The session view (components/WorkoutDisplay.tsx): voice dictation into
    the coach's notes, notes stored per session, the text copied for sharing,
    and saving an edit. */
module WorkoutDisplay {
  import opened Wrappers
  import opened Types
  import opened JsText
  import App
  import History
  import Storage

  // ---- dictation ----

  /** One entry of a speech-recognition event's `results`: whether it is
      final and its best transcript. */
  datatype SpeechResult = SpeechResult(isFinal: bool, transcript: string)

  /** The transcripts of the results with the given finality, in order. */
  function Collect(rs: seq<SpeechResult>, final: bool): string {
    if |rs| == 0 then ""
    else (if rs[0].isFinal == final then rs[0].transcript else "") + Collect(rs[1..], final)
  }

  lemma {:induction false} CollectAppend(a: seq<SpeechResult>, b: seq<SpeechResult>, final: bool)
    ensures Collect(a + b, final) == Collect(a, final) + Collect(b, final)
  {
    if |a| > 0 {
      assert (a + b)[1..] == a[1..] + b;
      CollectAppend(a[1..], b, final);
    } else {
      assert a + b == b;
    }
  }

  /** The `onresult` loop: from `resultIndex` on, final transcripts and
      interim transcripts are concatenated separately. */
  method Transcripts(results: seq<SpeechResult>, resultIndex: nat) returns (final: string, interim: string)
    ensures final == Collect(results[Min(resultIndex, |results|)..], true)
    ensures interim == Collect(results[Min(resultIndex, |results|)..], false)
  {
    final, interim := "", "";
    var start := Min(resultIndex, |results|);
    var i := start;
    while i < |results|
      invariant start <= i <= |results|
      invariant final == Collect(results[start..i], true)
      invariant interim == Collect(results[start..i], false)
    {
      assert results[start..i + 1] == results[start..i] + [results[i]];
      CollectAppend(results[start..i], [results[i]], true);
      CollectAppend(results[start..i], [results[i]], false);
      if results[i].isFinal {
        final := final + results[i].transcript;
      } else {
        interim := interim + results[i].transcript;
      }
      i := i + 1;
    }
    assert results[start..i] == results[start..];
  }

  /** Interim results never reach the final transcript, wherever they
      occur. */
  lemma InterimIgnored(a: seq<SpeechResult>, x: SpeechResult, b: seq<SpeechResult>)
    requires !x.isFinal
    ensures Collect(a + [x] + b, true) == Collect(a + b, true)
  {
    CollectAppend(a + [x], b, true);
    CollectAppend(a, [x], true);
    CollectAppend(a, b, true);
  }

  /** `setCoachNotes(prev => prev + (prev ? '\n' : '') + finalTranscript)`,
      applied only when the final transcript is non-empty. */
  function AppendNotes(prev: string, final: string): (r: string)
    ensures final == "" ==> r == prev
    ensures final != "" && prev == "" ==> r == final
    ensures final != "" && prev != "" ==> |r| > |prev| && r[..|prev|] == prev && r[|prev|] == '\n'
  {
    if final == "" then prev
    else prev + (if prev != "" then "\n" else "") + final
  }

  /** Dictated text lands on lines of its own: read line by line, the notes
      are the old lines followed by the dictated ones. */
  lemma AppendNotesLines(prev: string, final: string)
    requires prev != "" && final != ""
    ensures SplitOn(AppendNotes(prev, final), '\n') == SplitOn(prev, '\n') + SplitOn(final, '\n')
  {
    SplitAroundSeparator(prev, final, '\n');
  }

  /** The whole `onresult` handler on the current notes. */
  method OnResult(notes: string, results: seq<SpeechResult>, resultIndex: nat) returns (r: string)
    ensures r == AppendNotes(notes, Collect(results[Min(resultIndex, |results|)..], true))
  {
    var final, _ := Transcripts(results, resultIndex);
    r := AppendNotes(notes, final);
  }

  // ---- notes per session ----

  const NotesPrefix := "notes_"

  function NotesKey(id: string): string {
    NotesPrefix + id
  }

  /** Different sessions never share a notes slot, and no notes slot is one
      of the application's own slots. */
  lemma NotesKeysDistinct(id1: string, id2: string)
    ensures NotesKey(id1) == NotesKey(id2) ==> id1 == id2
    ensures NotesKey(id1) != Storage.WorkoutsKey && NotesKey(id1) != Storage.CycleKey
    ensures NotesKey(id1) != Storage.AnnualKey && NotesKey(id1) != Storage.EquipmentKey
    ensures NotesKey(id1) != Storage.BenchmarksKey
  {
    if NotesKey(id1) == NotesKey(id2) {
      assert id1 == NotesKey(id1)[|NotesPrefix|..];
      assert id2 == NotesKey(id2)[|NotesPrefix|..];
    }
    assert NotesKey(id1)[0] == 'n';
  }

  /** The text slots of local storage. */
  type TextStore = map<string, string>

  /** `localStorage.getItem('notes_' + id) || ''`. */
  function ReadNotes(store: TextStore, id: string): (r: string)
    ensures NotesKey(id) !in store ==> r == ""
    ensures NotesKey(id) in store ==> r == store[NotesKey(id)]
  {
    if NotesKey(id) in store then store[NotesKey(id)] else ""
  }

  /** The effect that stores the notes under the shown session's id. */
  function WriteNotes(store: TextStore, id: string, notes: string): (r: TextStore)
    ensures NotesKey(id) in r && r[NotesKey(id)] == notes
    ensures forall k :: k != NotesKey(id) ==> (k in r <==> k in store) && (k in store ==> r[k] == store[k])
  {
    store[NotesKey(id) := notes]
  }

  /** Notes read back as written, and writing one session's notes leaves
      every other session's notes alone. */
  lemma NotesReadWrite(store: TextStore, id: string, other: string, notes: string)
    ensures ReadNotes(WriteNotes(store, id, notes), id) == notes
    ensures other != id ==> ReadNotes(WriteNotes(store, id, notes), other) == ReadNotes(store, other)
  {
    NotesKeysDistinct(id, other);
  }

  // ---- share text: bold markers ----

  /** The global replacement of "**" by nothing: pairs of stars removed left
      to right. */
  function StripBold(s: string): string {
    if |s| == 0 then ""
    else if |s| >= 2 && s[0] == '*' && s[1] == '*' then StripBold(s[2..])
    else [s[0]] + StripBold(s[1..])
  }

  predicate NoDoubleStar(s: string) {
    forall i :: 0 <= i < |s| - 1 ==> !(s[i] == '*' && s[i + 1] == '*')
  }

  /** The text without any star. */
  function WithoutStars(s: string): string {
    if |s| == 0 then "" else (if s[0] == '*' then "" else [s[0]]) + WithoutStars(s[1..])
  }

  lemma StripBoldHead(s: string)
    requires |s| > 0 && s[0] != '*'
    ensures |StripBold(s)| > 0 && StripBold(s)[0] == s[0]
  {
  }

  /** After stripping, no "**" is left, and nothing but stars was removed. */
  lemma {:induction false} StripBoldCorrect(s: string)
    ensures NoDoubleStar(StripBold(s))
    ensures WithoutStars(StripBold(s)) == WithoutStars(s)
    decreases |s|
  {
    if |s| >= 2 && s[0] == '*' && s[1] == '*' {
      StripBoldCorrect(s[2..]);
      assert WithoutStars(s) == WithoutStars(s[1..]) == WithoutStars(s[2..]);
    } else if |s| > 0 {
      StripBoldCorrect(s[1..]);
      var rest := StripBold(s[1..]);
      var r := [s[0]] + rest;
      assert r[1..] == rest;
      if s[0] == '*' && |rest| > 0 {
        StripBoldHead(s[1..]);
      }
      forall i | 0 <= i < |r| - 1
        ensures !(r[i] == '*' && r[i + 1] == '*')
      {
        if i > 0 {
          assert r[i] == rest[i - 1] && r[i + 1] == rest[i];
        }
      }
    }
  }

  /** Stripping twice strips nothing more. */
  lemma {:induction false} StripBoldIdempotent(s: string)
    requires NoDoubleStar(s)
    ensures StripBold(s) == s
    decreases |s|
  {
    if |s| > 0 {
      assert NoDoubleStar(s[1..]) by {
        forall i | 0 <= i < |s[1..]| - 1
          ensures !(s[1..][i] == '*' && s[1..][i + 1] == '*')
        {
          assert s[1..][i] == s[i + 1] && s[1..][i + 1] == s[i + 2];
        }
      }
      StripBoldIdempotent(s[1..]);
    }
  }

  // ---- share text: heading rules ----

  /** `h` hash signs. */
  function Hashes(h: nat): (r: string)
    ensures |r| == h && forall i :: 0 <= i < h ==> r[i] == '#'
  {
    seq(h, _ => '#')
  }

  /** Length of the run of `\s` characters starting at `i`. */
  function SpaceRun(t: string, i: nat): (k: nat)
    requires i <= |t|
    ensures i + k <= |t|
    ensures forall j :: i <= j < i + k ==> IsSpace(t[j])
    ensures i + k < |t| ==> !IsSpace(t[i + k])
    decreases |t| - i
  {
    if i == |t| || !IsSpace(t[i]) then 0 else 1 + SpaceRun(t, i + 1)
  }

  /** Index of the first line terminator at or after `i`, or the length. */
  function LineEnd(t: string, i: nat): (e: nat)
    requires i <= |t|
    ensures i <= e <= |t|
    ensures forall j :: i <= j < e ==> !IsLineTerminator(t[j])
    ensures e < |t| ==> IsLineTerminator(t[e])
    decreases |t| - i
  {
    if i == |t| || IsLineTerminator(t[i]) then i else LineEnd(t, i + 1)
  }

  /** The largest index in `[lo, hi)` holding no line terminator. */
  function LastNonTerminator(t: string, lo: nat, hi: nat): (r: Option<nat>)
    requires lo <= hi <= |t|
    ensures r.Some? ==> lo <= r.value < hi && !IsLineTerminator(t[r.value])
    ensures r.Some? ==> forall j :: r.value < j < hi ==> IsLineTerminator(t[j])
    ensures r.None? ==> forall j :: lo <= j < hi ==> IsLineTerminator(t[j])
    decreases hi - lo
  {
    if lo == hi then None
    else if !IsLineTerminator(t[hi - 1]) then Some(hi - 1)
    else LastNonTerminator(t, lo, hi - 1)
  }

  /** A match of `/#{h}\s+(.+)/` at the start of `t`: where it ends and what
      the group captured. `\s+` first takes the whole run of white space;
      when that run reaches the end of the text, it gives characters back
      until `.+` (which stops at line terminators) can start. */
  function MatchHeading(t: string, h: nat): (m: Option<(nat, string)>)
    requires h >= 1
    ensures m.Some? ==> h < m.value.0 <= |t| && 1 <= |m.value.1| <= m.value.0 - h
    ensures m.Some? ==> m.value.1 == t[m.value.0 - |m.value.1|..m.value.0]
    ensures m.Some? ==> forall j :: 0 <= j < |m.value.1| ==> !IsLineTerminator(m.value.1[j])
    ensures m.Some? ==> m.value.0 == |t| || IsLineTerminator(t[m.value.0])
  {
    if |t| < h || t[..h] != Hashes(h) then None
    else
      var k := SpaceRun(t, h);
      if k == 0 then None
      else
        var c :=
          if h + k < |t| then Some(h + k)
          else LastNonTerminator(t, h + 1, h + k);
        match c
        case None => None
        case Some(c) => Some(Capture(t, c))
  }

  /** `(.+)` from a character that is not a line terminator: the rest of its
      line, and the index where the match ends. */
  function Capture(t: string, c: nat): (r: (nat, string))
    requires c < |t| && !IsLineTerminator(t[c])
    ensures c < r.0 <= |t| && r.1 == t[c..r.0]
    ensures forall j :: 0 <= j < |r.1| ==> !IsLineTerminator(r.1[j])
    ensures r.0 == |t| || IsLineTerminator(t[r.0])
  {
    var e := LineEnd(t, c + 1);
    assert forall j :: 0 <= j < e - c ==> t[c..e][j] == t[c + j];
    (e, t[c..e])
  }

  /** One `replace(regex, prefix + '$1*')` pass with the `g` and `m` flags:
      at each line start a match is replaced and scanning resumes after it;
      every other character is copied. `atLineStart` says whether `t` starts
      a line. */
  function Pass(t: string, atLineStart: bool, h: nat, prefix: string): string
    requires h >= 1
    decreases |t|
  {
    if |t| == 0 then ""
    else if atLineStart && MatchHeading(t, h).Some? then
      var (e, cap) := MatchHeading(t, h).value;
      prefix + cap + "*" + Pass(t[e..], false, h, prefix)
    else [t[0]] + Pass(t[1..], IsLineTerminator(t[0]), h, prefix)
  }

  const Bolt := "\U{26A1} *"
  const Trophy := "\n\U{1F3C6} *"

  /** Whether a line (without terminator) starts like a heading of level
      `h`: `h` hashes, then white space or nothing. */
  predicate StartsLikeHeading(line: string, h: nat) {
    |line| >= h && line[..h] == Hashes(h) && (|line| == h || IsSpace(line[h]))
  }

  predicate NoTerminator(s: string) {
    forall j :: 0 <= j < |s| ==> !IsLineTerminator(s[j])
  }

  /** Text that starts a new line (or ends the input). */
  predicate LineBoundary(rest: string) {
    rest == "" || IsLineTerminator(rest[0])
  }

  lemma {:induction false} CopyMidLine(line: string, rest: string, h: nat, prefix: string)
    requires h >= 1 && NoTerminator(line)
    ensures Pass(line + rest, false, h, prefix) == line + Pass(rest, false, h, prefix)
    decreases |line|
  {
    if |line| > 0 {
      assert (line + rest)[1..] == line[1..] + rest;
      assert NoTerminator(line[1..]) by {
        forall j | 0 <= j < |line[1..]| ensures !IsLineTerminator(line[1..][j]) {
          assert line[1..][j] == line[j + 1];
        }
      }
      CopyMidLine(line[1..], rest, h, prefix);
    } else {
      assert line + rest == rest;
    }
  }

  /** Hash signs never cross a line break: `h` hashes at the start of a line
      lie within that line. */
  lemma HashesWithinLine(line: string, rest: string, h: nat)
    requires NoTerminator(line) && LineBoundary(rest)
    requires |line + rest| >= h && (line + rest)[..h] == Hashes(h)
    ensures |line| >= h
  {
    var t := line + rest;
    assert forall j :: 0 <= j < |line| ==> t[j] == line[j];
    LineEndExact(t, 0, |line|);
    LineEndPastHashes(t, 0, h);
  }

  lemma {:induction false} LineEndPastHashes(t: string, i: nat, h: nat)
    requires i <= h <= |t| && t[..h] == Hashes(h)
    ensures LineEnd(t, i) >= h
    decreases h - i
  {
    if i < h {
      assert t[..h][i] == '#';
      LineEndPastHashes(t, i + 1, h);
    }
  }

  /** The heading pattern does not match at the start of a line that does
      not start like a heading. */
  lemma NoHeadingMatch(line: string, rest: string, h: nat)
    requires h >= 1 && NoTerminator(line)
    requires !StartsLikeHeading(line, h) && LineBoundary(rest)
    ensures MatchHeading(line + rest, h).None?
  {
    var t := line + rest;
    if |t| >= h && t[..h] == Hashes(h) {
      HashesWithinLine(line, rest, h);
      assert line[..h] == t[..h];
      assert t[h] == line[h];
      assert SpaceRun(t, h) == 0;
    }
  }

  /** Where the pattern does not match, one ordinary character is copied and
      scanning goes on mid-line. */
  lemma CopyFirst(t: string, h: nat, prefix: string)
    requires h >= 1 && |t| > 0 && !IsLineTerminator(t[0]) && MatchHeading(t, h).None?
    ensures Pass(t, true, h, prefix) == [t[0]] + Pass(t[1..], false, h, prefix)
  {
  }

  /** A line that does not start like a heading of level `h` is copied
      unchanged. */
  lemma PlainLine(line: string, rest: string, h: nat, prefix: string)
    requires h >= 1 && NoTerminator(line) && |line| >= 1
    requires !StartsLikeHeading(line, h) && LineBoundary(rest)
    ensures Pass(line + rest, true, h, prefix) == line + Pass(rest, false, h, prefix)
  {
    PlainLineFirst(line, rest, h, prefix);
    PlainLineTail(line, rest, h, prefix);
    ConsAppend(line, Pass(rest, false, h, prefix));
  }

  lemma ConsAppend(a: string, x: string)
    requires |a| >= 1
    ensures [a[0]] + (a[1..] + x) == a + x
  {
    assert a == [a[0]] + a[1..];
  }

  /** The first character of such a line is copied, and the scan goes on
      mid-line. */
  lemma PlainLineFirst(line: string, rest: string, h: nat, prefix: string)
    requires h >= 1 && NoTerminator(line) && |line| >= 1
    requires !StartsLikeHeading(line, h) && LineBoundary(rest)
    ensures Pass(line + rest, true, h, prefix) == [line[0]] + Pass(line[1..] + rest, false, h, prefix)
  {
    var t := line + rest;
    NoHeadingMatch(line, rest, h);
    assert t[0] == line[0];
    CopyFirst(t, h, prefix);
    assert t[1..] == line[1..] + rest;
  }

  /** The rest of such a line is copied mid-line. */
  lemma PlainLineTail(line: string, rest: string, h: nat, prefix: string)
    requires h >= 1 && NoTerminator(line) && |line| >= 1
    ensures Pass(line[1..] + rest, false, h, prefix) == line[1..] + Pass(rest, false, h, prefix)
  {
    assert NoTerminator(line[1..]) by {
      forall j | 0 <= j < |line[1..]| ensures !IsLineTerminator(line[1..][j]) {
        assert line[1..][j] == line[j + 1];
      }
    }
    CopyMidLine(line[1..], rest, h, prefix);
  }

  /** The heading pattern matches a line of `h` hashes, blanks and a title,
      capturing the title. */
  lemma HeadingMatch(w: string, title: string, rest: string, h: nat)
    requires h >= 1 && |w| >= 1 && NoTerminator(w) && forall j :: 0 <= j < |w| ==> IsSpace(w[j])
    requires |title| >= 1 && NoTerminator(title) && !IsSpace(title[0])
    requires LineBoundary(rest)
    ensures MatchHeading(Hashes(h) + w + title + rest, h) == Some((h + |w| + |title|, title))
  {
    var t := Hashes(h) + w + title + rest;
    HeadingParts(w, title, rest, h);
    SpaceRunExact(t, h, |w|);
    HeadingCapture(w, title, rest, h);
  }

  /** Where the pieces of a heading line sit in the text. */
  lemma HeadingParts(w: string, title: string, rest: string, h: nat)
    requires |title| >= 1
    ensures var t := Hashes(h) + w + title + rest;
      && |t| == h + |w| + |title| + |rest|
      && t[..h] == Hashes(h)
      && (forall j :: h <= j < h + |w| ==> t[j] == w[j - h])
      && (forall j :: h + |w| <= j < h + |w| + |title| ==> t[j] == title[j - h - |w|])
      && t[h + |w| + |title|..] == rest
  {
  }

  /** `(.+)` started at the title captures the title. */
  lemma HeadingCapture(w: string, title: string, rest: string, h: nat)
    requires |title| >= 1 && NoTerminator(title) && !IsSpace(title[0])
    requires LineBoundary(rest)
    ensures var t := Hashes(h) + w + title + rest;
      Capture(t, h + |w|) == (h + |w| + |title|, title)
  {
    var t := Hashes(h) + w + title + rest;
    var c := h + |w|;
    var e := c + |title|;
    HeadingParts(w, title, rest, h);
    assert e < |t| ==> t[e] == rest[0];
    LineEndExact(t, c + 1, e);
    assert t[c..e] == title;
  }

  /** `#{h}`, blanks and a title on one line become the prefix, the title
      and a closing star. */
  lemma HeadingLine(w: string, title: string, rest: string, h: nat, prefix: string)
    requires h >= 1 && |w| >= 1 && NoTerminator(w) && forall j :: 0 <= j < |w| ==> IsSpace(w[j])
    requires |title| >= 1 && NoTerminator(title) && !IsSpace(title[0])
    requires LineBoundary(rest)
    ensures Pass(Hashes(h) + w + title + rest, true, h, prefix) == prefix + title + "*" + Pass(rest, false, h, prefix)
  {
    var t := Hashes(h) + w + title + rest;
    HeadingMatch(w, title, rest, h);
    assert t[h + |w| + |title|..] == rest;
  }

  lemma {:induction false} SpaceRunExact(t: string, i: nat, k: nat)
    requires i + k <= |t|
    requires forall j :: i <= j < i + k ==> IsSpace(t[j])
    requires i + k < |t| ==> !IsSpace(t[i + k])
    ensures SpaceRun(t, i) == k
    decreases k
  {
    if k > 0 {
      SpaceRunExact(t, i + 1, k - 1);
    }
  }

  lemma {:induction false} LineEndExact(t: string, i: nat, e: nat)
    requires i <= e <= |t|
    requires forall j :: i <= j < e ==> !IsLineTerminator(t[j])
    requires e < |t| ==> IsLineTerminator(t[e])
    ensures LineEnd(t, i) == e
    decreases e - i
  {
    if i < e {
      LineEndExact(t, i + 1, e);
    }
  }

  /** A line terminator is copied and starts a new line. */
  lemma NewLine(c: char, rest: string, atLineStart: bool, h: nat, prefix: string)
    requires h >= 1 && IsLineTerminator(c)
    ensures Pass([c] + rest, atLineStart, h, prefix) == [c] + Pass(rest, true, h, prefix)
  {
    var t := [c] + rest;
    NoHashNoMatch(t, h);
    assert t[0] == c && t[1..] == rest;
  }

  /** The pattern needs a hash sign first. */
  lemma NoHashNoMatch(t: string, h: nat)
    requires h >= 1 && |t| >= 1 && t[0] != '#'
    ensures MatchHeading(t, h).None?
  {
    if |t| >= h {
      assert t[..h][0] != Hashes(h)[0];
    }
  }

  /** Because `\s` also matches line breaks, a bare "#" line swallows the
      line after it: "#\nfoo" becomes one heading "foo". */
  lemma BareHashJoinsNextLine()
    ensures Pass("#\nfoo", true, 1, Bolt) == Bolt + "foo" + "*"
  {
    var t := "#\nfoo";
    assert t[..1] == Hashes(1);
    SpaceRunExact(t, 1, 1);
    LineEndExact(t, 3, 5);
    assert t[2..5] == "foo";
    assert t[5..] == "";
  }

  /** The message body: bold markers removed, then level-1 and level-2
      heading rules. */
  function ShareBody(markdown: string): string {
    Pass(Pass(StripBold(markdown), true, 1, Bolt), true, 2, Trophy)
  }

  const ResultsHeader := "\n\n\U{1F4DD} *RESULTADOS:*\n"
  const ShareFooter := "\n\n\U{1F4F2} *#GritTraining*"

  /** The results section, present exactly when there are notes. */
  function NotesSection(notes: string): (r: string)
    ensures r == "" <==> notes == ""
    ensures notes != "" ==> |r| == |ResultsHeader| + |notes|
    ensures notes != "" ==> r[..|ResultsHeader|] == ResultsHeader && r[|ResultsHeader|..] == notes
  {
    if notes != "" then ResultsHeader + notes else ""
  }

  /** The text copied by the share button. `todayUpper` is the upper-cased
      long Spanish date of today. */
  function ShareText(markdown: string, notes: string, todayUpper: string): (r: string)
    ensures var head := "\U{1F480} *GRIT WOD - " + todayUpper + "*\n" + ShareBody(markdown);
      && |r| == |head| + |NotesSection(notes)| + |ShareFooter|
      && r[..|head|] == head
      && r[|head|..|r| - |ShareFooter|] == NotesSection(notes)
      && r[|r| - |ShareFooter|..] == ShareFooter
  {
    "\U{1F480} *GRIT WOD - " + todayUpper + "*\n" + ShareBody(markdown) + NotesSection(notes) + ShareFooter
  }

  /** With notes, the copied text is the one without notes, with the
      results header and the notes inserted before the footer. */
  lemma ShareTextNotes(markdown: string, notes: string, todayUpper: string)
    requires notes != ""
    ensures var plain := ShareText(markdown, "", todayUpper);
      ShareText(markdown, notes, todayUpper)
        == plain[..|plain| - |ShareFooter|] + ResultsHeader + notes + ShareFooter
  {
  }

  // ---- saving an edit ----

  datatype EditView = EditView(editing: bool, edited: string)

  /** The save button: leave edit mode and hand the shown session's own id
      and the edited text to `onUpdate`. */
  function SaveEdit(w: GeneratedWorkout, v: EditView): (r: (EditView, (string, string)))
    ensures !r.0.editing && r.0.edited == v.edited
    ensures r.1 == (w.id, v.edited)
  {
    (v.(editing := false), (w.id, v.edited))
  }

  /** Saving replaces the shown session's text, keeps it shown, and gives
      every history entry with its id the new text and the shown session's
      other fields. */
  lemma SaveEditUpdatesShownSession(st: App.AppState, v: EditView)
    requires st.workout.Some?
    ensures var (id, text) := SaveEdit(st.workout.value, v).1;
      var r := App.OnUpdate(st, id, text);
      && r.workout == Some(st.workout.value.(markdown := v.edited))
      && |r.history| == |st.history|
      && forall i :: 0 <= i < |r.history| && st.history[i].id == st.workout.value.id ==>
           r.history[i] == st.workout.value.(markdown := v.edited)
  {
  }
}

=== FILE: wrappers.dfy ===
/** Optional values, standing for JavaScript's `undefined`/`null` and for
    properties that may be missing from an object. */
module Wrappers {

  datatype Option<+T> = None | Some(value: T) {

    /** The value, or `default` when there is none (JavaScript's `x ?? d`). */
    function GetOr(default: T): T {
      match this
      case Some(v) => v
      case None => default
    }
  }

  function Min(a: int, b: int): int {
    if a <= b then a else b
  }

  function Max(a: int, b: int): int {
    if a >= b then a else b
  }
}
